=== FILE: README.md ===
# ekman core, modelled in Dafny

ekman is a workout logger. A terminal client (`tui`) records sets of exercises day by day
and talks to an HTTP server (`server`). Both share a library (`core`) that turns logged sets
into graph series. This project models the sequential logic of that system as immutable
datatypes and pure functions, and proves what the code promises about it.

**Workout grid of the terminal client** (tui/src/state.rs), in three modules:
- `SetEntry` is one grid row.
- `ExerciseCursor` is one exercise: its sets, the set cursor, the Weight/Reps focus and the
  one-second debounce timer.
- `WorkoutApp` holds the `App` operations the workout view routes keys through. It also
  holds the `SetsLoaded`, `SetSaved` and `SetDeleted` arms of `handle_response`.
- The monotonic clock is a parameter `now` in milliseconds. The wall clock is a parameter
  `wall`. A transition returns the new state and the requests it would send.
- Also from state.rs:
  - `url_encode`, which is percent-encoding per section 2.1 of RFC 3986 and passes through
    exactly the unreserved set of section 2.3 (`UrlCodec`);
  - the login-form field cycle and the weekday selector of the plan manager
    (`AuthManage`).

**Graph engines.**
- core/src/lib.rs (`DailyGraph`) groups sets by date.
- core/src/logic.rs (`SessionGraph`) groups sets by session.
- Both reduce each group by a metric (max weight, total volume, best set volume, Epley
  estimate), sort by date and downsample into at most `max_points` buckets.
- The bucket arithmetic, `slice::chunks` and the folds are shared in `Series`.
- Values are exact reals. Dates are day numbers.

**Parsers and tables.**
- The key-binding table and config loader (tui/src/keybind.rs, `KeyBindings`).
- The command name table (tui/src/command.rs, `Commands`).
- The session cookie helpers of server/src/auth.rs (`SessionAuth`):
  - token extraction from a `name=value; name=value` cookie header as in section 4.2.1 of
    RFC 6265;
  - the lower-case base16 token encoding of section 8 of RFC 4648;
  - the `Set-Cookie` text with its `Max-Age`.

**Helper modules.**
- `Text`: `str::trim`, `split`, `split_once` and UTF-8 lengths.
- `NumText`: `i32` parsing and printing, decimal weights and the `{:.1}` rendering.
- `Wrappers`: `Option`/`Result`.

Where the code and its documentation differ, the model follows the code:
- the push operations reset on a missing or expired timer, but `should_auto_advance`
  needs a running, expired one;
- `Backspace` in the key table is bound to the `Backspace` command.

## Model

| member | source | states |
|---|---|---|
| SetEntry.Empty | tui/src/state.rs:1391-1405 | a blank set is empty and consistent; its weight text reads back as the seed weight to one decimal when that is positive, else as 0 |
| SetEntry.FromServer | tui/src/state.rs:1407-1417 | a server set becomes a confirmed, non-pending row whose reps text parses back to the server's reps and whose weight text to its weight (one decimal) |
| SetEntry.ApplyRepsBuffer | tui/src/state.rs:1423-1433 | reps become the parse of the buffer; completion time is set exactly when reps are, is stamped with the wall clock only if missing, and is kept when present; nothing else changes |
| ExerciseCursor.ShouldAutoAdvance | tui/src/state.rs:1251-1253 | true exactly for a running timer that has expired (strictly more than 1000 ms); no timer never advances |
| ExerciseCursor.ResetTimer | tui/src/state.rs:1255-1257 | only the timer is cleared, after which the push operations reset and nothing auto-advances |
| ExerciseCursor.PropagateWeight | tui/src/state.rs:1335-1342 | sets other than the cursor's without reps become the same set with the weight as one-decimal text; the cursor set and sets with reps are untouched |
| ExerciseCursor.PushWeightChar | tui/src/state.rs:1259-1277 | anything but ASCII digits and '.' changes nothing; otherwise the cursor weight text is cleared when the timer is idle, then extended by the char, becomes the default weight, is propagated to sets without reps, and the timer restarts |
| ExerciseCursor.BackspaceWeight | tui/src/state.rs:1279-1284 | drops the last weight character of the cursor set only, and the default weight becomes the remaining text's value |
| ExerciseCursor.PushRepsChar | tui/src/state.rs:1287-1313 | non-digits change nothing and answer false; a digit resets an idle buffer, is appended and reparsed, and the completion time is kept when present and stamped with the wall clock when reps appear without one; the set's other fields are kept; the answer is true exactly when the buffer was empty and the digit is above '2' |
| ExerciseCursor.BackspaceReps | tui/src/state.rs:1315-1324 | drops the last reps character and reparses; an empty buffer clears reps and completion; an existing completion time survives and a missing one is stamped with the wall clock when reps remain; the set's other fields are kept |
| ExerciseCursor.BumpWeight | tui/src/state.rs:1326-1333 | the cursor weight moves by delta but never below zero and becomes the default; the cursor set and every set without reps get exactly that weight as one-decimal text, with their other fields kept; sets with reps are unchanged; the grid invariant holds |
| ExerciseCursor.TrimSets | tui/src/state.rs:1344-1349 | only trailing empty sets are removed, never the last remaining one, and the kept prefix is unchanged |
| ExerciseCursor.TrimEmptyTrailing | tui/src/state.rs:1344-1349 | trims trailing empty sets and clamps the cursor, so at least one set remains and the cursor is on the grid |
| ExerciseCursor.VisibleLen | tui/src/state.rs:1351-1357 | at least one row; the selected exercise shows all its sets |
| ExerciseCursor.VisibleLenMatchesTrim | tui/src/state.rs:1344-1357 | an unselected exercise shows exactly the rows that trimming keeps |
| ExerciseCursor.ApplyServerSets | tui/src/state.rs:1359-1369 | the server list replaces the sets (a single blank set when it is empty), the cursor is clamped onto the grid and the default weight becomes the last set's weight |
| ExerciseCursor.LastRowWeight | tui/src/state.rs:1366-1368 | the weight read back from the last server row is the server's weight rounded to tenths |
| ExerciseCursor.FindByNumber | tui/src/state.rs:1372 | finds the first set with the given number, or shows there is none |
| ExerciseCursor.SortByNumber | tui/src/state.rs:1385 | the result is sorted by number and is a permutation of the input |
| ExerciseCursor.ConfirmedWeight | tui/src/state.rs:1378-1381 | with the timer idle the weight text reads back as the saved weight to tenths; otherwise the typed text is kept |
| ExerciseCursor.ApplySavedSet | tui/src/state.rs:1371-1387 | a matching set takes id, reps, reps text and completion from the server and stops pending, and its weight and the default weight are overwritten only when the timer is idle, with the set count unchanged; with no match the set is added (count + 1) and the list stays a sorted permutation |
| ExerciseCursor.ApplySavedSetValid | tui/src/state.rs:1371-1387 | reconciling a save keeps at least one set and the cursor on the grid |
| ExerciseCursor.ApplySavedSetIdempotent | tui/src/state.rs:1371-1387 | delivering the same save twice at the same clock equals delivering it once, when the named set is present |
| ExerciseCursor.ApplySavedSetAppendNotIdempotent | tui/src/state.rs:1383-1386 | a concrete state where the set is missing: a second delivery differs from the first, because it now finds the set and moves the default weight |
| ExerciseCursor.SeedWeight | tui/src/state.rs:1228-1238 | the heaviest weight of a last session at most ninety days old, else 0 |
| ExerciseCursor.FromTemplate | tui/src/state.rs:1227-1249 | the sets are exactly one blank set numbered 1 carrying the seed weight, with the cursor on it, Weight focus and no timer |
| WorkoutApp.DayNoon | tui/src/state.rs:846-849 | the completion time used for a set without one falls inside its day |
| WorkoutApp.ActivityRequest | tui/src/state.rs:444-451 | the activity request covers the 21 days ending at the wall clock |
| WorkoutApp.RequestSetsFor | tui/src/state.rs:460-469 | marks (day, exercise) as loading and sends one load request exactly when it was not loading already |
| WorkoutApp.RequestSetsForOnce | tui/src/state.rs:460-469 | at most one request, and asking again while it is outstanding sends nothing |
| WorkoutApp.RequestCurrentSets | tui/src/state.rs:865-869 | a load request for the selected exercise exactly when it has an id and is not already loading; nothing else changes |
| WorkoutApp.AdvanceSet | tui/src/state.rs:804-827 | before the last set the cursor moves by one with no new set; on the last set a blank set numbered len+1, seeded with the last weight, is appended and selected; focus becomes Reps and the timer resets either way |
| WorkoutApp.Tick | tui/src/state.rs:241-254 | the workout auto-advance fires only in the workout view, on the Reps focus of a set with reps, after a running timer expired; it then is exactly `advance_set`: the cursor moves one set on (appending a set when needed), Reps focus, timer cleared; otherwise nothing changes |
| WorkoutApp.SyncCurrentSet | tui/src/state.rs:829-863 | a set with reps on an exercise with an id is saved (with its weight, reps and completion time, or noon of the day) and marked pending; otherwise nothing changes and nothing is sent |
| WorkoutApp.SelectExercise | tui/src/state.rs:604-623 | the selection moves by delta clamped to the list; a moved-from exercise is trimmed of empty trailing sets and the new one only has its timer cleared (staying put trims and clears the same one); other exercises are untouched; the load request is the one `request_current_sets` makes for the new selection; the invariant holds |
| WorkoutApp.ToggleFocus | tui/src/state.rs:625-633 | the selected exercise's focus flips and its timer clears; nothing else changes |
| WorkoutApp.MoveSetCursor | tui/src/state.rs:635-642 | the cursor moves by delta clamped to the sets and the timer clears; nothing else changes |
| WorkoutApp.TabNext | tui/src/state.rs:644-679 | Weight to Reps, then to the next set's Weight, clearing the timer and touching nothing else; then to the next exercise: the one left is trimmed, the new one is on set 0 and Weight with the timer cleared, and its sets are requested; nothing past the very last field; the invariant holds |
| WorkoutApp.ToNextExercise | tui/src/state.rs:666-678 | the exercise left is trimmed, the next one lands on its first set and Weight field with no timer, every other exercise is unchanged, and the only request is the load `request_current_sets` makes for it |
| WorkoutApp.TabPrev | tui/src/state.rs:681-716 | Reps to Weight, then to the previous set's Reps, clearing the timer and touching nothing else; then to the previous exercise: the one left is trimmed, the new one is on its last set and Reps with the timer cleared, and its sets are requested; nothing before the very first field; the invariant holds |
| WorkoutApp.ToPrevExercise | tui/src/state.rs:703-715 | the exercise left is trimmed, the previous one lands on its last set (0 when it has none) and Reps field with no timer, every other exercise is unchanged, and the only request is the load `request_current_sets` makes for it |
| WorkoutApp.TabPrevUndoesTabNext | tui/src/state.rs:644-716 | inside one exercise, TabPrev after TabNext returns to the same exercise, set and field |
| WorkoutApp.InputChar | tui/src/state.rs:720-748 | typing keeps the grid invariant, the selection, day and loading keys, and sends at most one save for the current day |
| WorkoutApp.InputRepsChar | tui/src/state.rs:730-746 | typing into reps, with the auto-advance before and after, keeps the grid invariant, the selection, day and loading keys, and sends at most one save for the current day |
| WorkoutApp.InputRepsDigitLands | tui/src/state.rs:730-746 | a digit typed before the timer expires is appended to the reps buffer (restarted when the timer was idle), the reps become its parse, and the cursor moves on exactly when that digit commits the count alone |
| WorkoutApp.Backspace | tui/src/state.rs:750-758 | keeps the grid invariant and the selection and sends at most one save |
| WorkoutApp.BumpWeightBy | tui/src/state.rs:760-765 | keeps the grid invariant and the selection and sends at most one save |
| WorkoutApp.Renumber | tui/src/state.rs:787-790 | sets are numbered 1..n and nothing else in them changes |
| WorkoutApp.DeleteCurrentSet | tui/src/state.rs:767-802 | nothing happens without a selected exercise, an exercise id or sets; otherwise only the selected exercise's grid changes, as `RemoveAtCursor` states, and a delete request for the removed set's number is sent exactly when that set had a server id |
| WorkoutApp.RemoveAtCursor | tui/src/state.rs:778-792 | the cursor set is removed (a blank set is left when it was the only one), the others keep their order and contents and are renumbered 1..n, the cursor stays where it was or moves to the new last set, and nothing else in the exercise changes |
| WorkoutApp.DeleteOnlySetLeavesBlank | tui/src/state.rs:782-785 | deleting the only set leaves one empty set under the cursor |
| WorkoutApp.HandleResponse | tui/src/state.rs:301-369 | responses for another day leave the exercises alone; a load response clears its loading key, sends nothing, and on success replaces only the matching exercise with the server sets applied (no change on failure or unknown exercise); a failed save re-requests the sets; a successful save reconciles into the matching exercise and asks for activity; a successful delete re-requests sets and activity |
| WorkoutApp.StaleResponsesIgnored | tui/src/state.rs:307-309 | any sequence of responses for other days leaves the exercises and the day unchanged |
| WorkoutApp.ApplyAll | tui/src/state.rs:256-369 | any sequence of set responses keeps the grid invariant |
| AuthManage.NextField | tui/src/state.rs:1180-1186 | the next field is never the current one; `FieldCycle` shows three steps return and that `prev_field` undoes it |
| AuthManage.PrevField | tui/src/state.rs:1180-1194 | the previous field is never the current one and the next field of it is the current one |
| AuthManage.FieldCycle | tui/src/state.rs:1180-1194 | next and previous undo each other, and three steps return to the start |
| AuthManage.ManageSelectDay | tui/src/state.rs:1006-1014 | only while browsing: the weekday moves by delta modulo 7 (Euclidean), stays within 0..6, and the exercise cursor resets |
| AuthManage.SelectDayBackAndForth | tui/src/state.rs:1006-1014 | a step of delta days and a step back of delta days select the original day again, for any delta within the `i32` range |
| AuthManage.SelectDayWholeWeek | tui/src/state.rs:1006-1014 | seven steps return to the same day; Sunday + 1 is Monday and Monday - 1 is Sunday |
| UrlCodec.Triplet | tui/src/state.rs:1478-1480 | a byte becomes '%' and its two upper-case hex digits, high nibble first |
| UrlCodec.DecodeEncodedBytes | tui/src/state.rs:1478-1480 | decoding the triplets of some bytes, followed by any text, gives those bytes ahead of what the text decodes to |
| UrlCodec.PercentEncodeBytes | tui/src/state.rs:1478-1480 | every byte becomes '%' and two upper-case hex digits, high nibble first |
| UrlCodec.UrlEncode | tui/src/state.rs:1472-1485 | the output holds only unreserved characters and '%' |
| UrlCodec.UrlEncodeRoundTrip | tui/src/state.rs:1472-1485 | percent-decoding the output gives back the UTF-8 bytes of the input |
| UrlCodec.PassThroughExactlyUnreserved | tui/src/state.rs:1475-1477 | a character passes through unchanged exactly when it is unreserved |
| NumText.ParseI32 | tui/src/state.rs:1424 | a digit string parses to its value when that fits in `i32`, else fails; the empty string fails |
| NumText.IntToStringRoundTrip | tui/src/state.rs:1413 | printing an `i32` and parsing it back gives the number |
| NumText.FormatTenthsRoundTrip | tui/src/state.rs:1454-1456 | the one-decimal rendering of a weight parses back to the weight rounded half-even to tenths |
| NumText.ParseWeight | tui/src/state.rs:1454-1456 | the decimal value of the text, 0 when the text is not a decimal; `ParseDecimalDigits` and `FormatTenthsRoundTrip` give that value for digit strings and rendered weights |
| NumText.ParseDecimalDigits | tui/src/state.rs:1454-1456 | a non-empty digit string parses to its decimal value |
| NumText.FormatTenthsExact | tui/src/state.rs:1454-1456 | a weight that is already a whole number of tenths survives rendering and parsing exactly |
| Commands.Name | tui/src/command.rs:56-76 | every name is non-empty, and "digit" is exactly the name of the Digit commands |
| Commands.FromStr | tui/src/command.rs:30-50 | a parse gives a non-digit command whose name is the input; a failed parse means no non-digit command has that name |
| Commands.FromStrName | tui/src/command.rs:30-76 | parsing the name of any command other than Digit gives that command back |
| Commands.DigitNameDoesNotParse | tui/src/command.rs:73 | every Digit is named "digit", and "digit" does not parse |
| Commands.NameInjective | tui/src/command.rs:57-75 | two commands with the same name are equal, unless they are Digit |
| KeyBindings.SpecOf | tui/src/keybind.rs:23-33 | a key event keeps its code and only its Control, Alt and Shift modifiers |
| KeyBindings.Defaults | tui/src/keybind.rs:36-68 | no default binds a Digit command; Esc, 'q' and Ctrl-c quit; BackTab is bound with Shift |
| KeyBindings.Get | tui/src/keybind.rs:103-112 | digits and '.' are Digit whatever the modifiers and table; any other key finds exactly its binding |
| KeyBindings.DigitBindingsShadowed | tui/src/keybind.rs:103-109 | no binding can take a digit or '.' away from Digit |
| KeyBindings.ParseBracketedKey | tui/src/keybind.rs:157-198 | a parse sets ctrl, alt and shift exactly when "C", "A" or "S" is among the dash-separated prefixes (shift also for backtab), and its key is the named key of the lowered last segment or else its one character; it fails exactly when that segment is neither a key name nor one byte, including the empty segment |
| KeyBindings.SpecOfSegments | tui/src/keybind.rs:165-197 | ctrl, alt and shift are set exactly by "C", "A" and "S" among the prefixes (shift also for backtab); the key is the named key or else the name's single character; there is no spec exactly when the name is neither a key name nor one byte |
| KeyBindings.KeyAliases | tui/src/keybind.rs:175-187 | "escape", "return" and "space" give the same spec as "esc", "enter" and " ", namely Esc, Enter and the space character |
| KeyBindings.ParseBracketedKeyIgnoresCase | tui/src/keybind.rs:174-180 | key names are matched without regard to case |
| KeyBindings.ParseKeySpec | tui/src/keybind.rs:143-155 | a trimmed "<…>" goes to the bracketed parser on its inside; otherwise a one-byte string is that plain character and anything else is none |
| KeyBindings.RenderRoundTrip | tui/src/keybind.rs:143-198 | every expressible key spec written as "<C-A-S-name>" parses back to itself |
| KeyBindings.TrimEndMatches | tui/src/keybind.rs:91 | the input is the result followed by some number of copies of the pattern, and the result no longer ends with the pattern |
| KeyBindings.TrimMatches | tui/src/keybind.rs:91 | the result is a slice of the input with only the character outside it, and neither starts nor ends with that character |
| KeyBindings.LineEntry | tui/src/keybind.rs:79-97 | blank, comment, '$', section and '='-less lines give nothing; an entry's key parses from the trimmed text before the first '=' and its command from the trimmed, ':'-stripped, "<Enter>"-stripped text after it |
| KeyBindings.ApplyLine | tui/src/keybind.rs:93-95 | a line with an entry inserts or overrides that one key; any other line changes nothing |
| KeyBindings.ApplyLines | tui/src/keybind.rs:79-97 | loading never removes a key |
| KeyBindings.ApplyEntriesLastWins | tui/src/keybind.rs:93-95 | applying entries in order, an entry's binding holds at the end unless a later entry binds the same key |
| KeyBindings.ApplyLinesLastWins | tui/src/keybind.rs:79-97 | a line's binding takes effect, whatever the table held, unless a later line rebinds the same key |
| KeyBindings.ApplyLinesKeeps | tui/src/keybind.rs:79-97 | a key that no line rebinds keeps its binding |
| KeyBindings.ApplyLinesOnlyRebinds | tui/src/keybind.rs:79-97 | a key that is new after loading was bound by some line |
| KeyBindings.Load | tui/src/keybind.rs:71-100 | an unreadable file gives the defaults; otherwise the lines are applied over the defaults in file order |
| KeyBindings.LoadAppliesLine | tui/src/keybind.rs:71-100 | after loading, each line's key maps to that line's command unless a later line rebinds the key |
| KeyBindings.LoadKeepsQuit | tui/src/keybind.rs:41-43 | Esc, 'q' and Ctrl-c still quit after loading any file that does not rebind them |
| SessionAuth.HeaderToStr | server/src/auth.rs:187 | the header reads as text exactly when every byte is visible ASCII or tab, and then the text is those bytes |
| SessionAuth.SegmentToken | server/src/auth.rs:189-194 | a segment carries a token only when, trimmed, it is "ekman_session=" followed by that token |
| SessionAuth.SegmentTokenComplete | server/src/auth.rs:189-194 | every segment of that shape carries its token, later '=' characters included |
| SessionAuth.FirstToken | server/src/auth.rs:188-196 | the token comes from the first segment that carries one; with no such segment there is none |
| SessionAuth.ExtractToken | server/src/auth.rs:186-197 | a missing or non-text header gives nothing; otherwise the first carrying ';'-segment decides |
| SessionAuth.LeadingSessionSegmentWins | server/src/auth.rs:188-194 | a header that starts with the session cookie yields its value, whatever follows |
| SessionAuth.HexEncode | server/src/auth.rs:206-215 | two lower-case hex digits per byte at positions 2i and 2i+1, high nibble first |
| SessionAuth.HexRoundTrip | server/src/auth.rs:206-215 | decoding the hex text gives back the bytes |
| SessionAuth.TokenShape | server/src/auth.rs:199-204 | a 32-byte token is 64 characters from 0-9a-f |
| SessionAuth.TruncSeconds | server/src/auth.rs:175 | whole seconds truncated toward zero |
| SessionAuth.MaxAgeSeconds | server/src/auth.rs:172-176 | Max-Age is 0 for an expired session and otherwise the whole seconds until expiry |
| SessionAuth.SessionCookie | server/src/auth.rs:172-179 | the cookie text when every byte is allowed in a header, else the empty value |
| SessionAuth.SessionCookieCarriesToken | server/src/auth.rs:172-197 | the cookie text for a fresh token, read back by the extractor's segment search, yields that token |
| SessionAuth.PrintableBytes | server/src/auth.rs:187 | printable ASCII text is one byte per character and reads back through `to_str` as itself |
| SessionAuth.CookieTextPrintable | server/src/auth.rs:172-179 | the cookie text of a 32-byte token is printable ASCII |
| SessionAuth.SessionCookieOfToken | server/src/auth.rs:172-179 | for a 32-byte token the fallback to the empty value never happens: the cookie is exactly the text's bytes |
| SessionAuth.SessionCookieReadsBack | server/src/auth.rs:172-197 | the `Set-Cookie` value of a fresh token, sent back as the `Cookie` header, extracts to that token |
| Series.CeilDivSpec | core/src/lib.rs:265 | `div_ceil` gives the least r with r·m ≥ n |
| Series.BucketCountBounds | core/src/lib.rs:265-267 | with n > m > 0 the bucket size is positive and the number of buckets is between 1 and m |
| Series.Chunks | core/src/lib.rs:267 | `chunks(k)` gives ceil(n/k) chunks, each non-empty and at most k long |
| Series.ChunkAt | core/src/logic.rs:93 | chunk i is the run of the input starting at i·k, k long or up to the end |
| Series.ChunksConcat | core/src/logic.rs:93 | the chunks put back together are the input |
| Series.MaxFold | core/src/lib.rs:272 | the fold from 0 with max is at least 0 and every value, and is 0 or one of the values |
| Series.SumConcat | core/src/lib.rs:275 | the sum of two runs is the sum of their sums |
| Series.MaxFoldConcat | core/src/lib.rs:272 | the max fold of two runs is the larger of their max folds |
| Series.Aggregate | core/src/logic.rs:98-105 | peak metrics take the max fold, volume metrics the sum |
| Series.Reduce | core/src/logic.rs:93-110 | one point per chunk, dated by its first element and valued by its aggregate |
| Series.Downsample | core/src/logic.rs:72-113 | empty for no points or no room; the points themselves when they fit; otherwise ceil(n/ceil(n/max)) points, between 1 and max |
| Series.ReduceChunkAt | core/src/logic.rs:93-109 | point i is dated by the input at i·b and aggregates the run of b points from there |
| Series.DownsampleIsReduce | core/src/logic.rs:91-112 | past the fitting case the output is the reduction of the ceil(n/max) chunks |
| Series.ReduceSum | core/src/logic.rs:102-104 | summing chunks and then summing the sums gives the total |
| Series.DownsampleKeepsTotal | core/src/lib.rs:274-276 | downsampling a volume metric keeps the total of the series |
| Series.ReduceChunksAscending | core/src/logic.rs:93-97 | chunk starts of an ascending series are ascending |
| Series.DownsampleAscending | core/src/lib.rs:265-280 | downsampling an ascending series keeps it ascending |
| Series.DownsampleSorted | core/src/logic.rs:72-113 | downsampling a date-sorted series keeps it sorted by date |
| DailyGraph.Estimate1Rm | core/src/lib.rs:208-215 | at most one rep is the weight itself; a non-negative weight is never lowered; thirty reps double it |
| DailyGraph.Estimate1RmMonotone | core/src/lib.rs:209-215 | more reps never lower the estimate of a non-negative weight |
| DailyGraph.Estimate1RmExamples | core/src/lib.rs:287-292 | 100 for one rep and for none, and about 116.67 for five |
| DailyGraph.DayMetric | core/src/lib.rs:217-231 | total volume is the sum of weight·reps; every other metric is at least 0 and at least each set's weight, volume or estimate, and is 0 or one of them |
| DailyGraph.DayMetricAttained | core/src/lib.rs:220-229 | a non-zero peak metric is reached by one of the day's sets |
| DailyGraph.DayMetricTotalSplits | core/src/lib.rs:221 | the total volume of two runs of sets adds up |
| DailyGraph.DayMetricExamples | core/src/lib.rs:294-311 | the two-set day gives 105, 815 and 500 |
| DailyGraph.InsertDate | core/src/lib.rs:242-253 | adding a date keeps the list strictly ascending and adds exactly that date |
| DailyGraph.Dates | core/src/lib.rs:241-253 | the group keys after sorting: every date that occurs, once each, strictly ascending |
| DailyGraph.Group | core/src/lib.rs:242-245 | a date's group holds exactly the sets of that date |
| DailyGraph.GroupCounts | core/src/lib.rs:242-245 | a date's group is a sub-multiset: each set of that date as often as in the input, nothing else |
| DailyGraph.GroupFirst | core/src/lib.rs:242-245 | a date's group starts with the first set of that date in the input |
| DailyGraph.GroupAppend | core/src/lib.rs:242-245 | grouping distributes over concatenation, so a group keeps input order |
| DailyGraph.DailySeries | core/src/lib.rs:247-252 | one point per date, valued by the day metric of that date's group |
| DailyGraph.BuildGraph | core/src/lib.rs:234-281 | empty exactly when there are no sets or no room; never more than max points; dates strictly ascending |
| DailyGraph.BuildGraphFits | core/src/lib.rs:241-263 | with room for every date: one point per date that occurs, valued by that date's day metric |
| DailyGraph.BuildGraphKeepsTotal | core/src/lib.rs:270-277 | downsampling a volume graph keeps the sum of the daily values |
| DailyGraph.DayMetricSingle | core/src/lib.rs:218-230 | a lone set's metric is its own quantity, floored at 0 for the peak metrics |
| DailyGraph.DailySeriesOfIncreasing | core/src/lib.rs:241-252 | sets on distinct dates each give their own point |
| DailyGraph.SixDaysInTwoPoints | core/src/lib.rs:313-325 | the six-day test squeezed into two points gives 53 on day 1 and 56 on day 4 |
| SessionGraph.EstimateOneRm | core/src/logic.rs:16-21 | agrees with `estimate_1rm` of the date-keyed engine on every input |
| SessionGraph.ComputeSessionMetric | core/src/logic.rs:24-35 | the peak metrics fold from 0 and are never negative |
| SessionGraph.SessionMetricIsDayMetric | core/src/logic.rs:24-35 | the session fold equals `day_metric` of lib.rs on the same sets, for every metric |
| SessionGraph.SessionMetricExamples | core/src/logic.rs:149-165 | the test session gives 105, 815, 500 and an estimate above 105 |
| SessionGraph.SessionGroup | core/src/logic.rs:46-49 | a session's group holds exactly its sets, and is non-empty for a session that occurs |
| SessionGraph.SessionGroupCounts | core/src/logic.rs:46-49 | a session's group holds each of its sets as often as the input does, and nothing else |
| SessionGraph.SessionGroupFirst | core/src/logic.rs:46-49 | a session's group starts with the session's first set in the input |
| SessionGraph.SessionGroupAppend | core/src/logic.rs:46-49 | grouping distributes over concatenation, so a group keeps input order |
| SessionGraph.FirstOfSession | core/src/logic.rs:54-56 | the index of a session's first set: that set is of the session and no earlier one is |
| SessionGraph.SessionPoint | core/src/logic.rs:53-59 | a session's point is dated by the session's first set in the input and valued by the metric of all the session's sets |
| SessionGraph.InsertByDate | core/src/logic.rs:63 | inserting keeps the series sorted by date and adds exactly the one point; a point dated no earlier than the last goes at the end |
| SessionGraph.SortByDate | core/src/logic.rs:63 | the result is sorted by date and a permutation of the input |
| SessionGraph.SortByDateSorted | core/src/logic.rs:63 | a sorted series is left as it is |
| SessionGraph.SortedPermutationUnique | core/src/logic.rs:63 | a date-sorted permutation of a strictly ascending series is that series |
| SessionGraph.BuildGraphPoints | core/src/logic.rs:37-65 | empty exactly when there are no sets or no room; never more than max points; sorted by date |
| SessionGraph.BuildGraphPointsFits | core/src/logic.rs:46-64 | with room for every session: one point per session, each exactly once, sorted by date |
| SessionGraph.BuildGraphPointsCoversSessions | core/src/logic.rs:46-64 | with room, every session's point appears in the graph |
| SessionGraph.SessionPointsOfUnique | core/src/logic.rs:46-61 | sets of distinct sessions each give their own point |
| SessionGraph.SixSessionsInTwoPoints | core/src/logic.rs:167-183 | in whatever order the map yields the six test sessions, squeezed into two points they give 53 on day 1 and 56 on day 4 |
| Text.SplitJoin | tui/src/keybind.rs:79 | splitting joined separator-free parts gives the parts back |
| Text.SplitOnce | tui/src/keybind.rs:89 | `split_once` fails exactly when the separator is absent, and otherwise splits at its first occurrence |
| Text.Trim | tui/src/keybind.rs:80 | the result is a slice of the input with only whitespace outside it, and has no surrounding whitespace; a string without any is unchanged |

## Left out

- Networking, async plumbing and files: `tui/src/api.rs`, `tui/src/io.rs`, the config-file
  read and the cookie jar. Responses are inputs to `HandleResponse`. Requests are returned
  as values. The config file is an `Option<string>`.
- Server handlers, SQL, startup and rendering: `server/src/routes.rs`, `handlers.rs`,
  `db.rs`, `lib.rs`, `main.rs`, `error.rs`, `tui/src/main.rs` and `tui/src/ui.rs` are not
  part of this model.
- The `handle_response` arms for login, plans, graphs and activity, and `apply_day`, are
  not modelled. Neither are the Manage and Exercises view handlers other than
  `manage_select_day`, which mostly emit requests.
- Status-line strings are not modelled.
- Crypto and randomness are not modelled: argon2, TOTP and the `OsRng` bytes. The token
  bytes are a parameter of `SessionAuth.TokenShape`.
- Clocks: `Instant` and `Utc::now` are the parameters `now` and `wall` in milliseconds.
  chrono's sub-millisecond precision is not modelled.
- Floating point: weights and metric values are exact reals. IEEE rounding, NaN and the
  `f64::max` NaN rule are not modelled.
- Weight parsing only models optionally signed decimals with at most one '.'. The
  exponent, `inf` and `nan` forms of `str::parse::<f64>` are not modelled, because the
  weight buffer only ever receives digits and '.'.
- Dates are day numbers. The `%Y-%m-%d` rendering of graph points is not modelled.
- Set numbers are unbounded integers. The `i32` wrap of `len + 1` past 2^31 sets is not
  modelled.
- `HashMap` iteration order in core/src/logic.rs is the parameter `order`. It is required
  to list each session once.
- The `unwrap_or_else(Utc::now)` fallbacks in core/src/logic.rs are not modelled: groups
  and chunks are never empty, so those fallbacks never run.
- Unicode lowercasing of key names is ASCII lowercasing plus the Kelvin sign, the only
  non-ASCII character whose lowercase is ASCII. Every other non-ASCII character stays
  non-ASCII, so the parse outcome is the same.
- WorkoutApp.InputChar: states only the invariants and the shape of the requests. The
  effect on the current set is stated by `ExerciseCursor.PushWeightChar` and
  `ExerciseCursor.PushRepsChar`, which it applies.
- WorkoutApp.InputRepsChar: states only the invariants and the shape of the requests. The
  effect of a digit on the current set is stated by `WorkoutApp.InputRepsDigitLands`, for a
  timer that has not expired; an expired timer first advances as `WorkoutApp.Tick` states.
- WorkoutApp.Backspace: states only the invariants and the request shape. The cell-level
  effect is stated by `ExerciseCursor.BackspaceWeight` and `ExerciseCursor.BackspaceReps`.
- WorkoutApp.BumpWeightBy: states only the invariants and the request shape. The
  cell-level effect is stated by `ExerciseCursor.BumpWeight`.
- WorkoutApp.TabPrevUndoesTabNext: covers moves inside one exercise only. Crossing into
  the next exercise trims the one left behind, so the reverse move can land elsewhere.
- ExerciseCursor.ApplySavedSetIdempotent: holds only when the named set is present.
  `ApplySavedSetAppendNotIdempotent` exhibits a repeated append that is not a no-op.
- SessionGraph.BuildGraphPointsFits: does not state the relative order of sessions on the
  same date. That order comes from the unspecified map order.
- SessionAuth.HexEncode: takes any number of bytes, while the source takes exactly 32.
  `TokenShape` states the 32-byte case.
- MoveSetCursor requires a non-empty set list on the selected exercise, because
  `clamp(0, -1)` panics in Rust. DeleteCurrentSet requires the cursor on the grid, because
  `Vec::remove` panics out of range.

=== FILE: auth_manage.dfy ===
/** Two small cursors of tui/src/state.rs outside the workout grid: the field cycle of the
    login form (`AuthState::next_field` / `prev_field`) and the weekday selector of the plan
    manager (`App::manage_select_day`). */
module AuthManage {
  import opened NumText

  /** `AuthField`: the three inputs of the login form. */
  datatype AuthField = Username | Password | Totp

  /** `next_field`: Username, Password, Totp, then round again. */
  function NextField(f: AuthField): (r: AuthField)
    ensures r != f
  {
    match f
    case Username => Password
    case Password => Totp
    case Totp => Username
  }

  /** `prev_field`: the same cycle backwards. */
  function PrevField(f: AuthField): (r: AuthField)
    ensures r != f
    ensures NextField(r) == f
  {
    match f
    case Username => Totp
    case Password => Username
    case Totp => Password
  }

  /** Each direction undoes the other, and three steps come back to the start. */
  lemma FieldCycle(f: AuthField)
    ensures PrevField(NextField(f)) == f
    ensures NextField(PrevField(f)) == f
    ensures NextField(NextField(NextField(f))) == f
    ensures NextField(NextField(f)) == PrevField(f)
  {
  }

  datatype ManageMode = Browse | AddExercise

  /** The part of `ManageState` that the day selector reads and writes; `selectedDay`
      counts from Monday = 0. */
  datatype ManageState = ManageState(mode: ManageMode, selectedDay: nat, selectedExercise: nat)

  const DaysPerWeek: nat := 7

  /** `manage_select_day`: only while browsing, moves the selected weekday by `delta`
      with `rem_euclid(7)` (Dafny's `%` is Euclidean) and resets the exercise cursor. The
      sum is an `i32` addition, so it must not overflow. */
  function ManageSelectDay(m: ManageState, delta: int): (r: ManageState)
    requires m.selectedDay < DaysPerWeek
    requires InI32(m.selectedDay + delta)
    ensures r.selectedDay < DaysPerWeek
    ensures m.mode != Browse ==> r == m
    ensures m.mode == Browse ==>
      && r.mode == Browse
      && r.selectedExercise == 0
      && (r.selectedDay - m.selectedDay - delta) % DaysPerWeek == 0
  {
    if m.mode != Browse then m
    else
      var next := (m.selectedDay + delta) % DaysPerWeek;
      ManageState(m.mode, next, 0)
  }

  /** A step forward and a step back select the same day again. */
  lemma SelectDayBackAndForth(m: ManageState, delta: int)
    requires m.selectedDay < DaysPerWeek && -0x7FFF_FFF0 <= delta <= 0x7FFF_FFF0
    ensures var there := ManageSelectDay(m, delta);
      ManageSelectDay(there, -delta).selectedDay == m.selectedDay
  {
  }

  /** Seven steps of one day go round the whole week. */
  lemma SelectDayWholeWeek(m: ManageState)
    requires m.selectedDay < DaysPerWeek
    ensures ManageSelectDay(m, 7).selectedDay == m.selectedDay
    ensures m.selectedDay == 6 && m.mode == Browse ==> ManageSelectDay(m, 1).selectedDay == 0
    ensures m.selectedDay == 0 && m.mode == Browse ==> ManageSelectDay(m, -1).selectedDay == 6
  {
  }
}

=== FILE: command.dfy ===
/** The command table of tui/src/command.rs: sixteen named commands plus `Digit`, which
    carries the typed character and has the shared name "digit". */
module Commands {
  import opened Wrappers

  datatype Command =
    | Quit | NextExercise | PrevExercise | NextDay | PrevDay | Today
    | NextField | PrevField | MoveLeft | MoveRight | NextSet | PrevSet
    | BumpWeightUp | BumpWeightDown | DeleteSet | Digit(ch: char) | Backspace

  /** `Command::name`: the canonical name. */
  function Name(c: Command): (r: string)
    ensures |r| > 0
    ensures c.Digit? <==> r == "digit"
  {
    match c
    case Quit => "quit"
    case NextExercise => "next-exercise"
    case PrevExercise => "prev-exercise"
    case NextDay => "next-day"
    case PrevDay => "prev-day"
    case Today => "today"
    case NextField => "next-field"
    case PrevField => "prev-field"
    case MoveLeft => "move-left"
    case MoveRight => "move-right"
    case NextSet => "next-set"
    case PrevSet => "prev-set"
    case BumpWeightUp => "bump-weight-up"
    case BumpWeightDown => "bump-weight-down"
    case DeleteSet => "delete-set"
    case Digit(_) => "digit"
    case Backspace => "backspace"
  }

  /** `Command::from_str`: an exact, case-sensitive match on the sixteen names; `Digit` has
      no textual form. A parsed command names itself; a failure means no non-`Digit`
      command has this name. */
  function FromStr(s: string): (r: Option<Command>)
    ensures r.Some? ==> !r.value.Digit? && Name(r.value) == s
    ensures r.None? ==> forall c: Command :: Name(c) == s ==> c.Digit?
  {
    if s == "quit" then Some(Quit)
    else if s == "next-exercise" then Some(NextExercise)
    else if s == "prev-exercise" then Some(PrevExercise)
    else if s == "next-day" then Some(NextDay)
    else if s == "prev-day" then Some(PrevDay)
    else if s == "today" then Some(Today)
    else if s == "next-field" then Some(NextField)
    else if s == "prev-field" then Some(PrevField)
    else if s == "move-left" then Some(MoveLeft)
    else if s == "move-right" then Some(MoveRight)
    else if s == "next-set" then Some(NextSet)
    else if s == "prev-set" then Some(PrevSet)
    else if s == "bump-weight-up" then Some(BumpWeightUp)
    else if s == "bump-weight-down" then Some(BumpWeightDown)
    else if s == "delete-set" then Some(DeleteSet)
    else if s == "backspace" then Some(Backspace)
    else None
  }

  /** Every command but `Digit` reads back from its name. */
  lemma FromStrName(c: Command)
    requires !c.Digit?
    ensures FromStr(Name(c)) == Some(c)
  {
  }

  /** "digit" is the name of every `Digit` and parses to nothing. */
  lemma DigitNameDoesNotParse(ch: char)
    ensures Name(Digit(ch)) == "digit" && FromStr("digit") == None
  {
  }

  /** Names tell the non-`Digit` commands apart. */
  lemma NameInjective(a: Command, b: Command)
    requires !a.Digit? && Name(a) == Name(b)
    ensures a == b
  {
    FromStrName(a);
    if !b.Digit? {
      FromStrName(b);
    }
  }
}

=== FILE: exercise_state.dfy ===
/** Per-exercise editing state (`ExerciseState` in tui/src/state.rs): the set grid, the set
    cursor, the Weight/Reps focus and the one debounce timer of the exercise. The monotonic
    clock (`Instant`) is the parameter `now`, the wall clock (`Utc::now`) the parameter
    `wall`, both in milliseconds. */
module ExerciseCursor {
  import opened Wrappers
  import opened Text
  import opened NumText
  import opened SetEntry

  datatype Focus = Weight | Reps

  datatype ExerciseState = ExerciseState(
    id: Option<int>,
    name: string,
    focus: Focus,
    sets: seq<SetState>,
    cursor: nat,
    defaultWeight: real,
    lastInput: Option<int>)

  /** `INPUT_TIMEOUT`: one second. */
  const InputTimeoutMs: int := 1000

  /** `t.elapsed() > INPUT_TIMEOUT`: strictly more than the timeout has passed. */
  predicate Expired(t: int, now: int) {
    now - t > InputTimeoutMs
  }

  /** The reset test of the push operations (`is_none_or`): no timer, or an expired one. */
  predicate TimerIdle(last: Option<int>, now: int) {
    last.None? || Expired(last.value, now)
  }

  /** The grid invariant: at least one set, and the cursor on one of them. */
  predicate Valid(ex: ExerciseState) {
    |ex.sets| >= 1 && ex.cursor < |ex.sets|
  }

  /** `should_auto_advance` (`is_some_and`): only a running timer that has expired; a
      missing timer, which makes the push operations reset, does not advance. */
  function ShouldAutoAdvance(ex: ExerciseState, now: int): (b: bool)
    ensures b <==> ex.lastInput.Some? && TimerIdle(ex.lastInput, now)
    ensures ex.lastInput.None? ==> !b
  {
    match ex.lastInput
    case Some(t) => Expired(t, now)
    case None => false
  }

  /** `reset_timer`. */
  function ResetTimer(ex: ExerciseState): (r: ExerciseState)
    ensures r.lastInput.None? && r.(lastInput := ex.lastInput) == ex
    ensures !ShouldAutoAdvance(r, 0) && TimerIdle(r.lastInput, 0)
  {
    ex.(lastInput := None)
  }

  /** `propagate_weight`: every set other than the cursor's that has no reps yet gets the
      weight as its text; sets with reps and the cursor's set are left alone. */
  function PropagateWeight(sets: seq<SetState>, cursor: nat, w: real): (r: seq<SetState>)
    ensures |r| == |sets|
    ensures forall i :: 0 <= i < |sets| && (i == cursor || sets[i].reps.Some?) ==> r[i] == sets[i]
    ensures forall i :: 0 <= i < |sets| && i != cursor && sets[i].reps.None? ==>
      ParseWeight(r[i].weight) == RoundTenths(w) && r[i] == sets[i].(weight := FormatTenths(w))
  {
    FormatTenthsRoundTrip(w);
    seq(|sets|, i requires 0 <= i < |sets| =>
      if i != cursor && sets[i].reps.None? then sets[i].(weight := FormatTenths(w)) else sets[i])
  }

  /** `push_weight_char`: only ASCII digits and '.' are taken. The cursor set's weight text
      is cleared first when the timer is idle, then the character is appended; the parsed
      weight becomes the default and is copied to the sets without reps; the timer restarts. */
  function PushWeightChar(ex: ExerciseState, ch: char, now: int): (r: ExerciseState)
    ensures !(IsAsciiDigit(ch) || ch == '.') ==> r == ex
    ensures (IsAsciiDigit(ch) || ch == '.') ==>
      && r.lastInput == Some(now)
      && r.(lastInput := ex.lastInput, sets := ex.sets, defaultWeight := ex.defaultWeight) == ex
      && |r.sets| == |ex.sets|
    ensures (IsAsciiDigit(ch) || ch == '.') && ex.cursor < |ex.sets| ==>
      var c := ex.cursor;
      && r.sets[c].weight == (if TimerIdle(ex.lastInput, now) then [] else ex.sets[c].weight) + [ch]
      && r.sets[c].(weight := ex.sets[c].weight) == ex.sets[c]
      && r.defaultWeight == ParseWeight(r.sets[c].weight)
      && (forall i :: 0 <= i < |ex.sets| && i != c && ex.sets[i].reps.Some? ==> r.sets[i] == ex.sets[i])
      && (forall i :: 0 <= i < |ex.sets| && i != c && ex.sets[i].reps.None? ==>
            ParseWeight(r.sets[i].weight) == RoundTenths(r.defaultWeight)
            && r.sets[i].(weight := ex.sets[i].weight) == ex.sets[i])
    ensures (IsAsciiDigit(ch) || ch == '.') && ex.cursor >= |ex.sets| ==>
      r.sets == ex.sets && r.defaultWeight == ex.defaultWeight
  {
    if !(IsAsciiDigit(ch) || ch == '.') then ex
    else if ex.cursor < |ex.sets| then
      var c := ex.cursor;
      var entry := ex.sets[c];
      var text := (if TimerIdle(ex.lastInput, now) then [] else entry.weight) + [ch];
      var w := ParseWeight(text);
      var sets := PropagateWeight(ex.sets[c := entry.(weight := text)], c, w);
      ex.(sets := sets, defaultWeight := w, lastInput := Some(now))
    else
      ex.(lastInput := Some(now))
  }

  /** Rust's `String::pop` when only the remainder is kept. */
  function DropLast(s: string): (r: string)
    ensures |s| > 0 ==> r == s[..|s| - 1]
    ensures |s| == 0 ==> r == s
  {
    if |s| == 0 then s else s[..|s| - 1]
  }

  /** `backspace_weight`: drop the last character of the cursor set's weight and take the
      remaining text's value as the default weight; the timer and the other sets stay. */
  function BackspaceWeight(ex: ExerciseState): (r: ExerciseState)
    ensures ex.cursor >= |ex.sets| ==> r == ex
    ensures ex.cursor < |ex.sets| ==>
      && |r.sets| == |ex.sets|
      && r.sets[ex.cursor].weight == DropLast(ex.sets[ex.cursor].weight)
      && r.sets[ex.cursor].(weight := ex.sets[ex.cursor].weight) == ex.sets[ex.cursor]
      && (forall i :: 0 <= i < |ex.sets| && i != ex.cursor ==> r.sets[i] == ex.sets[i])
      && r.defaultWeight == ParseWeight(DropLast(ex.sets[ex.cursor].weight))
      && r.(sets := ex.sets, defaultWeight := ex.defaultWeight) == ex
  {
    if ex.cursor < |ex.sets| then
      var entry := ex.sets[ex.cursor];
      var text := DropLast(entry.weight);
      ex.(sets := ex.sets[ex.cursor := entry.(weight := text)], defaultWeight := ParseWeight(text))
    else ex
  }

  /** The single-key commit policy of `push_reps_char`: a digit above '2' typed into an
      empty buffer is a whole rep count. */
  predicate CommitsAlone(buffer: string, ch: char) {
    |buffer| == 0 && ch > '2'
  }

  /** `push_reps_char`: non-digits and a cursor off the grid change nothing and answer
      false. Otherwise the buffer is cleared when the timer is idle, the digit appended,
      the reps reparsed and the timer restarted; the answer says whether to auto-advance. */
  function PushRepsChar(ex: ExerciseState, ch: char, now: int, wall: int): (r: (ExerciseState, bool))
    ensures !IsAsciiDigit(ch) || ex.cursor >= |ex.sets| ==> r == (ex, false)
    ensures IsAsciiDigit(ch) && ex.cursor < |ex.sets| ==>
      var c := ex.cursor;
      var before := if TimerIdle(ex.lastInput, now) then [] else ex.sets[c].repsBuffer;
      && r.0.lastInput == Some(now)
      && |r.0.sets| == |ex.sets|
      && r.0.sets[c].repsBuffer == before + [ch]
      && r.0.sets[c].reps == ParseI32(before + [ch])
      && RepsConsistent(r.0.sets[c])
      && (r.1 <==> CommitsAlone(before, ch))
      && (r.0.sets[c].reps.Some? ==>
            r.0.sets[c].completedAt == (if ex.sets[c].completedAt.Some? then ex.sets[c].completedAt else Some(wall)))
      && r.0.sets[c].(repsBuffer := ex.sets[c].repsBuffer, reps := ex.sets[c].reps,
                      completedAt := ex.sets[c].completedAt) == ex.sets[c]
      && (forall i :: 0 <= i < |ex.sets| && i != c ==> r.0.sets[i] == ex.sets[i])
      && r.0.(sets := ex.sets, lastInput := ex.lastInput) == ex
  {
    if !IsAsciiDigit(ch) || ex.cursor >= |ex.sets| then (ex, false)
    else
      var c := ex.cursor;
      var entry := ex.sets[c];
      var before := if TimerIdle(ex.lastInput, now) then [] else entry.repsBuffer;
      // Both branches of the source push the digit and reparse; only the answer differs.
      var updated := ApplyRepsBuffer(entry.(repsBuffer := before + [ch]), wall);
      (ex.(sets := ex.sets[c := updated], lastInput := Some(now)), CommitsAlone(before, ch))
  }

  /** `backspace_reps`: drop the last reps character and reparse; on an already empty
      buffer, clear the reps and the completion time. */
  function BackspaceReps(ex: ExerciseState, wall: int): (r: ExerciseState)
    ensures ex.cursor >= |ex.sets| ==> r == ex
    ensures ex.cursor < |ex.sets| ==>
      var c := ex.cursor;
      var s := ex.sets[c];
      && |r.sets| == |ex.sets|
      && RepsConsistent(r.sets[c])
      && r.sets[c].repsBuffer == DropLast(s.repsBuffer)
      && (|s.repsBuffer| > 0 ==> r.sets[c].reps == ParseI32(DropLast(s.repsBuffer)))
      && (|s.repsBuffer| == 0 ==> r.sets[c].reps.None?)
      && (r.sets[c].reps.Some? && s.completedAt.Some? ==> r.sets[c].completedAt == s.completedAt)
      && (r.sets[c].reps.Some? && s.completedAt.None? ==> r.sets[c].completedAt == Some(wall))
      && r.sets[c].(repsBuffer := s.repsBuffer, reps := s.reps, completedAt := s.completedAt) == s
      && (forall i :: 0 <= i < |ex.sets| && i != c ==> r.sets[i] == ex.sets[i])
      && r.(sets := ex.sets) == ex
  {
    if ex.cursor >= |ex.sets| then ex
    else
      var s := ex.sets[ex.cursor];
      var updated :=
        if |s.repsBuffer| > 0 then ApplyRepsBuffer(s.(repsBuffer := DropLast(s.repsBuffer)), wall)
        else s.(reps := None, completedAt := None);
      ex.(sets := ex.sets[ex.cursor := updated])
  }

  /** `bump_weight`: shift the cursor set's weight by `delta`, never below zero, rewrite its
      text, make it the default and copy it to the sets without reps. */
  function BumpWeight(ex: ExerciseState, delta: real): (r: ExerciseState)
    ensures Valid(ex) ==> Valid(r)
    ensures ex.cursor >= |ex.sets| ==> r == ex
    ensures ex.cursor < |ex.sets| ==>
      var c := ex.cursor;
      var target := ParseWeight(ex.sets[c].weight) + delta;
      && |r.sets| == |ex.sets|
      && r.defaultWeight == (if target > 0.0 then target else 0.0)
      && ParseWeight(r.sets[c].weight) == RoundTenths(r.defaultWeight)
      && (forall i :: 0 <= i < |ex.sets| && i != c && ex.sets[i].reps.None? ==>
            ParseWeight(r.sets[i].weight) == RoundTenths(r.defaultWeight))
      && (forall i :: 0 <= i < |ex.sets| && i != c && ex.sets[i].reps.Some? ==> r.sets[i] == ex.sets[i])
      && r.sets[c] == ex.sets[c].(weight := FormatTenths(r.defaultWeight))
      && (forall i :: 0 <= i < |ex.sets| && i != c && ex.sets[i].reps.None? ==>
            r.sets[i] == ex.sets[i].(weight := FormatTenths(r.defaultWeight)))
      && r.(sets := ex.sets, defaultWeight := ex.defaultWeight) == ex
  {
    if ex.cursor >= |ex.sets| then ex
    else
      var c := ex.cursor;
      var target := ParseWeight(ex.sets[c].weight) + delta;
      var w := if target > 0.0 then target else 0.0;
      FormatTenthsRoundTrip(w);
      var sets := PropagateWeight(ex.sets[c := ex.sets[c].(weight := FormatTenths(w))], c, w);
      ex.(sets := sets, defaultWeight := w)
  }

  /** The set list with trailing empty sets popped, never below one set. */
  function TrimSets(sets: seq<SetState>): (r: seq<SetState>)
    ensures |r| <= |sets| && r == sets[..|r|]
    ensures |sets| >= 1 ==> |r| >= 1
    ensures |r| < |sets| ==> |r| >= 1
    ensures |r| > 1 ==> !IsEmpty(r[|r| - 1])
    ensures forall i :: |r| <= i < |sets| ==> IsEmpty(sets[i])
  {
    if |sets| > 1 && IsEmpty(sets[|sets| - 1]) then TrimSets(sets[..|sets| - 1]) else sets
  }

  /** `trim_empty_trailing`: drop trailing empty sets while more than one remains, then
      clamp the cursor. */
  function TrimEmptyTrailing(ex: ExerciseState): (r: ExerciseState)
    ensures |r.sets| <= |ex.sets| && r.sets == ex.sets[..|r.sets|]
    ensures forall i :: |r.sets| <= i < |ex.sets| ==> IsEmpty(ex.sets[i])
    ensures |r.sets| > 1 ==> !IsEmpty(r.sets[|r.sets| - 1])
    ensures |ex.sets| >= 1 ==> Valid(r)
    ensures r.cursor == (if ex.cursor < |r.sets| then ex.cursor else if |r.sets| > 0 then |r.sets| - 1 else 0)
    ensures r.(sets := ex.sets, cursor := ex.cursor) == ex
  {
    var sets := TrimSets(ex.sets);
    var last := if |sets| > 0 then |sets| - 1 else 0;
    ex.(sets := sets, cursor := if ex.cursor < last then ex.cursor else last)
  }

  /** Number of empty sets at the end of the list. */
  function TrailingEmpty(sets: seq<SetState>): (n: nat)
    ensures n <= |sets|
  {
    if |sets| > 0 && IsEmpty(sets[|sets| - 1]) then TrailingEmpty(sets[..|sets| - 1]) + 1 else 0
  }

  /** `visible_len`: rows the grid shows; the selected exercise shows every set, the
      others hide trailing empty sets, and at least one row is always shown. */
  function VisibleLen(ex: ExerciseState, selected: bool): (n: nat)
    ensures n >= 1
    ensures selected ==> n == (if |ex.sets| > 1 then |ex.sets| else 1)
    ensures !selected ==> n <= (if |ex.sets| > 1 then |ex.sets| else 1)
  {
    if selected then (if |ex.sets| > 1 then |ex.sets| else 1)
    else
      var shown := |ex.sets| - TrailingEmpty(ex.sets);
      if shown > 1 then shown else 1
  }

  lemma {:induction false} TrimSetsLength(sets: seq<SetState>)
    requires |sets| >= 1
    ensures |TrimSets(sets)| == (if |sets| - TrailingEmpty(sets) > 1 then |sets| - TrailingEmpty(sets) else 1)
  {
    if |sets| > 1 && IsEmpty(sets[|sets| - 1]) {
      TrimSetsLength(sets[..|sets| - 1]);
    }
  }

  /** An unselected exercise shows exactly the rows that trimming would keep. */
  lemma VisibleLenMatchesTrim(ex: ExerciseState)
    requires |ex.sets| >= 1
    ensures VisibleLen(ex, false) == |TrimEmptyTrailing(ex).sets|
  {
    TrimSetsLength(ex.sets);
  }

  /** The server's sets as grid rows, in the server's order. */
  function ServerRows(data: seq<WorkoutSet>): (rows: seq<SetState>)
    ensures |rows| == |data|
    ensures forall i :: 0 <= i < |data| ==> rows[i] == FromServer(data[i])
  {
    seq(|data|, i requires 0 <= i < |data| => FromServer(data[i]))
  }

  /** `apply_server_sets`: the server's list replaces the local one (a blank set seeded with
      the default weight when the list is empty), the cursor is clamped and the default
      weight becomes the last set's weight. */
  function ApplyServerSets(ex: ExerciseState, data: seq<WorkoutSet>): (r: ExerciseState)
    ensures Valid(r)
    ensures |data| > 0 ==> r.sets == ServerRows(data)
    ensures |data| > 0 ==> r.defaultWeight == RoundTenths(data[|data| - 1].weight)
    ensures |data| == 0 ==> r.sets == [Empty(1, ex.defaultWeight)]
    ensures |data| == 0 ==> r.defaultWeight == (if ex.defaultWeight > 0.0 then RoundTenths(ex.defaultWeight) else 0.0)
    ensures r.cursor == (if ex.cursor < |r.sets| then ex.cursor else |r.sets| - 1)
    ensures r.(sets := ex.sets, cursor := ex.cursor, defaultWeight := ex.defaultWeight) == ex
  {
    if |data| == 0 then
      var blank := Empty(1, ex.defaultWeight);
      ex.(sets := [blank], cursor := 0, defaultWeight := ParseWeight(blank.weight))
    else
      var last := |data| - 1;
      ex.(sets := ServerRows(data), cursor := if ex.cursor < last then ex.cursor else last,
          defaultWeight := LastRowWeight(data))
  }

  /** `parse_weight` of the last server row's weight text: the server's weight to tenths. */
  function LastRowWeight(data: seq<WorkoutSet>): (w: real)
    requires |data| > 0
    ensures w == RoundTenths(data[|data| - 1].weight)
  {
    ParseWeight(FromServer(data[|data| - 1]).weight)
  }

  /** Index of the first set with the given number. */
  function FindByNumber(sets: seq<SetState>, number: int): (r: Option<nat>)
    ensures r.Some? ==> r.value < |sets| && sets[r.value].number == number
    ensures r.Some? ==> forall j :: 0 <= j < r.value ==> sets[j].number != number
    ensures r.None? ==> forall j :: 0 <= j < |sets| ==> sets[j].number != number
  {
    if |sets| == 0 then None
    else if sets[0].number == number then Some(0)
    else match FindByNumber(sets[1..], number)
      case Some(k) => Some(k + 1)
      case None => None
  }

  predicate SortedByNumber(sets: seq<SetState>) {
    forall i, j :: 0 <= i < j < |sets| ==> sets[i].number <= sets[j].number
  }

  /** Insert before the first set numbered at least as high (keeps equal numbers stable). */
  function InsertByNumber(x: SetState, sets: seq<SetState>): (r: seq<SetState>)
    requires SortedByNumber(sets)
    ensures |r| == |sets| + 1
    ensures multiset(r) == multiset(sets) + multiset{x}
    ensures SortedByNumber(r)
  {
    if |sets| == 0 then [x]
    else if x.number <= sets[0].number then [x] + sets
    else
      var rest := InsertByNumber(x, sets[1..]);
      NumbersBoundedBelow(rest, x, sets[1..], sets[0].number);
      assert sets == [sets[0]] + sets[1..];
      [sets[0]] + rest
  }

  /** A lower bound on set numbers survives adding one more set above it. */
  lemma NumbersBoundedBelow(r: seq<SetState>, x: SetState, sets: seq<SetState>, lo: int)
    requires multiset(r) == multiset(sets) + multiset{x}
    requires lo <= x.number && forall i :: 0 <= i < |sets| ==> lo <= sets[i].number
    ensures forall i :: 0 <= i < |r| ==> lo <= r[i].number
  {
    forall i | 0 <= i < |r| ensures lo <= r[i].number {
      assert r[i] in multiset(r);
      if r[i] != x {
        assert r[i] in multiset(sets);
        assert r[i] in sets;
      }
    }
  }

  /** `sort_by_key(|s| s.number)`: a stable sort by set number. */
  function SortByNumber(sets: seq<SetState>): (r: seq<SetState>)
    ensures SortedByNumber(r)
    ensures multiset(r) == multiset(sets)
    ensures |r| == |sets|
  {
    if |sets| == 0 then []
    else
      assert sets == [sets[0]] + sets[1..];
      InsertByNumber(sets[0], SortByNumber(sets[1..]))
  }

  /** The fields a save response overwrites on a matching set. */
  function ConfirmSet(s: SetState, saved: WorkoutSet, overwriteWeight: bool): (r: SetState)
    ensures r.id == Some(saved.id) && r.reps == Some(saved.reps as int) && !r.pending
    ensures ParseI32(r.repsBuffer) == r.reps && r.completedAt == Some(saved.completedAt)
    ensures r.number == s.number
    ensures overwriteWeight ==> ParseWeight(r.weight) == RoundTenths(saved.weight)
    ensures !overwriteWeight ==> r.weight == s.weight
  {
    IntToStringRoundTrip(saved.reps);
    s.(id := Some(saved.id), reps := Some(saved.reps as int), repsBuffer := IntToString(saved.reps),
       completedAt := Some(saved.completedAt), pending := false,
       weight := ConfirmedWeight(s.weight, saved.weight, overwriteWeight))
  }

  /** The weight text after a save response: the server's weight as `{:.1}` when it may be
      overwritten, the text being typed otherwise. */
  function ConfirmedWeight(current: string, saved: real, overwrite: bool): (t: string)
    ensures overwrite ==> ParseWeight(t) == RoundTenths(saved)
    ensures !overwrite ==> t == current
  {
    FormatTenthsRoundTrip(saved);
    if overwrite then FormatTenths(saved) else current
  }

  /** `apply_saved_set`: reconcile a save response by set number into the current state.
      A matching set takes the server's id, reps and time and stops pending; its weight and
      the default weight are overwritten only when the user is not typing (timer idle). With
      no matching set the response is appended and the list re-sorted by number. */
  function ApplySavedSet(ex: ExerciseState, saved: WorkoutSet, now: int): (r: ExerciseState)
    ensures r.(sets := ex.sets, defaultWeight := ex.defaultWeight) == ex
    ensures FindByNumber(ex.sets, saved.setNumber).Some? ==>
      var k := FindByNumber(ex.sets, saved.setNumber).value;
      && |r.sets| == |ex.sets|
      && (forall i :: 0 <= i < |ex.sets| && i != k ==> r.sets[i] == ex.sets[i])
      && r.sets[k].id == Some(saved.id) && r.sets[k].reps == Some(saved.reps as int)
      && ParseI32(r.sets[k].repsBuffer) == r.sets[k].reps
      && r.sets[k].completedAt == Some(saved.completedAt) && !r.sets[k].pending
      && RepsConsistent(r.sets[k]) && r.sets[k].number == ex.sets[k].number
      && (TimerIdle(ex.lastInput, now) ==>
            ParseWeight(r.sets[k].weight) == RoundTenths(saved.weight) && r.defaultWeight == saved.weight)
      && (!TimerIdle(ex.lastInput, now) ==>
            r.sets[k].weight == ex.sets[k].weight && r.defaultWeight == ex.defaultWeight)
    ensures FindByNumber(ex.sets, saved.setNumber).None? ==>
      && |r.sets| == |ex.sets| + 1
      && multiset(r.sets) == multiset(ex.sets) + multiset{FromServer(saved)}
      && SortedByNumber(r.sets)
      && r.defaultWeight == ex.defaultWeight
  {
    match FindByNumber(ex.sets, saved.setNumber)
    case Some(k) =>
      var idle := TimerIdle(ex.lastInput, now);
      ex.(sets := ex.sets[k := ConfirmSet(ex.sets[k], saved, idle)],
          defaultWeight := if idle then saved.weight else ex.defaultWeight)
    case None =>
      ex.(sets := SortByNumber(ex.sets + [FromServer(saved)]))
  }

  /** Reconciling keeps the grid invariant. */
  lemma ApplySavedSetValid(ex: ExerciseState, saved: WorkoutSet, now: int)
    requires Valid(ex)
    ensures Valid(ApplySavedSet(ex, saved, now))
  {
  }

  /** Applying the same save response twice, at the same clock, is the same as applying it
      once, when the set it names is present. */
  lemma ApplySavedSetIdempotent(ex: ExerciseState, saved: WorkoutSet, now: int)
    requires FindByNumber(ex.sets, saved.setNumber).Some?
    ensures ApplySavedSet(ApplySavedSet(ex, saved, now), saved, now) == ApplySavedSet(ex, saved, now)
  {
    var k := FindByNumber(ex.sets, saved.setNumber).value;
    var once := ApplySavedSet(ex, saved, now);
    assert FindByNumber(once.sets, saved.setNumber) == Some(k) by {
      FindByNumberStable(ex.sets, once.sets, saved.setNumber, k);
    }
    var idle := TimerIdle(ex.lastInput, now);
    assert ConfirmSet(once.sets[k], saved, idle) == once.sets[k];
    assert once.sets[k := once.sets[k]] == once.sets;
  }

  lemma {:induction false} FindByNumberStable(a: seq<SetState>, b: seq<SetState>, number: int, k: nat)
    requires FindByNumber(a, number) == Some(k)
    requires |a| == |b| && b[k].number == number
    requires forall i :: 0 <= i < |a| && i != k ==> b[i] == a[i]
    ensures FindByNumber(b, number) == Some(k)
  {
    if k > 0 {
      assert a[0].number != number;
      match FindByNumber(a[1..], number)
      case Some(k') =>
        FindByNumberStable(a[1..], b[1..], number, k');
      case None =>
        assert false;
    }
  }

  /** When the named set is missing the response is appended, and the second delivery then
      finds it and (timer idle) also moves the default weight: repeating such a response is
      not a no-op. */
  lemma ApplySavedSetAppendNotIdempotent()
    ensures
      var ex := ExerciseState(Some(7), "Squat", Weight, [Empty(1, 0.0)], 0, 0.0, None);
      var saved := WorkoutSet(1, 7, 0, 2, 50.0, 5, 0);
      ApplySavedSet(ApplySavedSet(ex, saved, 0), saved, 0) != ApplySavedSet(ex, saved, 0)
  {
    var ex := ExerciseState(Some(7), "Squat", Weight, [Empty(1, 0.0)], 0, 0.0, None);
    var saved := WorkoutSet(1, 7, 0, 2, 50.0, 5, 0);
    var once := ApplySavedSet(ex, saved, 0);
    assert once.defaultWeight == 0.0;
    assert FindByNumber(once.sets, 2).Some? by {
      assert FromServer(saved) in multiset(once.sets);
    }
    assert ApplySavedSet(once, saved, 0).defaultWeight == 50.0;
  }

  /** Last-session set as the daily plan lists it. */
  datatype CompactSet = CompactSet(weight: real, reps: int)

  datatype LastSession = LastSession(date: int, sets: seq<CompactSet>)

  datatype TemplateExercise = TemplateExercise(
    exerciseId: int,
    name: string,
    targetSets: Option<int>,
    lastSession: Option<LastSession>)

  /** Ninety days, the age limit for seeding from the last session. */
  const SeedWindowMs: int := 90 * 86_400_000

  /** Heaviest weight of a non-empty list (`max_by(total_cmp)`). */
  function HeaviestWeight(sets: seq<CompactSet>): (w: real)
    requires |sets| > 0
    ensures forall i :: 0 <= i < |sets| ==> sets[i].weight <= w
    ensures exists i :: 0 <= i < |sets| && sets[i].weight == w
  {
    if |sets| == 1 then sets[0].weight
    else
      var rest := HeaviestWeight(sets[1..]);
      assert forall i :: 1 <= i < |sets| ==> sets[i] == sets[1..][i - 1];
      if sets[0].weight > rest then sets[0].weight else rest
  }

  /** The seed weight of `from_template`: the heaviest set of a last session at most ninety
      days old, else 0. */
  function SeedWeight(te: TemplateExercise, wall: int): (w: real)
    ensures te.lastSession.None? ==> w == 0.0
    ensures te.lastSession.Some? && wall - te.lastSession.value.date > SeedWindowMs ==> w == 0.0
    ensures te.lastSession.Some? && wall - te.lastSession.value.date <= SeedWindowMs ==>
      var sets := te.lastSession.value.sets;
      (|sets| == 0 ==> w == 0.0)
      && (|sets| > 0 ==> (forall i :: 0 <= i < |sets| ==> sets[i].weight <= w)
                         && exists i :: 0 <= i < |sets| && sets[i].weight == w)
  {
    match te.lastSession
    case Some(s) =>
      if wall - s.date <= SeedWindowMs && |s.sets| > 0 then HeaviestWeight(s.sets) else 0.0
    case None => 0.0
  }

  /** `from_template`: one blank set seeded with the seed weight, Weight focus, no timer. */
  function FromTemplate(te: TemplateExercise, wall: int): (ex: ExerciseState)
    ensures Valid(ex) && ex.cursor == 0 && ex.focus == Weight && ex.lastInput.None?
    ensures ex.id == Some(te.exerciseId) && ex.name == te.name
    ensures ex.defaultWeight == SeedWeight(te, wall)
    ensures |ex.sets| == 1 && IsEmpty(ex.sets[0]) && ex.sets[0].number == 1
    ensures ex.sets == [Empty(1, ex.defaultWeight)]
  {
    var w := SeedWeight(te, wall);
    ExerciseState(Some(te.exerciseId), te.name, Weight, [Empty(1, w)], 0, w, None)
  }
}

=== FILE: graph.dfy ===
/** The date-keyed graph engine of core/src/lib.rs: the Epley estimate, the per-day metric,
    grouping the sets by date and downsampling the daily series. Dates are day numbers, so
    the `%Y-%m-%d` rendering of a point's date is left to the caller. */
module DailyGraph {
  import opened Series

  /** `SetData`: one logged set. */
  datatype SetData = SetData(date: int, weight: real, reps: int)

  /** `estimate_1rm`, the Epley formula: a single rep (or none) is its own one-rep max. */
  function Estimate1Rm(weight: real, reps: int): (r: real)
    ensures reps <= 1 ==> r == weight
    ensures weight >= 0.0 ==> r >= weight
    ensures reps == 30 ==> r == 2.0 * weight
  {
    if reps <= 1 then weight else weight * (1.0 + reps as real / 30.0)
  }

  /** For a non-negative weight, more reps never lower the estimate. */
  lemma Estimate1RmMonotone(weight: real, reps1: int, reps2: int)
    requires weight >= 0.0 && reps1 <= reps2
    ensures Estimate1Rm(weight, reps1) <= Estimate1Rm(weight, reps2)
  {
    if reps1 > 1 {
      assert reps1 as real / 30.0 <= reps2 as real / 30.0;
    }
  }

  lemma Estimate1RmExamples()
    ensures Estimate1Rm(100.0, 1) == 100.0
    ensures Estimate1Rm(100.0, 0) == 100.0
    ensures 116.66 < Estimate1Rm(100.0, 5) < 116.67
  {
  }

  /** What a set contributes to a metric: its weight, its volume `weight * reps`, or its
      estimated one-rep max. */
  function Quantity(metric: Metric, s: SetData): real
  {
    match metric
    case MaxWeight => s.weight
    case SessionTotalVolume => s.weight * s.reps as real
    case BestSetVolume => s.weight * s.reps as real
    case Est1Rm => Estimate1Rm(s.weight, s.reps)
  }

  function Quantities(metric: Metric, sets: seq<SetData>): (r: seq<real>)
    ensures |r| == |sets| && forall i :: 0 <= i < |sets| ==> r[i] == Quantity(metric, sets[i])
  {
    seq(|sets|, i requires 0 <= i < |sets| => Quantity(metric, sets[i]))
  }

  /** `day_metric`: the total volume sums, every other metric takes the largest quantity,
      and every fold starts from zero. */
  function DayMetric(metric: Metric, sets: seq<SetData>): (r: real)
    ensures metric == SessionTotalVolume ==> r == Sum(Quantities(metric, sets))
    ensures metric != SessionTotalVolume ==>
      && r >= 0.0
      && (forall i :: 0 <= i < |sets| ==> Quantity(metric, sets[i]) <= r)
      && (r == 0.0 || r in Quantities(metric, sets))
  {
    var qs := Quantities(metric, sets);
    if metric == SessionTotalVolume then Sum(qs) else MaxFold(qs)
  }

  /** A peak metric is reached by one of the day's sets, unless every set is below zero. */
  lemma DayMetricAttained(metric: Metric, sets: seq<SetData>)
    requires metric != SessionTotalVolume
    requires DayMetric(metric, sets) != 0.0
    ensures exists i :: 0 <= i < |sets| && DayMetric(metric, sets) == Quantity(metric, sets[i])
  {
    var qs := Quantities(metric, sets);
    var i :| 0 <= i < |qs| && qs[i] == DayMetric(metric, sets);
  }

  /** The total volume of two runs of sets is the sum of their totals. */
  lemma DayMetricTotalSplits(a: seq<SetData>, b: seq<SetData>)
    ensures DayMetric(SessionTotalVolume, a + b)
         == DayMetric(SessionTotalVolume, a) + DayMetric(SessionTotalVolume, b)
  {
    var m := SessionTotalVolume;
    assert Quantities(m, a + b) == Quantities(m, a) + Quantities(m, b);
    SumConcat(Quantities(m, a), Quantities(m, b));
  }

  /** The day metric of the two sets in the unit test: 105, 815 and 500. */
  lemma DayMetricExamples()
    ensures var sets := [SetData(0, 100.0, 5), SetData(0, 105.0, 3)];
      && DayMetric(MaxWeight, sets) == 105.0
      && DayMetric(SessionTotalVolume, sets) == 815.0
      && DayMetric(BestSetVolume, sets) == 500.0
  {
    var sets := [SetData(0, 100.0, 5), SetData(0, 105.0, 3)];
    var w := Quantities(MaxWeight, sets);
    assert w == [100.0, 105.0];
    assert w[..1] == [100.0];
    assert MaxFold(w[..1]) == 100.0;
    var v := Quantities(SessionTotalVolume, sets);
    assert v == [500.0, 315.0];
    assert v[..1] == [500.0];
    assert Sum(v[..1]) == 500.0;
    var bv := Quantities(BestSetVolume, sets);
    assert bv == [500.0, 315.0];
    assert bv[..1] == [500.0];
    assert MaxFold(bv[..1]) == 500.0;
  }

  predicate StrictlyIncreasing(ds: seq<int>) {
    forall i, j :: 0 <= i < j < |ds| ==> ds[i] < ds[j]
  }

  /** Adds a date to a strictly increasing list of dates, unless it is there already. */
  function InsertDate(ds: seq<int>, d: int): (r: seq<int>)
    requires StrictlyIncreasing(ds)
    ensures StrictlyIncreasing(r)
    ensures forall x :: x in r <==> x in ds || x == d
  {
    if |ds| == 0 then [d]
    else if d < ds[0] then [d] + ds
    else if d == ds[0] then ds
    else
      var rest := InsertDate(ds[1..], d);
      assert forall k :: 0 <= k < |rest| ==> ds[0] < rest[k] by {
        forall k | 0 <= k < |rest| ensures ds[0] < rest[k] {
          assert rest[k] in rest;
          if rest[k] != d {
            var j :| 0 <= j < |ds[1..]| && ds[1..][j] == rest[k];
            assert ds[j + 1] == rest[k];
          }
        }
      }
      [ds[0]] + rest
  }

  function DateSet(sets: seq<SetData>): set<int> {
    set s | s in sets :: s.date
  }

  /** The keys of the date-keyed map, in the order `sort_by_key` puts them: every date
      that occurs, once, ascending. */
  function Dates(sets: seq<SetData>): (r: seq<int>)
    ensures StrictlyIncreasing(r)
    ensures forall x :: x in r <==> x in DateSet(sets)
  {
    if |sets| == 0 then []
    else
      var init := sets[..|sets| - 1];
      assert sets == init + [sets[|sets| - 1]];
      InsertDate(Dates(init), sets[|sets| - 1].date)
  }

  /** A date's group: the sets logged on it, in input order, as `entry().or_default().push`
      collects them. */
  function Group(sets: seq<SetData>, d: int): (r: seq<SetData>)
    ensures forall s :: s in r <==> s in sets && s.date == d
    ensures |r| <= |sets|
    ensures d !in DateSet(sets) ==> r == []
  {
    if |sets| == 0 then []
    else
      var rest := Group(sets[1..], d);
      assert sets == [sets[0]] + sets[1..];
      if sets[0].date == d then [sets[0]] + rest else rest
  }

  /** A date's group holds each set of that date as often as the input does, and no other. */
  lemma {:induction false} GroupCounts(sets: seq<SetData>, d: int)
    ensures forall x :: multiset(Group(sets, d))[x] == if x.date == d then multiset(sets)[x] else 0
    decreases |sets|
  {
    if |sets| > 0 {
      GroupCounts(sets[1..], d);
      assert sets == [sets[0]] + sets[1..];
      assert multiset(sets) == multiset([sets[0]]) + multiset(sets[1..]);
    }
  }

  /** A date's group starts with the first set of that date in the input. */
  lemma {:induction false} GroupFirst(sets: seq<SetData>, d: int, k: nat)
    requires k < |sets| && sets[k].date == d
    requires forall j :: 0 <= j < k ==> sets[j].date != d
    ensures |Group(sets, d)| > 0 && Group(sets, d)[0] == sets[k]
    decreases k
  {
    if k > 0 {
      assert sets[1..][k - 1] == sets[k];
      GroupFirst(sets[1..], d, k - 1);
    }
  }

  /** Grouping distributes over concatenation: a group lists its sets in input order. */
  lemma {:induction false} GroupAppend(a: seq<SetData>, b: seq<SetData>, d: int)
    ensures Group(a + b, d) == Group(a, d) + Group(b, d)
    decreases |a|
  {
    if |a| == 0 {
      assert a + b == b;
    } else {
      assert (a + b)[1..] == a[1..] + b;
      GroupAppend(a[1..], b, d);
    }
  }

  /** The daily series: one point per date, valued by that date's `day_metric`. */
  function DailySeries(sets: seq<SetData>, metric: Metric): (r: seq<Point>)
    ensures |r| == |Dates(sets)|
    ensures forall i :: 0 <= i < |r| ==>
      r[i] == Point(Dates(sets)[i], DayMetric(metric, Group(sets, Dates(sets)[i])))
  {
    var ds := Dates(sets);
    seq(|ds|, i requires 0 <= i < |ds| => Point(ds[i], DayMetric(metric, Group(sets, ds[i]))))
  }

  lemma DailySeriesAscending(sets: seq<SetData>, metric: Metric)
    ensures Ascending(DailySeries(sets, metric))
  {
  }

  /** Some set gives every day at least one point. */
  lemma DatesNonEmpty(sets: seq<SetData>)
    requires |sets| > 0
    ensures |Dates(sets)| > 0
  {
    assert sets[0].date in DateSet(sets);
  }

  /** `build_graph`: nothing for no sets or no room, otherwise the daily series,
      downsampled when it has more than `maxPoints` dates. */
  function BuildGraph(sets: seq<SetData>, metric: Metric, maxPoints: nat): (r: seq<Point>)
    ensures r == [] <==> |sets| == 0 || maxPoints == 0
    ensures |r| <= maxPoints
    ensures Ascending(r)
  {
    if |sets| == 0 || maxPoints == 0 then []
    else
      var daily := DailySeries(sets, metric);
      DatesNonEmpty(sets);
      DownsampleAscending(daily, maxPoints, metric);
      Downsample(daily, maxPoints, metric)
  }

  /** With room for every date, the graph has one point per date that occurs, ascending,
      each valued by the day metric of that date's sets. */
  lemma BuildGraphFits(sets: seq<SetData>, metric: Metric, maxPoints: nat)
    requires |sets| > 0 && |Dates(sets)| <= maxPoints
    ensures var r := BuildGraph(sets, metric, maxPoints);
      && |r| == |Dates(sets)|
      && (forall d :: d in DateSet(sets) <==> exists i :: 0 <= i < |r| && r[i].date == d)
      && (forall i :: 0 <= i < |r| ==> r[i].value == DayMetric(metric, Group(sets, r[i].date)))
  {
    var r := BuildGraph(sets, metric, maxPoints);
    var ds := Dates(sets);
    DatesNonEmpty(sets);
    assert r == DailySeries(sets, metric);
    forall d | d in DateSet(sets) ensures exists i :: 0 <= i < |r| && r[i].date == d {
      var i :| 0 <= i < |ds| && ds[i] == d;
      assert r[i].date == d;
    }
  }

  /** Downsampling a volume series keeps the sum of the daily values. */
  lemma BuildGraphKeepsTotal(sets: seq<SetData>, metric: Metric, maxPoints: nat)
    requires maxPoints > 0
    requires metric == SessionTotalVolume || metric == BestSetVolume
    ensures Sum(Values(BuildGraph(sets, metric, maxPoints)))
         == Sum(Values(DailySeries(sets, metric)))
  {
    if |sets| > 0 {
      DownsampleKeepsTotal(DailySeries(sets, metric), maxPoints, metric);
    } else {
      assert DailySeries(sets, metric) == [];
    }
  }

  lemma {:induction false} InsertDateLast(ds: seq<int>, d: int)
    requires StrictlyIncreasing(ds) && forall i :: 0 <= i < |ds| ==> ds[i] < d
    ensures InsertDate(ds, d) == ds + [d]
    decreases |ds|
  {
    if |ds| > 0 {
      InsertDateLast(ds[1..], d);
      assert [ds[0]] + (ds[1..] + [d]) == ds + [d];
    }
  }

  /** Sets logged on strictly increasing dates each get their own date, in order. */
  lemma {:induction false} DatesOfIncreasing(sets: seq<SetData>)
    requires forall i, j :: 0 <= i < j < |sets| ==> sets[i].date < sets[j].date
    ensures Dates(sets) == seq(|sets|, i requires 0 <= i < |sets| => sets[i].date)
    decreases |sets|
  {
    if |sets| > 0 {
      var init := sets[..|sets| - 1];
      DatesOfIncreasing(init);
      InsertDateLast(Dates(init), sets[|sets| - 1].date);
    }
  }

  /** A lone set's day metric is its own quantity, floored at zero for the peak metrics. */
  lemma DayMetricSingle(metric: Metric, s: SetData)
    ensures var q := Quantity(metric, s);
      DayMetric(metric, [s]) == if metric == SessionTotalVolume || q >= 0.0 then q else 0.0
  {
    var qs := Quantities(metric, [s]);
    assert qs == [Quantity(metric, s)];
    assert qs[..|qs| - 1] == [];
    if metric == SessionTotalVolume {
      assert Sum(qs) == Sum([]) + qs[0];
    } else {
      assert MaxFold(qs) == if MaxFold([]) >= qs[0] then MaxFold([]) else qs[0];
    }
  }

  /** When no two sets share a date, each set is a day of its own. */
  lemma DailySeriesOfIncreasing(sets: seq<SetData>, metric: Metric)
    requires forall i, j :: 0 <= i < j < |sets| ==> sets[i].date < sets[j].date
    ensures |DailySeries(sets, metric)| == |sets|
    ensures forall i :: 0 <= i < |sets| ==>
      DailySeries(sets, metric)[i] == Point(sets[i].date, DayMetric(metric, [sets[i]]))
  {
    DatesOfIncreasing(sets);
    forall i | 0 <= i < |sets| ensures Group(sets, sets[i].date) == [sets[i]] {
      GroupOfUniqueDate(sets, i);
    }
  }

  lemma {:induction false} GroupOfUniqueDate(sets: seq<SetData>, i: nat)
    requires i < |sets|
    requires forall j :: 0 <= j < |sets| && j != i ==> sets[j].date != sets[i].date
    ensures Group(sets, sets[i].date) == [sets[i]]
    decreases |sets|
  {
    var d := sets[i].date;
    if i == 0 {
      assert forall s :: s in sets[1..] ==> s.date != d;
      assert d !in DateSet(sets[1..]);
    } else {
      GroupOfUniqueDate(sets[1..], i - 1);
    }
  }

  /** The sets of the six-day unit test: weights 51..56 on days 1..6, five reps each. */
  function SixDays(): seq<SetData> {
    [SetData(1, 51.0, 5), SetData(2, 52.0, 5), SetData(3, 53.0, 5),
     SetData(4, 54.0, 5), SetData(5, 55.0, 5), SetData(6, 56.0, 5)]
  }

  lemma SixDaysDaily()
    ensures var d := DailySeries(SixDays(), MaxWeight);
      |d| == 6 && forall i :: 0 <= i < 6 ==> d[i] == Point(i + 1, 51.0 + i as real)
  {
    var sets := SixDays();
    assert forall i :: 0 <= i < 6 ==> sets[i] == SetData(i + 1, 51.0 + i as real, 5);
    DailySeriesOfIncreasing(sets, MaxWeight);
    forall i | 0 <= i < 6 ensures DayMetric(MaxWeight, [sets[i]]) == 51.0 + i as real {
      DayMetricSingle(MaxWeight, sets[i]);
    }
  }

  /** Two peaks out of six ascending daily points valued 51..56. */
  lemma SixPointsInTwo(daily: seq<Point>)
    requires |daily| == 6 && forall i :: 0 <= i < 6 ==> daily[i] == Point(i + 1, 51.0 + i as real)
    ensures Downsample(daily, 2, MaxWeight) == [Point(1, 53.0), Point(4, 56.0)]
  {
    assert CeilDiv(6, 2) == 3;
    assert Chunks(daily[3..], 3) == [daily[3..]];
    var chunks := Chunks(daily, 3);
    assert chunks == [daily[..3], daily[3..]];
    assert Values(daily[..3]) == [51.0, 52.0, 53.0];
    assert Values(daily[3..]) == [54.0, 55.0, 56.0];
    var r := Downsample(daily, 2, MaxWeight);
    assert r == Reduce(chunks, MaxWeight);
    assert r[0] == Point(1, 53.0);
    assert r[1] == Point(4, 56.0);
  }

  /** The six-day unit test squeezed into two points: the peaks of days 1-3 and 4-6,
      dated by days 1 and 4. */
  lemma SixDaysInTwoPoints()
    ensures BuildGraph(SixDays(), MaxWeight, 2) == [Point(1, 53.0), Point(4, 56.0)]
  {
    SixDaysDaily();
    SixPointsInTwo(DailySeries(SixDays(), MaxWeight));
  }
}

=== FILE: keybind.dfy ===
/** Key bindings of the terminal client (tui/src/keybind.rs): the default table, lookup
    with the digit short-cut, the key-spec parser and the line filter of the config loader
    applied to the file's contents. */
module KeyBindings {
  import opened Wrappers
  import opened Text
  import opened Commands

  /** The key codes the parser can produce; every other terminal key is `OtherKey`. */
  datatype KeyCode =
    | Esc | Tab | BackTab | Enter | Backspace | Up | Down | Left | Right
    | Char(c: char) | OtherKey(n: int)

  /** A normalised key for lookup: code plus the three modifiers that matter. */
  datatype KeySpec = KeySpec(code: KeyCode, ctrl: bool, alt: bool, shift: bool)

  datatype Modifier = Shift | Control | Alt | Super | Hyper | Meta

  /** A terminal key event: a code and any set of modifiers. */
  datatype KeyEvent = KeyEvent(code: KeyCode, modifiers: set<Modifier>)

  type Bindings = map<KeySpec, Command>

  function Key(code: KeyCode): KeySpec { KeySpec(code, false, false, false) }
  function CtrlKey(code: KeyCode): KeySpec { KeySpec(code, true, false, false) }
  function ShiftKey(code: KeyCode): KeySpec { KeySpec(code, false, false, true) }

  /** `KeySpec::from(KeyEvent)`: only Control, Alt and Shift survive. */
  function SpecOf(ev: KeyEvent): (k: KeySpec)
    ensures k.code == ev.code
    ensures k.ctrl <==> Control in ev.modifiers
    ensures k.alt <==> Alt in ev.modifiers
    ensures k.shift <==> Shift in ev.modifiers
  {
    KeySpec(ev.code, Control in ev.modifiers, Alt in ev.modifiers, Shift in ev.modifiers)
  }

  /** `KeyBindings::defaults`. */
  function Defaults(): (m: Bindings)
    ensures forall k :: k in m ==> !m[k].Digit?
    ensures Key(Esc) in m && m[Key(Esc)] == Quit
    ensures Key(Char('q')) in m && m[Key(Char('q'))] == Quit
    ensures CtrlKey(Char('c')) in m && m[CtrlKey(Char('c'))] == Quit
    ensures ShiftKey(BackTab) in m && Key(BackTab) !in m
  {
    map[
      Key(Esc) := Quit,
      Key(Char('q')) := Quit,
      CtrlKey(Char('c')) := Quit,
      Key(Char('n')) := NextExercise,
      Key(Char('e')) := PrevExercise,
      Key(Down) := NextField,
      Key(Up) := PrevField,
      Key(Left) := MoveLeft,
      Key(Right) := MoveRight,
      Key(Tab) := NextSet,
      ShiftKey(BackTab) := PrevSet,
      Key(Char('w')) := BumpWeightUp,
      Key(Char('f')) := BumpWeightDown,
      Key(KeyCode.Backspace) := Command.Backspace]
  }

  /** The characters that always type into the focused field. */
  predicate IsDigitKey(code: KeyCode) {
    code.Char? && (IsAsciiDigit(code.c) || code.c == '.')
  }

  /** `KeyBindings::get`: digits and '.' are `Digit` whatever the modifiers and bindings;
      everything else is looked up by its normalised spec. */
  function Get(b: Bindings, ev: KeyEvent): (r: Option<Command>)
    ensures IsDigitKey(ev.code) ==> r == Some(Digit(ev.code.c))
    ensures !IsDigitKey(ev.code) ==> (r.Some? <==> SpecOf(ev) in b)
    ensures !IsDigitKey(ev.code) && r.Some? ==> r.value == b[SpecOf(ev)]
  {
    if IsDigitKey(ev.code) then Some(Digit(ev.code.c))
    else if SpecOf(ev) in b then Some(b[SpecOf(ev)])
    else None
  }

  /** A binding for a digit key can never be reached. */
  lemma DigitBindingsShadowed(b: Bindings, ch: char, mods: set<Modifier>)
    requires IsAsciiDigit(ch) || ch == '.'
    ensures Get(b, KeyEvent(Char(ch), mods)) == Some(Digit(ch))
  {
  }

  /** Lowercasing of one character as `str::to_lowercase` does it, as far as key names can
      tell: ASCII capitals and the Kelvin sign lower to ASCII; every other character either
      stays what it is or lowers to characters outside ASCII, which no key name contains. */
  function LowerChar(c: char): (r: char)
    ensures (c as int) < 0x80 ==> (r as int) < 0x80
    ensures 'a' <= r <= 'z' ==> 'a' <= c <= 'z' || 'A' <= c <= 'Z' || c == 'K'
  {
    if 'A' <= c <= 'Z' then (c as int + 32) as char
    else if c == 'K' then 'k'
    else c
  }

  function Lower(s: string): (r: string)
    ensures |r| == |s| && forall i :: 0 <= i < |s| ==> r[i] == LowerChar(s[i])
  {
    seq(|s|, i requires 0 <= i < |s| => LowerChar(s[i]))
  }

  /** The named keys, matched on the lowercased last segment. */
  function KeyName(name: string): (r: Option<KeyCode>)
    ensures r.Some? ==> |name| >= 2 && !r.value.OtherKey?
  {
    if name == "esc" || name == "escape" then Some(Esc)
    else if name == "tab" then Some(Tab)
    else if name == "backtab" then Some(BackTab)
    else if name == "enter" || name == "return" then Some(Enter)
    else if name == "backspace" then Some(KeyCode.Backspace)
    else if name == "up" then Some(Up)
    else if name == "down" then Some(Down)
    else if name == "left" then Some(Left)
    else if name == "right" then Some(Right)
    else if name == "space" then Some(Char(' '))
    else None
  }

  /** The modifier segments of a bracketed spec: all dash-separated segments but the last. */
  function Prefixes(s: string): (r: seq<string>)
    ensures |r| + 1 == |Split(s, '-')| && r == Split(s, '-')[..|r|]
  {
    var parts := Split(s, '-');
    parts[..|parts| - 1]
  }

  /** The key segment of a bracketed spec: the last dash-separated segment. */
  function KeySegment(s: string): (r: string)
    ensures r == Split(s, '-')[|Split(s, '-')| - 1] && '-' !in r
  {
    var parts := Split(s, '-');
    parts[|parts| - 1]
  }

  /** `parse_bracketed_key`: "C", "A" and "S" segments before the last set ctrl, alt and
      shift, other segments are ignored; the last segment, lowercased, is a key name or a
      single byte; "backtab" forces shift. */
  function ParseBracketedKey(s: string): (r: Option<KeySpec>)
    ensures r.Some? ==>
      && (r.value.ctrl <==> "C" in Prefixes(s))
      && (r.value.alt <==> "A" in Prefixes(s))
      && (r.value.shift <==> "S" in Prefixes(s) || r.value.code == BackTab)
      && !r.value.code.OtherKey?
    ensures r.None? <==> KeyName(Lower(KeySegment(s))).None? && ByteLen(Lower(KeySegment(s))) != 1
    ensures |KeySegment(s)| == 0 ==> r.None?
    ensures var name := Lower(KeySegment(s));
      r.Some? ==> r.value.code == (if KeyName(name).Some? then KeyName(name).value else Char(name[0]))
  {
    SpecOfSegments(Prefixes(s), Lower(KeySegment(s)))
  }

  /** The key spec a list of modifier segments and a lowercased key name describe. */
  function SpecOfSegments(prefixes: seq<string>, name: string): (r: Option<KeySpec>)
    ensures r.Some? ==>
      && (r.value.ctrl <==> "C" in prefixes)
      && (r.value.alt <==> "A" in prefixes)
      && (r.value.shift <==> "S" in prefixes || r.value.code == BackTab)
      && !r.value.code.OtherKey?
    ensures r.None? <==> KeyName(name).None? && ByteLen(name) != 1
    ensures r.Some? ==>
      && |name| > 0
      && r.value.code == (if KeyName(name).Some? then KeyName(name).value else Char(name[0]))
  {
    var ctrl := "C" in prefixes;
    var alt := "A" in prefixes;
    var shift := "S" in prefixes;
    match KeyName(name)
    case Some(code) => Some(KeySpec(code, ctrl, alt, shift || code == BackTab))
    case None =>
      if ByteLen(name) == 1 then Some(KeySpec(Char(name[0]), ctrl, alt, shift)) else None
  }

  /** The alternative spellings of the named keys: "escape" is Esc, "return" is Enter and
      "space" is the space character, with the same modifiers as any other name. */
  lemma KeyAliases(prefixes: seq<string>)
    ensures SpecOfSegments(prefixes, "escape") == SpecOfSegments(prefixes, "esc")
    ensures SpecOfSegments(prefixes, "return") == SpecOfSegments(prefixes, "enter")
    ensures SpecOfSegments(prefixes, "space") == SpecOfSegments(prefixes, " ")
    ensures SpecOfSegments(prefixes, "escape").Some? && SpecOfSegments(prefixes, "escape").value.code == Esc
    ensures SpecOfSegments(prefixes, "return").Some? && SpecOfSegments(prefixes, "return").value.code == Enter
    ensures SpecOfSegments(prefixes, "space").Some? && SpecOfSegments(prefixes, "space").value.code == Char(' ')
  {
    assert KeyName("escape") == KeyName("esc") == Some(Esc);
    assert KeyName("return") == KeyName("enter") == Some(Enter);
    assert KeyName("space") == Some(Char(' '));
    assert KeyName(" ").None? && ByteLen(" ") == 1;
  }

  /** The segments of a dash-joined spec are the joined pieces. */
  lemma SegmentsOfJoin(mods: seq<string>, x: string)
    requires forall i :: 0 <= i < |mods| ==> '-' !in mods[i]
    requires '-' !in x
    ensures Prefixes(Join(mods + [x], '-')) == mods
    ensures KeySegment(Join(mods + [x], '-')) == x
  {
    var parts := mods + [x];
    forall i | 0 <= i < |parts| ensures '-' !in parts[i] {
      if i < |mods| {
        assert parts[i] == mods[i];
      }
    }
    var joined := Join(parts, '-');
    SplitJoin(parts, '-');
    assert Split(joined, '-') == parts;
    assert parts[..|mods|] == mods;
  }

  /** Key names match without regard to case: two key segments that lower alike parse alike
      behind the same modifiers. */
  lemma ParseBracketedKeyIgnoresCase(mods: seq<string>, x: string, y: string)
    requires forall i :: 0 <= i < |mods| ==> '-' !in mods[i]
    requires '-' !in x && '-' !in y && Lower(x) == Lower(y)
    ensures ParseBracketedKey(Join(mods + [x], '-')) == ParseBracketedKey(Join(mods + [y], '-'))
  {
    SegmentsOfJoin(mods, x);
    SegmentsOfJoin(mods, y);
  }

  /** `parse_key_spec`: a trimmed "<...>" goes to the bracketed parser on the text between
      the brackets, a string of one byte is that character without modifiers, anything else
      is nothing. */
  function ParseKeySpec(s: string): (r: Option<KeySpec>)
    ensures var t := Trim(s);
      StartsWith(t, '<') && EndsWith(t, '>') ==> |t| >= 2 && r == ParseBracketedKey(t[1..|t| - 1])
    ensures var t := Trim(s);
      !(StartsWith(t, '<') && EndsWith(t, '>')) ==> (r.Some? <==> ByteLen(t) == 1)
    ensures var t := Trim(s);
      !(StartsWith(t, '<') && EndsWith(t, '>')) && r.Some? ==> r == Some(Key(Char(t[0])))
  {
    var t := Trim(s);
    if StartsWith(t, '<') && EndsWith(t, '>') then ParseBracketedKey(t[1..|t| - 1])
    else if ByteLen(t) == 1 then Some(Key(Char(t[0])))
    else None
  }

  /** The text of a key in a bracketed spec. */
  function KeyText(code: KeyCode): string
  {
    match code
    case Esc => "esc"
    case Tab => "tab"
    case BackTab => "backtab"
    case Enter => "enter"
    case Backspace => "backspace"
    case Up => "up"
    case Down => "down"
    case Left => "left"
    case Right => "right"
    case Char(c) => if c == ' ' then "space" else [c]
    case OtherKey(_) => []
  }

  /** Specs a bracketed config entry can express: no unnamed key, no capital (key names are
      lowercased), no dash (it separates segments), no non-ASCII character, and BackTab always
      shifted. */
  predicate Expressible(k: KeySpec) {
    && !k.code.OtherKey?
    && (k.code.Char? ==> (k.code.c as int) < 0x80 && !('A' <= k.code.c <= 'Z') && k.code.c != '-')
    && (k.code == BackTab ==> k.shift)
  }

  function ModifierSegments(k: KeySpec): (r: seq<string>)
    ensures forall i :: 0 <= i < |r| ==> '-' !in r[i]
    ensures ("C" in r <==> k.ctrl) && ("A" in r <==> k.alt) && ("S" in r <==> k.shift)
  {
    (if k.ctrl then ["C"] else []) + (if k.alt then ["A"] else []) + (if k.shift then ["S"] else [])
  }

  /** The bracketed spelling of a key spec, e.g. "<C-S-tab>". */
  function Render(k: KeySpec): string
  {
    "<" + Join(ModifierSegments(k) + [KeyText(k.code)], '-') + ">"
  }

  /** The lowercased key text is the key text itself, and names the key it came from. */
  lemma KeyTextReads(k: KeySpec)
    requires Expressible(k)
    ensures Lower(KeyText(k.code)) == KeyText(k.code) && '-' !in KeyText(k.code)
    ensures KeyName(KeyText(k.code)).Some? ==> KeyName(KeyText(k.code)).value == k.code
    ensures KeyName(KeyText(k.code)).None? ==> k.code.Char? && KeyText(k.code) == [k.code.c]
  {
  }

  /** The text between the brackets parses back to the spec. */
  lemma BracketedTextParses(k: KeySpec)
    requires Expressible(k)
    ensures ParseBracketedKey(Join(ModifierSegments(k) + [KeyText(k.code)], '-')) == Some(k)
  {
    var mods := ModifierSegments(k);
    var inner := Join(mods + [KeyText(k.code)], '-');
    KeyTextReads(k);
    SegmentsOfJoin(mods, KeyText(k.code));
    assert Lower(KeySegment(inner)) == KeyText(k.code);
  }

  /** Parsing the bracketed spelling of an expressible spec gives the spec back. */
  lemma RenderRoundTrip(k: KeySpec)
    requires Expressible(k)
    ensures ParseKeySpec(Render(k)) == Some(k)
  {
    var inner := Join(ModifierSegments(k) + [KeyText(k.code)], '-');
    var t := Render(k);
    assert t == "<" + inner + ">";
    assert t[0] == '<' && t[|t| - 1] == '>';
    assert Trim(t) == t;
    assert t[1..|t| - 1] == inner;
    BracketedTextParses(k);
  }

  /** `trim_matches(c)`: every leading and trailing `c` removed. */
  function TrimMatches(s: string, c: char): (r: string)
    ensures |r| <= |s|
    ensures |r| > 0 ==> r[0] != c && r[|r| - 1] != c
    ensures (|s| == 0 || (s[0] != c && s[|s| - 1] != c)) ==> r == s
    ensures exists i, j :: 0 <= i <= j <= |s| && r == s[i..j] && OnlyOutside(s, i, j, c)
  {
    var t := StripLeading(s, c);
    var r := StripTrailing(t, c);
    StrippedIsSlice(s, t, r, c);
    r
  }

  /** Every character of `s` before `i` or from `j` on is `c`. */
  predicate OnlyOutside(s: string, i: nat, j: nat, c: char) {
    forall k :: 0 <= k < |s| && (k < i || j <= k) ==> s[k] == c
  }

  function StripLeading(s: string, c: char): (r: string)
    ensures |r| <= |s| && r == s[|s| - |r|..]
    ensures |r| > 0 ==> r[0] != c
    ensures forall k :: 0 <= k < |s| - |r| ==> s[k] == c
  {
    if |s| > 0 && s[0] == c then StripLeading(s[1..], c) else s
  }

  function StripTrailing(s: string, c: char): (r: string)
    ensures |r| <= |s| && r == s[..|r|]
    ensures |r| > 0 ==> r[|r| - 1] != c
    ensures forall k :: |r| <= k < |s| ==> s[k] == c
  {
    if |s| > 0 && s[|s| - 1] == c then StripTrailing(s[..|s| - 1], c) else s
  }

  lemma StrippedIsSlice(s: string, t: string, r: string, c: char)
    requires |t| <= |s| && t == s[|s| - |t|..]
    requires |r| <= |t| && r == t[..|r|] && forall k :: |r| <= k < |t| ==> t[k] == c
    requires forall k :: 0 <= k < |s| - |t| ==> s[k] == c
    ensures var i := |s| - |t|; 0 <= i <= i + |r| <= |s| && r == s[i..i + |r|] && OnlyOutside(s, i, i + |r|, c)
  {
    var i := |s| - |t|;
    assert t == s[i..];
    assert r == t[..|r|];
    forall k | 0 <= k < |s| && i + |r| <= k
      ensures s[k] == c
    {
      assert s[k] == t[k - i];
    }
  }

  function EndsWithText(s: string, pat: string): bool {
    |s| >= |pat| && s[|s| - |pat|..] == pat
  }

  /** `trim_end_matches(pat)`: every trailing copy of `pat` removed. */
  function TrimEndMatches(s: string, pat: string): (r: string)
    requires |pat| > 0
    ensures |r| <= |s| && r == s[..|r|] && !EndsWithText(r, pat)
    ensures exists n: nat :: s == r + Repeat(pat, n)
  {
    if EndsWithText(s, pat) then
      var t := s[..|s| - |pat|];
      var r := TrimEndMatches(t, pat);
      assert exists n: nat :: s == r + Repeat(pat, n) by {
        var n: nat :| t == r + Repeat(pat, n);
        CopiesGrow(s, t, r, pat, n);
      }
      r
    else
      assert s == s + Repeat(pat, 0);
      s
  }

  lemma CopiesGrow(s: string, t: string, r: string, pat: string, n: nat)
    requires |s| >= |pat| && t == s[..|s| - |pat|] && s[|s| - |pat|..] == pat
    requires t == r + Repeat(pat, n)
    ensures s == r + Repeat(pat, n + 1)
  {
    assert s == t + pat;
    var rep := Repeat(pat, n);
    assert Repeat(pat, n + 1) == rep + pat;
    assert (r + rep) + pat == r + (rep + pat);
  }

  /** `n` copies of `pat` back to back. */
  function Repeat(pat: string, n: nat): string {
    if n == 0 then [] else Repeat(pat, n - 1) + pat
  }

  /** The command side of a config entry: trimmed, stripped of surrounding ':' and of
      trailing "<Enter>". */
  function CommandText(raw: string): string {
    TrimEndMatches(TrimMatches(Trim(raw), ':'), "<Enter>")
  }

  /** Lines the loader skips before looking for '='. */
  predicate SkippedLine(line: string) {
    var l := Trim(line);
    |l| == 0 || StartsWith(l, '#') || StartsWith(l, '$') || StartsWith(l, '[')
  }

  /** The binding one config line contributes, if any: the key before the first '=' and the
      command after it must both parse. */
  function LineEntry(line: string): (r: Option<(KeySpec, Command)>)
    ensures SkippedLine(line) || '=' !in Trim(line) ==> r.None?
    ensures r.Some? ==>
      && ParseKeySpec(Trim(SplitOnce(Trim(line), '=').value.0)) == Some(r.value.0)
      && FromStr(CommandText(SplitOnce(Trim(line), '=').value.1)) == Some(r.value.1)
  {
    if SkippedLine(line) then None
    else
      var halves := SplitOnce(Trim(line), '=');
      if halves.None? then None
      else
        var spec := ParseKeySpec(Trim(halves.value.0));
        var cmd := FromStr(CommandText(halves.value.1));
        if spec.Some? && cmd.Some? then Some((spec.value, cmd.value)) else None
  }

  /** Whether some line of `lines` binds `k`. */
  predicate Rebinds(lines: seq<string>, k: KeySpec) {
    exists i :: 0 <= i < |lines| && LineEntry(lines[i]).Some? && LineEntry(lines[i]).value.0 == k
  }

  /** What one config line contributes, if anything. */
  type Entry = Option<(KeySpec, Command)>

  /** Inserts or overrides one entry's binding. */
  function ApplyEntry(b: Bindings, e: Entry): (r: Bindings)
    ensures e.None? ==> r == b
    ensures e.Some? ==> r == b[e.value.0 := e.value.1]
  {
    match e
    case Some((spec, cmd)) => b[spec := cmd]
    case None => b
  }

  /** The bindings after one config line. */
  function ApplyLine(b: Bindings, line: string): (r: Bindings)
    ensures LineEntry(line).None? ==> r == b
    ensures LineEntry(line).Some? ==> r == b[LineEntry(line).value.0 := LineEntry(line).value.1]
  {
    ApplyEntry(b, LineEntry(line))
  }

  /** Entries applied in order, a later one winning. */
  function ApplyEntries(b: Bindings, es: seq<Entry>): (r: Bindings)
    ensures b.Keys <= r.Keys
    decreases |es|
  {
    if |es| == 0 then b else ApplyEntries(ApplyEntry(b, es[0]), es[1..])
  }

  /** Whether some entry binds `k`. */
  predicate Binds(es: seq<Entry>, k: KeySpec) {
    exists i :: 0 <= i < |es| && es[i].Some? && es[i].value.0 == k
  }

  /** A binding that no entry rebinds survives. */
  lemma {:induction false} ApplyEntriesKeeps(b: Bindings, es: seq<Entry>, k: KeySpec)
    requires k in b && !Binds(es, k)
    ensures k in ApplyEntries(b, es) && ApplyEntries(b, es)[k] == b[k]
    decreases |es|
  {
    if |es| > 0 {
      assert !(es[0].Some? && es[0].value.0 == k);
      assert !Binds(es[1..], k) by {
        forall i | 0 <= i < |es[1..]| ensures !(es[1..][i].Some? && es[1..][i].value.0 == k) {
          assert es[1..][i] == es[i + 1];
        }
      }
      ApplyEntriesKeeps(ApplyEntry(b, es[0]), es[1..], k);
    }
  }

  /** A key the entries add was bound by one of them. */
  lemma {:induction false} ApplyEntriesOnlyRebinds(b: Bindings, es: seq<Entry>, k: KeySpec)
    requires k in ApplyEntries(b, es) && k !in b
    ensures Binds(es, k)
    decreases |es|
  {
    if |es| > 0 {
      var b' := ApplyEntry(b, es[0]);
      if k in b' {
        assert es[0].Some? && es[0].value.0 == k;
      } else {
        ApplyEntriesOnlyRebinds(b', es[1..], k);
        var i :| 0 <= i < |es[1..]| && es[1..][i].Some? && es[1..][i].value.0 == k;
        assert es[1..][i] == es[i + 1];
      }
    }
  }

  /** The last entry that binds a key decides its binding. */
  lemma {:induction false} ApplyEntriesLastWins(b: Bindings, es: seq<Entry>, i: nat)
    requires i < |es| && es[i].Some? && !Binds(es[i + 1..], es[i].value.0)
    ensures es[i].value.0 in ApplyEntries(b, es)
    ensures ApplyEntries(b, es)[es[i].value.0] == es[i].value.1
    decreases i
  {
    if i == 0 {
      assert es[1..] == es[i + 1..];
      ApplyEntriesKeeps(ApplyEntry(b, es[0]), es[1..], es[0].value.0);
    } else {
      assert es[1..][i - 1] == es[i];
      assert es[1..][i..] == es[i + 1..];
      ApplyEntriesLastWins(ApplyEntry(b, es[0]), es[1..], i - 1);
    }
  }

  /** The entries of a file's lines, in file order. */
  function LineEntries(lines: seq<string>): (es: seq<Entry>)
    ensures |es| == |lines| && forall i :: 0 <= i < |lines| ==> es[i] == LineEntry(lines[i])
  {
    seq(|lines|, i requires 0 <= i < |lines| => LineEntry(lines[i]))
  }

  /** The loader loop: lines applied in file order, a later line winning. */
  function ApplyLines(b: Bindings, lines: seq<string>): (r: Bindings)
    ensures b.Keys <= r.Keys
  {
    ApplyEntries(b, LineEntries(lines))
  }

  /** A binding that no line rebinds survives the loader. */
  lemma ApplyLinesKeeps(b: Bindings, lines: seq<string>, k: KeySpec)
    requires k in b && !Rebinds(lines, k)
    ensures k in ApplyLines(b, lines) && ApplyLines(b, lines)[k] == b[k]
  {
    var es := LineEntries(lines);
    assert !Binds(es, k) by {
      forall i | 0 <= i < |es| ensures !(es[i].Some? && es[i].value.0 == k) {
        assert es[i] == LineEntry(lines[i]);
      }
    }
    ApplyEntriesKeeps(b, es, k);
  }

  /** The loader only inserts or overrides: a key it adds was bound by some line. */
  lemma ApplyLinesOnlyRebinds(b: Bindings, lines: seq<string>, k: KeySpec)
    requires k in ApplyLines(b, lines) && k !in b
    ensures Rebinds(lines, k)
  {
    var es := LineEntries(lines);
    ApplyEntriesOnlyRebinds(b, es, k);
    var i :| 0 <= i < |es| && es[i].Some? && es[i].value.0 == k;
    assert es[i] == LineEntry(lines[i]);
  }

  lemma LineEntriesSuffix(lines: seq<string>, i: nat)
    requires i <= |lines|
    ensures LineEntries(lines)[i..] == LineEntries(lines[i..])
  {
    var a := LineEntries(lines)[i..];
    var c := LineEntries(lines[i..]);
    forall j | 0 <= j < |a| ensures a[j] == c[j] {
      assert lines[i..][j] == lines[i + j];
    }
  }

  /** Some entry of the lines binds `k` exactly when some line rebinds it. */
  lemma BindsOfLines(lines: seq<string>, k: KeySpec)
    ensures Binds(LineEntries(lines), k) <==> Rebinds(lines, k)
  {
    var es := LineEntries(lines);
    if Binds(es, k) {
      var j :| 0 <= j < |es| && es[j].Some? && es[j].value.0 == k;
      assert LineEntry(lines[j]) == es[j];
    }
    if Rebinds(lines, k) {
      var j :| 0 <= j < |lines| && LineEntry(lines[j]).Some? && LineEntry(lines[j]).value.0 == k;
      assert LineEntry(lines[j]) == es[j];
    }
  }

  /** A config line takes effect unless a later line rebinds the same key: its key is then
      bound to its command, whatever the table held before. */
  lemma ApplyLinesLastWins(b: Bindings, lines: seq<string>, i: nat)
    requires i < |lines| && LineEntry(lines[i]).Some?
    requires !Rebinds(lines[i + 1..], LineEntry(lines[i]).value.0)
    ensures LineEntry(lines[i]).value.0 in ApplyLines(b, lines)
    ensures ApplyLines(b, lines)[LineEntry(lines[i]).value.0] == LineEntry(lines[i]).value.1
  {
    var es := LineEntries(lines);
    var k := LineEntry(lines[i]).value.0;
    LineEntriesSuffix(lines, i + 1);
    BindsOfLines(lines[i + 1..], k);
    ApplyEntriesLastWins(b, es, i);
  }

  /** `KeyBindings::load` over the file's contents (`None` when the file cannot be read).
      Splitting on '\n' sees the same trimmed lines as `str::lines`. */
  function Load(content: Option<string>): (r: Bindings)
    ensures content.None? ==> r == Defaults()
    ensures content.Some? ==> r == ApplyLines(Defaults(), Split(content.value, '\n'))
  {
    match content
    case None => Defaults()
    case Some(text) => ApplyLines(Defaults(), Split(text, '\n'))
  }

  /** A line of the file binds its key to its command after loading, unless a later line
      rebinds that key. */
  lemma LoadAppliesLine(text: string, i: nat)
    requires var lines := Split(text, '\n');
      i < |lines| && LineEntry(lines[i]).Some? && !Rebinds(lines[i + 1..], LineEntry(lines[i]).value.0)
    ensures var e := LineEntry(Split(text, '\n')[i]).value;
      e.0 in Load(Some(text)) && Load(Some(text))[e.0] == e.1
  {
    ApplyLinesLastWins(Defaults(), Split(text, '\n'), i);
  }

  /** Quit stays on Esc, 'q' and Ctrl-c unless the file rebinds those keys. */
  lemma LoadKeepsQuit(text: string, k: KeySpec)
    requires k == Key(Esc) || k == Key(Char('q')) || k == CtrlKey(Char('c'))
    requires !Rebinds(Split(text, '\n'), k)
    ensures k in Load(Some(text)) && Load(Some(text))[k] == Quit
  {
    ApplyLinesKeeps(Defaults(), Split(text, '\n'), k);
  }
}

=== FILE: num_text.dfy ===
/** Integer and decimal text conversions: Rust's `i32::to_string`, `str::parse::<i32>`,
    the decimal forms of `str::parse::<f64>` and the `{:.1}` float format. */
module NumText {
  import opened Wrappers
  import opened Text

  const I32Min: int := -0x8000_0000
  const I32Max: int := 0x7FFF_FFFF

  /** Values a Rust `i32` can hold. */
  predicate InI32(n: int) {
    I32Min <= n <= I32Max
  }

  /** Rust's `i32`. */
  type I32 = n: int | -0x8000_0000 <= n <= 0x7FFF_FFFF

  function DigitChar(d: nat): (c: char)
    requires d < 10
    ensures IsAsciiDigit(c)
  {
    ('0' as int + d) as char
  }

  function DigitValue(c: char): (d: nat)
    requires IsAsciiDigit(c)
    ensures d < 10 && DigitChar(d) == c
  {
    c as int - '0' as int
  }

  predicate AllDigits(s: string) {
    forall i :: 0 <= i < |s| ==> IsAsciiDigit(s[i])
  }

  /** Value of a string of decimal digits, most significant first. */
  function DigitsValue(s: string): nat
    requires AllDigits(s)
  {
    if |s| == 0 then 0 else DigitsValue(s[..|s| - 1]) * 10 + DigitValue(s[|s| - 1])
  }

  /** Decimal text of a natural number, without leading zeros. */
  function NatToDecimal(n: nat): (s: string)
    ensures |s| >= 1 && AllDigits(s)
    ensures |s| == 1 || s[0] != '0'
    ensures DigitsValue(s) == n
  {
    if n < 10 then [DigitChar(n)]
    else
      var s := NatToDecimal(n / 10) + [DigitChar(n % 10)];
      assert s[..|s| - 1] == NatToDecimal(n / 10);
      s
  }

  /** `i32::to_string`. */
  function IntToString(n: int): (s: string)
    ensures |s| >= 1
    ensures n >= 0 ==> AllDigits(s)
    ensures n < 0 ==> s[0] == '-' && AllDigits(s[1..])
  {
    if n < 0 then "-" + NatToDecimal(-n) else NatToDecimal(n)
  }

  /** `str::parse::<i32>`: an optional sign, then one or more ASCII digits, and the value
      must fit in 32 bits. */
  function ParseI32(s: string): (r: Option<int>)
    ensures r.Some? ==> InI32(r.value)
    ensures AllDigits(s) && |s| > 0 ==> r == (if DigitsValue(s) <= I32Max then Some(DigitsValue(s) as int) else None)
    ensures |s| == 0 ==> r.None?
  {
    if |s| == 0 then None
    else if (s[0] == '+' || s[0] == '-') && |s| == 1 then None
    else
      var signed := s[0] == '+' || s[0] == '-';
      var digits := if signed then s[1..] else s;
      if !AllDigits(digits) then None
      else
        var v := if s[0] == '-' then -(DigitsValue(digits) as int) else DigitsValue(digits) as int;
        if InI32(v) then Some(v) else None
  }

  /** Printing an `i32` and parsing it back gives the same number. */
  lemma IntToStringRoundTrip(n: int)
    requires InI32(n)
    ensures ParseI32(IntToString(n)) == Some(n)
  {
    if n < 0 {
      assert ("-" + NatToDecimal(-n))[1..] == NatToDecimal(-n);
    }
  }

  /** Value of the digits after a decimal point: `0.d1d2...` exactly. */
  function Fraction(s: string): (f: real)
    requires AllDigits(s)
    ensures 0.0 <= f <= 1.0
  {
    if |s| == 0 then 0.0 else (DigitValue(s[0]) as real + Fraction(s[1..])) / 10.0
  }

  /** Decimal digits read left to right onto an accumulator. */
  function DigitsFrom(acc: nat, s: string): nat
    requires AllDigits(s)
    decreases |s|
  {
    if |s| == 0 then acc else DigitsFrom(acc * 10 + DigitValue(s[0]), s[1..])
  }

  /** One more digit on the right multiplies by ten and adds it. */
  lemma {:induction false} DigitsFromSnoc(acc: nat, s: string, c: char)
    requires AllDigits(s) && IsAsciiDigit(c)
    ensures AllDigits(s + [c])
    ensures DigitsFrom(acc, s + [c]) == DigitsFrom(acc, s) * 10 + DigitValue(c)
    decreases |s|
  {
    if |s| > 0 {
      assert (s + [c])[1..] == s[1..] + [c];
      DigitsFromSnoc(acc * 10 + DigitValue(s[0]), s[1..], c);
    }
  }

  /** Reading left to right gives the same value as `DigitsValue`. */
  lemma {:induction false} DigitsFromZero(s: string)
    requires AllDigits(s)
    ensures DigitsFrom(0, s) == DigitsValue(s)
    decreases |s|
  {
    if |s| > 0 {
      var init := s[..|s| - 1];
      assert s == init + [s[|s| - 1]];
      DigitsFromZero(init);
      DigitsFromSnoc(0, init, s[|s| - 1]);
    }
  }

  /** The scan of `digits[.digits]` after `acc` has been read from the integer part;
      `seen` says whether that part had a digit. */
  function ScanUnsigned(s: string, acc: nat, seen: bool): Option<real>
    decreases |s|
  {
    if |s| == 0 then (if seen then Some(acc as real) else None)
    else if IsAsciiDigit(s[0]) then ScanUnsigned(s[1..], acc * 10 + DigitValue(s[0]), true)
    else if s[0] == '.' then ScanFraction(s[1..], acc, seen)
    else None
  }

  /** The part after the point: digits only, and a digit somewhere in the number. */
  function ScanFraction(fp: string, acc: nat, seen: bool): Option<real> {
    if AllDigits(fp) && (seen || |fp| > 0) then Some(acc as real + Fraction(fp)) else None
  }

  /** Scanning past a run of digits folds them into the accumulator. */
  lemma {:induction false} ScanPastDigits(ds: string, rest: string, acc: nat, seen: bool)
    requires AllDigits(ds)
    ensures ScanUnsigned(ds + rest, acc, seen) == ScanUnsigned(rest, DigitsFrom(acc, ds), seen || |ds| > 0)
    decreases |ds|
  {
    if |ds| > 0 {
      assert (ds + rest)[0] == ds[0] && (ds + rest)[1..] == ds[1..] + rest;
      ScanPastDigits(ds[1..], rest, acc * 10 + DigitValue(ds[0]), true);
    } else {
      assert ds + rest == rest;
    }
  }

  /** The unsigned decimal forms `digits[.digits]`, with at least one digit overall. */
  function ParseUnsigned(body: string): Option<real> {
    ScanUnsigned(body, 0, false)
  }

  /** The decimal forms `str::parse::<f64>` accepts over signs, digits and '.':
      `[+-]digits[.digits]` with at least one digit overall (`"1."` and `".5"` are numbers,
      `"."` and `"1.2.3"` are not). Values are exact. */
  function ParseDecimal(s: string): Option<real> {
    if |s| > 0 && s[0] == '-' then
      match ParseUnsigned(s[1..]) case Some(v) => Some(-v) case None => None
    else if |s| > 0 && s[0] == '+' then ParseUnsigned(s[1..])
    else ParseUnsigned(s)
  }

  /** A plain run of digits parses to its value. */
  lemma ParseDecimalDigits(s: string)
    requires AllDigits(s) && |s| > 0
    ensures ParseDecimal(s) == Some(DigitsValue(s) as real)
  {
    assert IsAsciiDigit(s[0]);
    ScanPastDigits(s, [], 0, false);
    assert s + [] == s;
    DigitsFromZero(s);
  }

  /** `parse_weight`: the decimal value of the buffer, 0 when it does not parse. */
  function ParseWeight(s: string): (w: real)
    ensures ParseDecimal(s).None? ==> w == 0.0
    ensures ParseDecimal(s).Some? ==> w == ParseDecimal(s).value
  {
    match ParseDecimal(s)
    case Some(v) => v
    case None => 0.0
  }

  /** Nearest integer to a non-negative real, ties to even. */
  function RoundHalfEven(x: real): (n: nat)
    requires x >= 0.0
    ensures -0.5 <= n as real - x <= 0.5
  {
    var f := x.Floor;
    var frac := x - f as real;
    if frac > 0.5 || (frac == 0.5 && f % 2 == 1) then f + 1 else f
  }

  /** The value `{:.1}` prints: the magnitude rounded to tenths, the sign kept. */
  function RoundTenths(w: real): (r: real)
    ensures -0.05 <= r - w <= 0.05
  {
    if w < 0.0 then -(RoundHalfEven(-w * 10.0) as real / 10.0)
    else RoundHalfEven(w * 10.0) as real / 10.0
  }

  /** `format!("{:.1}", w)`: sign, integer part, '.', one decimal digit. */
  function FormatTenths(w: real): (s: string)
    ensures '.' in s
  {
    var t := RoundHalfEven(if w < 0.0 then -w * 10.0 else w * 10.0);
    var digits := NatToDecimal(t / 10) + "." + [DigitChar(t % 10)];
    assert digits[|digits| - 2] == '.';
    if w < 0.0 then "-" + digits else digits
  }

  /** A point and one digit after an integer part add a tenth of the digit. */
  lemma ScanPointDigit(v: nat, d: nat)
    requires d < 10
    ensures ScanUnsigned("." + [DigitChar(d)], v, true) == Some(v as real + d as real / 10.0)
  {
    var fp := [DigitChar(d)];
    assert DigitValue(DigitChar(d)) == d;
    assert AllDigits(fp) && Fraction(fp) == d as real / 10.0 by {
      assert fp[1..] == [];
    }
    assert ("." + fp)[0] == '.' && ("." + fp)[1..] == fp;
  }

  /** An unsigned `digits.digit` text reads as its integer part plus a tenth of its digit. */
  lemma ParseUnsignedTenths(ip: string, d: nat)
    requires |ip| > 0 && AllDigits(ip) && d < 10
    ensures ParseUnsigned(ip + "." + [DigitChar(d)]) == Some(DigitsValue(ip) as real + d as real / 10.0)
  {
    var rest := "." + [DigitChar(d)];
    assert ip + "." + [DigitChar(d)] == ip + rest;
    ScanPastDigits(ip, rest, 0, false);
    DigitsFromZero(ip);
    ScanPointDigit(DigitsValue(ip), d);
  }

  /** A value printed with one decimal reads back as itself rounded to tenths. */
  lemma FormatTenthsRoundTrip(w: real)
    ensures ParseDecimal(FormatTenths(w)) == Some(RoundTenths(w))
    ensures ParseWeight(FormatTenths(w)) == RoundTenths(w)
  {
    var t := RoundHalfEven(if w < 0.0 then -w * 10.0 else w * 10.0);
    var ip := NatToDecimal(t / 10);
    var digits := ip + "." + [DigitChar(t % 10)];
    ParseUnsignedTenths(ip, t % 10);
    assert (t / 10) as real + (t % 10) as real / 10.0 == t as real / 10.0;
    assert IsAsciiDigit(digits[0]);
    if w < 0.0 {
      assert FormatTenths(w) == "-" + digits;
      assert ("-" + digits)[1..] == digits;
    } else {
      assert FormatTenths(w) == digits;
    }
  }

  /** A weight that already has at most one decimal survives printing and reparsing. */
  lemma FormatTenthsExact(w: real, tenths: int)
    requires w * 10.0 == tenths as real
    ensures ParseWeight(FormatTenths(w)) == w
  {
    FormatTenthsRoundTrip(w);
    if w < 0.0 {
      assert (-w * 10.0).Floor == -tenths;
    } else {
      assert (w * 10.0).Floor == tenths;
    }
  }
}

=== FILE: series.dfy ===
/** Bucket arithmetic and aggregation shared by both graph engines (core/src/lib.rs and
    core/src/logic.rs): `div_ceil`, `slice::chunks`, the Max and Sum folds, and the
    downsampling of a dated series into at most `maxPoints` buckets. Values are exact reals
    and dates are day numbers. */
module Series {
  /** `Metric` of core/src/lib.rs and `MetricKind` of core/src/models.rs, which agree. */
  datatype Metric = MaxWeight | SessionTotalVolume | BestSetVolume | Est1Rm

  /** A dated value: a graph point, with its date kept as a day number. */
  datatype Point = Point(date: int, value: real)

  /** `usize::div_ceil`, computed by repeated subtraction; `CeilDivSpec` states that it is
      the least `r` with `r * m >= n`. */
  function CeilDiv(n: nat, m: nat): (r: nat)
    requires m > 0
    ensures n > 0 ==> 0 < r <= n
    ensures n == 0 ==> r == 0
    decreases n
  {
    if n == 0 then 0 else if n <= m then 1 else 1 + CeilDiv(n - m, m)
  }

  /** The defining property of ceiling division. */
  lemma {:induction false} CeilDivSpec(n: nat, m: nat)
    requires m > 0
    ensures CeilDiv(n, m) * m >= n && (CeilDiv(n, m) - 1) * m < n
    decreases n
  {
    if n > m {
      CeilDivSpec(n - m, m);
      var r := CeilDiv(n - m, m);
      assert CeilDiv(n, m) * m == r * m + m;
    }
  }

  lemma MulLeftMono(a: int, b: int, k: nat)
    requires a <= b
    ensures a * k <= b * k
  {
  }

  /** `x * k < y * k` for a positive `k` forces `x < y`. */
  lemma MulCancelLt(x: int, y: int, k: nat)
    requires k > 0 && x * k < y * k
    ensures x < y
  {
    if y <= x {
      MulLeftMono(y, x, k);
    }
  }

  /** Bucketing `n > m` points into buckets of `ceil(n/m)` gives between one and `m`
      buckets. */
  lemma BucketCountBounds(n: nat, m: nat)
    requires 0 < m < n
    ensures var b := CeilDiv(n, m); b > 0 && 0 < CeilDiv(n, b) <= m
  {
    var b := CeilDiv(n, m);
    var c := CeilDiv(n, b);
    CeilDivSpec(n, m);
    CeilDivSpec(n, b);
    CountBelow(n, m, b, c);
  }

  /** The arithmetic step of `BucketCountBounds`: `(c - 1) * b < n <= b * m` gives `c <= m`. */
  lemma CountBelow(n: int, m: int, b: nat, c: int)
    requires b > 0 && b * m >= n && (c - 1) * b < n
    ensures c <= m
  {
    assert b * m == m * b;
    MulCancelLt(c - 1, m, b);
  }

  function Min(a: int, b: int): int { if a <= b then a else b }

  function Concat<T>(chunks: seq<seq<T>>): (r: seq<T>)
  {
    if |chunks| == 0 then [] else chunks[0] + Concat(chunks[1..])
  }

  /** `slice::chunks(k)`: consecutive runs of `k` elements, the last one possibly shorter. */
  function Chunks<T>(s: seq<T>, k: nat): (r: seq<seq<T>>)
    requires k > 0
    ensures |r| == CeilDiv(|s|, k)
    ensures forall i :: 0 <= i < |r| ==> 0 < |r[i]| <= k
    decreases |s|
  {
    if |s| == 0 then []
    else if |s| <= k then [s]
    else
      var rest := Chunks(s[k..], k);
      var r := [s[..k]] + rest;
      assert r[1..] == rest;
      r
  }

  lemma SliceOfSuffix<T>(s: seq<T>, k: nat, lo: nat, hi: nat)
    requires k <= lo <= hi <= |s|
    ensures s[k..][lo - k .. hi - k] == s[lo..hi]
  {
  }

  lemma ChunksStep<T>(s: seq<T>, k: nat, i: nat)
    requires 0 < k < |s| && 0 < i < |Chunks(s, k)|
    ensures Chunks(s, k)[i] == Chunks(s[k..], k)[i - 1]
  {
  }

  lemma MulPred(i: int, k: int)
    ensures (i - 1) * k == i * k - k
  {
  }

  /** The run at `(i - 1) * k` of `s[k..]` is the run at `i * k` of `s`. */
  lemma ShiftSlice<T>(s: seq<T>, k: nat, i: nat)
    requires 0 < i && 0 < k < |s| && (i - 1) * k < |s| - k
    ensures i * k < |s|
    ensures s[k..][(i - 1) * k .. Min((i - 1) * k + k, |s| - k)] == s[i * k .. Min(i * k + k, |s|)]
  {
    var j := i * k;
    MulPred(i, k);
    assert Min(j - k + k, |s| - k) == Min(j + k, |s|) - k;
    SliceOfSuffix(s, k, j, Min(j + k, |s|));
  }

  /** The `i`-th chunk is the run starting at `i * k`. */
  lemma {:induction false} ChunkAt<T>(s: seq<T>, k: nat, i: nat)
    requires k > 0 && i < |Chunks(s, k)|
    ensures i * k < |s| && Chunks(s, k)[i] == s[i * k .. Min(i * k + k, |s|)]
    decreases i
  {
    if i == 0 {
      assert Chunks(s, k)[0] == s[..Min(k, |s|)];
    } else {
      ChunksStep(s, k, i);
      ChunkAt(s[k..], k, i - 1);
      ShiftSlice(s, k, i);
    }
  }

  lemma ChunksAt<T>(s: seq<T>, k: nat)
    requires k > 0
    ensures forall i :: 0 <= i < |Chunks(s, k)| ==>
      i * k < |s| && Chunks(s, k)[i] == s[i * k .. Min(i * k + k, |s|)]
  {
    forall i | 0 <= i < |Chunks(s, k)|
      ensures i * k < |s| && Chunks(s, k)[i] == s[i * k .. Min(i * k + k, |s|)]
    {
      ChunkAt(s, k, i);
    }
  }

  /** The chunks put back together are the slice: `chunks` partitions it. */
  lemma {:induction false} ChunksConcat<T>(s: seq<T>, k: nat)
    requires k > 0
    ensures Concat(Chunks(s, k)) == s
    decreases |s|
  {
    if |s| > k {
      ChunksConcat(s[k..], k);
      var r := Chunks(s, k);
      assert r[1..] == Chunks(s[k..], k);
      assert s[..k] + s[k..] == s;
    } else if |s| > 0 {
      assert Concat([s]) == s + Concat([]);
    }
  }

  /** `fold(0.0, f64::max)`: the largest value, or 0 when all are smaller or there are none. */
  function MaxFold(xs: seq<real>): (r: real)
    ensures r >= 0.0
    ensures forall i :: 0 <= i < |xs| ==> xs[i] <= r
    ensures r == 0.0 || r in xs
  {
    if |xs| == 0 then 0.0
    else
      var acc := MaxFold(xs[..|xs| - 1]);
      assert forall i :: 0 <= i < |xs| - 1 ==> xs[..|xs| - 1][i] == xs[i];
      if acc >= xs[|xs| - 1] then acc else xs[|xs| - 1]
  }

  /** `Iterator::sum` over values, accumulated left to right. */
  function Sum(xs: seq<real>): real
  {
    if |xs| == 0 then 0.0 else Sum(xs[..|xs| - 1]) + xs[|xs| - 1]
  }

  lemma {:induction false} SumConcat(a: seq<real>, b: seq<real>)
    ensures Sum(a + b) == Sum(a) + Sum(b)
    decreases |b|
  {
    if |b| > 0 {
      var ab := a + b;
      assert ab[..|ab| - 1] == a + b[..|b| - 1];
      assert ab[|ab| - 1] == b[|b| - 1];
      SumConcat(a, b[..|b| - 1]);
      assert Sum(ab) == Sum(a + b[..|b| - 1]) + b[|b| - 1];
    } else {
      assert a + b == a;
    }
  }

  lemma {:induction false} MaxFoldConcat(a: seq<real>, b: seq<real>)
    ensures MaxFold(a + b) == if MaxFold(a) >= MaxFold(b) then MaxFold(a) else MaxFold(b)
    decreases |b|
  {
    if |b| > 0 {
      var ab := a + b;
      assert ab[..|ab| - 1] == a + b[..|b| - 1];
      assert ab[|ab| - 1] == b[|b| - 1];
      MaxFoldConcat(a, b[..|b| - 1]);
    } else {
      assert a + b == a;
    }
  }

  function Values(ps: seq<Point>): (r: seq<real>)
    ensures |r| == |ps| && forall i :: 0 <= i < |ps| ==> r[i] == ps[i].value
  {
    seq(|ps|, i requires 0 <= i < |ps| => ps[i].value)
  }

  lemma ValuesConcat(a: seq<Point>, b: seq<Point>)
    ensures Values(a + b) == Values(a) + Values(b)
  {
  }

  /** Bucket aggregation: the peak metrics keep the largest value, the volume metrics add
      up. */
  function Aggregate(metric: Metric, xs: seq<real>): (r: real)
    ensures (metric == MaxWeight || metric == Est1Rm) ==> r == MaxFold(xs)
    ensures (metric == SessionTotalVolume || metric == BestSetVolume) ==> r == Sum(xs)
  {
    match metric
    case MaxWeight => MaxFold(xs)
    case Est1Rm => MaxFold(xs)
    case SessionTotalVolume => Sum(xs)
    case BestSetVolume => Sum(xs)
  }

  /** One output point per chunk: the chunk's first date and its aggregate. */
  function Reduce(chunks: seq<seq<Point>>, metric: Metric): (r: seq<Point>)
    requires forall i :: 0 <= i < |chunks| ==> |chunks[i]| > 0
    ensures |r| == |chunks|
    ensures forall i :: 0 <= i < |r| ==>
      r[i] == Point(chunks[i][0].date, Aggregate(metric, Values(chunks[i])))
  {
    seq(|chunks|, i requires 0 <= i < |chunks| => Point(chunks[i][0].date, Aggregate(metric, Values(chunks[i]))))
  }

  /** `downsample_graph_points`: nothing for no points or no room; the points themselves
      when they fit; otherwise chunks of `ceil(n/maxPoints)` consecutive points, each
      reduced to its first date and aggregated value. */
  function Downsample(points: seq<Point>, maxPoints: nat, metric: Metric): (r: seq<Point>)
    ensures |points| == 0 || maxPoints == 0 ==> r == []
    ensures 0 < |points| <= maxPoints ==> r == points
    ensures |points| > maxPoints > 0 ==>
      var b := CeilDiv(|points|, maxPoints);
      |r| == CeilDiv(|points|, b) && 0 < |r| <= maxPoints
  {
    if |points| == 0 || maxPoints == 0 then []
    else if |points| <= maxPoints then points
    else
      var b := CeilDiv(|points|, maxPoints);
      BucketCountBounds(|points|, maxPoints);
      Reduce(Chunks(points, b), metric)
  }

  /** The `i`-th reduced chunk is dated by the point at `i * b` and aggregates the run of
      `b` points starting there. */
  lemma ReduceChunkAt(points: seq<Point>, b: nat, metric: Metric, i: nat)
    requires b > 0 && i < |Chunks(points, b)|
    ensures i * b < |points|
    ensures Reduce(Chunks(points, b), metric)[i]
         == Point(points[i * b].date, Aggregate(metric, Values(points[i * b .. Min(i * b + b, |points|)])))
  {
    ChunkAt(points, b, i);
  }

  /** Past the fitting case, downsampling reduces the chunks of `ceil(n/maxPoints)`. */
  lemma DownsampleIsReduce(points: seq<Point>, maxPoints: nat, metric: Metric)
    requires |points| > maxPoints > 0
    ensures Downsample(points, maxPoints, metric)
         == Reduce(Chunks(points, CeilDiv(|points|, maxPoints)), metric)
  {
  }

  /** Totals of chunks add up to the total of the series. */
  lemma {:induction false} ReduceSum(chunks: seq<seq<Point>>, metric: Metric)
    requires forall i :: 0 <= i < |chunks| ==> |chunks[i]| > 0
    requires metric == SessionTotalVolume || metric == BestSetVolume
    ensures Sum(Values(Reduce(chunks, metric))) == Sum(Values(Concat(chunks)))
    decreases |chunks|
  {
    if |chunks| > 0 {
      ReduceSnocSum(chunks, metric);
      ReduceSum(chunks[..|chunks| - 1], metric);
      ConcatSnocSum(chunks);
    }
  }

  /** The reduced total grows by the last chunk's total. */
  lemma ReduceSnocSum(chunks: seq<seq<Point>>, metric: Metric)
    requires |chunks| > 0 && forall i :: 0 <= i < |chunks| ==> |chunks[i]| > 0
    requires metric == SessionTotalVolume || metric == BestSetVolume
    ensures Sum(Values(Reduce(chunks, metric)))
         == Sum(Values(Reduce(chunks[..|chunks| - 1], metric))) + Sum(Values(chunks[|chunks| - 1]))
  {
    var r := Reduce(chunks, metric);
    assert Reduce(chunks[..|chunks| - 1], metric) == r[..|r| - 1];
    assert Values(r)[..|r| - 1] == Values(r[..|r| - 1]);
  }

  /** The concatenated total grows by the last chunk's total. */
  lemma ConcatSnocSum(chunks: seq<seq<Point>>)
    requires |chunks| > 0
    ensures Sum(Values(Concat(chunks)))
         == Sum(Values(Concat(chunks[..|chunks| - 1]))) + Sum(Values(chunks[|chunks| - 1]))
  {
    var init, last := chunks[..|chunks| - 1], chunks[|chunks| - 1];
    assert chunks == init + [last];
    ConcatSnoc(init, last);
    ValuesConcat(Concat(init), last);
    SumConcat(Values(Concat(init)), Values(last));
  }

  lemma {:induction false} ConcatSnoc<T>(init: seq<seq<T>>, last: seq<T>)
    ensures Concat(init + [last]) == Concat(init) + last
    decreases |init|
  {
    if |init| == 0 {
      assert Concat([last]) == last + Concat([]);
    } else {
      assert (init + [last])[1..] == init[1..] + [last];
      ConcatSnoc(init[1..], last);
    }
  }

  /** Downsampling a volume metric keeps the series total. */
  lemma DownsampleKeepsTotal(points: seq<Point>, maxPoints: nat, metric: Metric)
    requires maxPoints > 0
    requires metric == SessionTotalVolume || metric == BestSetVolume
    ensures Sum(Values(Downsample(points, maxPoints, metric))) == Sum(Values(points))
  {
    if |points| > maxPoints {
      var chunks := Chunks(points, CeilDiv(|points|, maxPoints));
      ReduceSum(chunks, metric);
      ChunksConcat(points, CeilDiv(|points|, maxPoints));
    }
  }

  /** Strictly ascending dates. */
  predicate Ascending(ps: seq<Point>) {
    forall i, j :: 0 <= i < j < |ps| ==> ps[i].date < ps[j].date
  }

  /** Reducing the chunks of an ascending series keeps it ascending: each output point is
      dated by the first point of its chunk, and chunk starts increase. */
  lemma ReduceChunksAscending(points: seq<Point>, b: nat, metric: Metric)
    requires b > 0 && Ascending(points)
    ensures Ascending(Reduce(Chunks(points, b), metric))
  {
    var r := Reduce(Chunks(points, b), metric);
    forall i, j | 0 <= i < j < |r| ensures r[i].date < r[j].date {
      ReduceChunkAt(points, b, metric, i);
      ReduceChunkAt(points, b, metric, j);
      MulLeftMono(i + 1, j, b);
      assert (i + 1) * b == i * b + b;
    }
  }

  /** Dates in order, ties allowed. */
  predicate SortedByDate(ps: seq<Point>) {
    forall i, j :: 0 <= i < j < |ps| ==> ps[i].date <= ps[j].date
  }

  /** Reducing the chunks of a date-sorted series keeps it sorted. */
  lemma ReduceChunksSorted(points: seq<Point>, b: nat, metric: Metric)
    requires b > 0 && SortedByDate(points)
    ensures SortedByDate(Reduce(Chunks(points, b), metric))
  {
    var r := Reduce(Chunks(points, b), metric);
    forall i, j | 0 <= i < j < |r| ensures r[i].date <= r[j].date {
      ReduceChunkAt(points, b, metric, i);
      ReduceChunkAt(points, b, metric, j);
      MulLeftMono(i + 1, j, b);
      assert (i + 1) * b == i * b + b;
    }
  }

  /** Downsampling a date-sorted series keeps it sorted. */
  lemma DownsampleSorted(points: seq<Point>, maxPoints: nat, metric: Metric)
    requires SortedByDate(points)
    ensures SortedByDate(Downsample(points, maxPoints, metric))
  {
    if |points| > maxPoints > 0 {
      DownsampleIsReduce(points, maxPoints, metric);
      ReduceChunksSorted(points, CeilDiv(|points|, maxPoints), metric);
    }
  }

  /** Downsampling an ascending series keeps it ascending. */
  lemma DownsampleAscending(points: seq<Point>, maxPoints: nat, metric: Metric)
    requires Ascending(points)
    ensures Ascending(Downsample(points, maxPoints, metric))
  {
    if |points| > maxPoints > 0 {
      DownsampleIsReduce(points, maxPoints, metric);
      ReduceChunksAscending(points, CeilDiv(|points|, maxPoints), metric);
    }
  }
}

=== FILE: session_auth.dfy ===
/** Session-cookie handling of the server (server/src/auth.rs): reading the session token
    out of a `Cookie` request header (a `name=value; name=value` list as in section 4.2.1 of
    RFC 6265), base16-encoding a fresh token in lower case (section 8 of RFC 4648), and
    building the `Set-Cookie` value with its Max-Age. */
module SessionAuth {
  import opened Wrappers
  import opened Text
  import opened NumText

  /** `COOKIE_NAME`. */
  const CookieName: string := "ekman_session"

  /** `HeaderValue::to_str` accepts only visible ASCII and tab. */
  predicate VisibleByte(b: Byte) {
    (32 <= b < 127) || b == 9
  }

  /** `HeaderValue::to_str`: the header as text when every byte is visible ASCII or tab. */
  function HeaderToStr(bs: seq<Byte>): (r: Option<string>)
    ensures r.Some? <==> forall i :: 0 <= i < |bs| ==> VisibleByte(bs[i])
    ensures r.Some? ==> |r.value| == |bs| && Utf8Bytes(r.value) == bs
  {
    if |bs| == 0 then Some([])
    else if !VisibleByte(bs[0]) then None
    else match HeaderToStr(bs[1..])
      case None => None
      case Some(rest) =>
        assert bs == [bs[0]] + bs[1..];
        Some([bs[0] as char] + rest)
  }

  /** The value of one cookie-string segment if its name is the session cookie's: the
      segment is trimmed and split at its first '=', so later '=' stay in the value, and a
      segment without '=' has no value. */
  function SegmentToken(part: string): (r: Option<string>)
    ensures r.Some? ==> Trim(part) == CookieName + "=" + r.value
  {
    match SplitOnce(Trim(part), '=')
    case Some((name, value)) =>
      if name == CookieName then Some(value) else None
    case None => None
  }

  /** Every segment that reads `ekman_session=v` once trimmed carries `v`, whatever `v`
      holds after its first '='. */
  lemma SegmentTokenComplete(part: string, v: string)
    requires Trim(part) == CookieName + "=" + v
    ensures SegmentToken(part) == Some(v)
  {
    assert CookieName + "=" + v == CookieName + ['='] + v;
    SplitOnceAfterHead(CookieName, '=', v);
  }

  /** Index of the first element satisfying `p`: the `Iterator::find` of the segment loop. */
  function FirstIndex<T>(xs: seq<T>, p: T -> bool): (r: Option<nat>)
    ensures r.Some? ==> r.value < |xs| && p(xs[r.value])
    ensures r.Some? ==> forall j :: 0 <= j < r.value ==> !p(xs[j])
    ensures r.None? ==> forall i :: 0 <= i < |xs| ==> !p(xs[i])
  {
    if |xs| == 0 then None
    else if p(xs[0]) then Some(0)
    else match FirstIndex(xs[1..], p)
      case Some(i) =>
        assert forall j :: 1 <= j <= i + 1 ==> xs[j] == xs[1..][j - 1];
        Some(i + 1)
      case None =>
        assert forall j :: 1 <= j < |xs| ==> xs[j] == xs[1..][j - 1];
        None
  }

  predicate CarriesToken(part: string) {
    SegmentToken(part).Some?
  }

  /** The value of the first segment that carries the session cookie. */
  function FirstToken(parts: seq<string>): (r: Option<string>)
    ensures r.Some? ==> exists i :: 0 <= i < |parts| && SegmentToken(parts[i]) == r &&
                                   forall j :: 0 <= j < i ==> SegmentToken(parts[j]).None?
    ensures r.None? ==> forall i :: 0 <= i < |parts| ==> SegmentToken(parts[i]).None?
  {
    FirstCarrying(parts);
    match FirstIndex(parts, CarriesToken)
    case Some(i) => SegmentToken(parts[i])
    case None => None
  }

  /** The `find` of the segment loop, stated without the closure. */
  lemma FirstCarrying(parts: seq<string>)
    ensures var f := FirstIndex(parts, CarriesToken);
      && (f.Some? ==> f.value < |parts| && SegmentToken(parts[f.value]).Some? &&
                      forall j :: 0 <= j < f.value ==> SegmentToken(parts[j]).None?)
      && (f.None? ==> forall i :: 0 <= i < |parts| ==> SegmentToken(parts[i]).None?)
  {
    var f := FirstIndex(parts, CarriesToken);
    if f.Some? {
      assert CarriesToken(parts[f.value]);
      forall j | 0 <= j < f.value ensures SegmentToken(parts[j]).None? {
        assert !CarriesToken(parts[j]);
      }
    } else {
      forall i | 0 <= i < |parts| ensures SegmentToken(parts[i]).None? {
        assert !CarriesToken(parts[i]);
      }
    }
  }

  /** `extract_token` on the first `Cookie` header, if any: `None` without a header, with a
      header that is not visible ASCII, or with no segment named after the session cookie. */
  function ExtractToken(header: Option<seq<Byte>>): (r: Option<string>)
    ensures header.None? ==> r.None?
    ensures header.Some? && HeaderToStr(header.value).None? ==> r.None?
    ensures header.Some? && HeaderToStr(header.value).Some? ==>
      r == FirstToken(Split(HeaderToStr(header.value).value, ';'))
  {
    match header
    case None => None
    case Some(bs) =>
      match HeaderToStr(bs)
      case None => None
      case Some(raw) => FirstToken(Split(raw, ';'))
  }

  /** A session segment at the head of the cookie string wins, and its value is kept whole,
      '=' included. */
  lemma {:induction false} LeadingSessionSegmentWins(v: string, rest: string)
    requires ';' !in v
    requires |v| == 0 || !IsWhitespace(v[|v| - 1])
    ensures FirstToken(Split(CookieName + "=" + v + ";" + rest, ';')) == Some(v)
  {
    var part := CookieName + "=" + v;
    assert ';' !in part;
    assert CookieName + "=" + v + ";" + rest == part + [';'] + rest;
    SplitAfterHead(part, ';', rest);
    var parts := [part] + Split(rest, ';');
    assert Trim(part) == part;
    SegmentTokenComplete(part, v);
    HeadSegmentWins(parts, v);
  }

  /** A list whose first segment carries the token yields it. */
  lemma HeadSegmentWins(parts: seq<string>, v: string)
    requires |parts| > 0 && SegmentToken(parts[0]) == Some(v)
    ensures FirstToken(parts) == Some(v)
  {
    assert CarriesToken(parts[0]);
    assert FirstIndex(parts, CarriesToken) == Some(0);
  }

  /** Lower-case hexadecimal digit. */
  function HexLower(d: nat): (c: char)
    requires d < 16
    ensures '0' <= c <= '9' || 'a' <= c <= 'f'
  {
    if d < 10 then ('0' as int + d) as char else ('a' as int + d - 10) as char
  }

  /** Value of a lower-case hexadecimal digit. */
  function HexLowerValue(c: char): (r: Option<nat>)
    ensures r.Some? ==> r.value < 16 && HexLower(r.value) == c
  {
    if '0' <= c <= '9' then Some(c as int - '0' as int)
    else if 'a' <= c <= 'f' then Some(c as int - 'a' as int + 10)
    else None
  }

  /** `hex::encode`: each byte as two lower-case digits, high nibble first (`{:02x}`). */
  function HexEncode(bytes: seq<Byte>): (s: string)
    ensures |s| == 2 * |bytes|
    ensures forall i :: 0 <= i < |bytes| ==>
      s[2 * i] == HexLower(bytes[i] / 16) && s[2 * i + 1] == HexLower(bytes[i] % 16)
  {
    if |bytes| == 0 then []
    else
      var rest := HexEncode(bytes[1..]);
      var s := [HexLower(bytes[0] / 16), HexLower(bytes[0] % 16)] + rest;
      assert forall i :: 1 <= i < |bytes| ==>
        s[2 * i] == HexLower(bytes[i] / 16) && s[2 * i + 1] == HexLower(bytes[i] % 16)
      by {
        forall i | 1 <= i < |bytes|
          ensures s[2 * i] == HexLower(bytes[i] / 16) && s[2 * i + 1] == HexLower(bytes[i] % 16)
        {
          var j := i - 1;
          assert bytes[1..][j] == bytes[i];
          assert s[2 * i] == rest[2 * j] && s[2 * i + 1] == rest[2 * j + 1];
        }
      }
      s
  }

  /** Decoding partner of `HexEncode`: pairs of lower-case digits back to bytes. */
  function HexDecode(s: string): (r: Option<seq<Byte>>)
    ensures r.Some? ==> 2 * |r.value| == |s|
    decreases |s|
  {
    if |s| == 0 then Some([])
    else if |s| == 1 then None
    else match (HexLowerValue(s[0]), HexLowerValue(s[1]), HexDecode(s[2..]))
      case (Some(hi), Some(lo), Some(rest)) => Some([hi * 16 + lo] + rest)
      case _ => None
  }

  /** Decoding an encoded byte string gives the bytes back. */
  lemma {:induction false} HexRoundTrip(bytes: seq<Byte>)
    ensures HexDecode(HexEncode(bytes)) == Some(bytes)
  {
    if |bytes| > 0 {
      var s := HexEncode(bytes);
      var hi, lo := bytes[0] / 16, bytes[0] % 16;
      assert s[2..] == HexEncode(bytes[1..]);
      HexRoundTrip(bytes[1..]);
      HexDigitRoundTrip(hi);
      HexDigitRoundTrip(lo);
      assert HexDecode(s) == Some([hi * 16 + lo] + bytes[1..]);
      assert [bytes[0]] + bytes[1..] == bytes;
    }
  }

  /** Each digit reads back as its value. */
  lemma HexDigitRoundTrip(d: nat)
    requires d < 16
    ensures HexLowerValue(HexLower(d)) == Some(d)
  {
  }

  /** A session token: 32 random bytes encode to 64 characters of [0-9a-f]. */
  lemma TokenShape(bytes: seq<Byte>)
    requires |bytes| == 32
    ensures |HexEncode(bytes)| == 64
    ensures forall j :: 0 <= j < 64 ==> '0' <= HexEncode(bytes)[j] <= '9' || 'a' <= HexEncode(bytes)[j] <= 'f'
  {
    var s := HexEncode(bytes);
    forall j | 0 <= j < 64 ensures '0' <= s[j] <= '9' || 'a' <= s[j] <= 'f' {
      var i := j / 2;
      if j % 2 == 0 {
        assert s[2 * i] == HexLower(bytes[i] / 16);
      } else {
        assert j == 2 * i + 1;
        assert s[2 * i + 1] == HexLower(bytes[i] % 16);
      }
    }
  }

  /** `TimeDelta::num_seconds` of a span in milliseconds: rounded toward zero. */
  function TruncSeconds(ms: int): (r: int)
    ensures ms >= 0 ==> r * 1000 <= ms < (r + 1) * 1000
    ensures ms < 0 ==> (r - 1) * 1000 < ms <= r * 1000
  {
    if ms >= 0 then ms / 1000 else -((-ms) / 1000)
  }

  /** Max-Age of the cookie: the whole seconds left until `expiresAt`, never negative. */
  function MaxAgeSeconds(expiresAt: int, now: int): (r: nat)
    ensures expiresAt <= now ==> r == 0
    ensures expiresAt > now ==> r * 1000 <= expiresAt - now < (r + 1) * 1000
  {
    var secs := TruncSeconds(expiresAt - now);
    if secs > 0 then secs else 0
  }

  /** `HeaderValue::from_str` accepts tab and every byte from 32 up except DEL. */
  predicate HeaderByte(b: Byte) {
    (b >= 32 && b != 127) || b == 9
  }

  /** The `Set-Cookie` text for a session. */
  function CookieText(token: string, maxAge: nat): string {
    CookieName + "=" + token + ";" + CookieAttributes(maxAge)
  }

  /** Everything after the first `;` of the cookie. */
  function CookieAttributes(maxAge: nat): string {
    " HttpOnly; SameSite=Lax; Path=/; Max-Age=" + NatToDecimal(maxAge)
  }

  /** `session_cookie`: the cookie text as header bytes, or the empty header value when the
      token makes it invalid. */
  function SessionCookie(token: string, expiresAt: int, now: int): (r: seq<Byte>)
    ensures var bs := Utf8Bytes(CookieText(token, MaxAgeSeconds(expiresAt, now)));
      && ((forall i :: 0 <= i < |bs| ==> HeaderByte(bs[i])) ==> r == bs)
      && (!(forall i :: 0 <= i < |bs| ==> HeaderByte(bs[i])) ==> r == [])
  {
    var bs := Utf8Bytes(CookieText(token, MaxAgeSeconds(expiresAt, now)));
    if forall i :: 0 <= i < |bs| ==> HeaderByte(bs[i]) then bs else []
  }

  /** The first pair of a session cookie built from a hex token reads back as that token. */
  lemma SessionCookieCarriesToken(bytes: seq<Byte>, maxAge: nat)
    requires |bytes| == 32
    ensures FirstToken(Split(CookieText(HexEncode(bytes), maxAge), ';')) == Some(HexEncode(bytes))
  {
    var token := HexEncode(bytes);
    HexHasNoSemicolon(bytes);
    LeadingSessionSegmentWins(token, CookieAttributes(maxAge));
  }

  /** A token is non-empty, holds no `;` and does not end in whitespace. */
  lemma HexHasNoSemicolon(bytes: seq<Byte>)
    requires |bytes| == 32
    ensures ';' !in HexEncode(bytes) && |HexEncode(bytes)| > 0
    ensures !IsWhitespace(HexEncode(bytes)[|HexEncode(bytes)| - 1])
  {
    var token := HexEncode(bytes);
    TokenShape(bytes);
    forall j | 0 <= j < |token| ensures token[j] != ';' {
      assert '0' <= token[j] <= '9' || 'a' <= token[j] <= 'f';
    }
  }

  /** Text made only of printable ASCII, space to `~`. */
  predicate Printable(s: string) {
    forall i :: 0 <= i < |s| ==> 32 <= s[i] as int < 127
  }

  /** Printable text is encoded one byte per character, and `HeaderValue::to_str` reads
      those bytes back as the same text. */
  lemma {:induction false} PrintableBytes(s: string)
    requires Printable(s)
    ensures |Utf8Bytes(s)| == |s|
    ensures forall i :: 0 <= i < |s| ==> Utf8Bytes(s)[i] == s[i] as int
    ensures HeaderToStr(Utf8Bytes(s)) == Some(s)
  {
    if |s| > 0 {
      var tail := s[1..];
      assert Printable(tail) by {
        forall i | 0 <= i < |tail| ensures 32 <= tail[i] as int < 127 {
          assert tail[i] == s[i + 1];
        }
      }
      PrintableBytes(tail);
      var bs := Utf8Bytes(s);
      assert bs == [s[0] as int] + Utf8Bytes(tail);
      assert bs[1..] == Utf8Bytes(tail);
      assert [bs[0] as char] + tail == s;
    }
  }

  lemma PrintableConcat(a: string, b: string)
    requires Printable(a) && Printable(b)
    ensures Printable(a + b)
  {
    forall i | 0 <= i < |a + b| ensures 32 <= (a + b)[i] as int < 127 {
      if i >= |a| {
        assert (a + b)[i] == b[i - |a|];
      }
    }
  }

  lemma LiteralsPrintable()
    ensures Printable(CookieName + "=")
    ensures Printable(" HttpOnly; SameSite=Lax; Path=/; Max-Age=")
    ensures Printable(";")
  {
  }

  /** The cookie text of a 32-byte token is printable ASCII: name, hex digits, punctuation
      and the decimal Max-Age. */
  lemma CookieTextPrintable(bytes: seq<Byte>, maxAge: nat)
    requires |bytes| == 32
    ensures Printable(CookieText(HexEncode(bytes), maxAge))
  {
    var token := HexEncode(bytes);
    TokenShape(bytes);
    var head: string := CookieName + "=";
    var lead: string := " HttpOnly; SameSite=Lax; Path=/; Max-Age=";
    LiteralsPrintable();
    var digits := NatToDecimal(maxAge);
    assert Printable(digits) by {
      forall i | 0 <= i < |digits| ensures 32 <= digits[i] as int < 127 {
        assert IsAsciiDigit(digits[i]);
      }
    }
    PrintableConcat(head, token);
    PrintableConcat(head + token, ";");
    PrintableConcat(lead, digits);
    PrintableConcat(head + token + ";", lead + digits);
    assert CookieText(token, maxAge) == head + token + ";" + (lead + digits);
  }

  /** `session_cookie` never falls back to the empty value for a token of 32 random bytes:
      every byte of the cookie text is allowed in a header value. */
  lemma SessionCookieOfToken(bytes: seq<Byte>, expiresAt: int, now: int)
    requires |bytes| == 32
    ensures SessionCookie(HexEncode(bytes), expiresAt, now)
         == Utf8Bytes(CookieText(HexEncode(bytes), MaxAgeSeconds(expiresAt, now)))
  {
    var text := CookieText(HexEncode(bytes), MaxAgeSeconds(expiresAt, now));
    CookieTextPrintable(bytes, MaxAgeSeconds(expiresAt, now));
    PrintableBytes(text);
    var bs := Utf8Bytes(text);
    forall i | 0 <= i < |bs| ensures HeaderByte(bs[i]) {
      assert bs[i] == text[i] as int;
    }
  }

  /** Round trip of the login flow: the `Set-Cookie` value built for a fresh token, sent back
      as the `Cookie` header, yields that token. */
  lemma SessionCookieReadsBack(bytes: seq<Byte>, expiresAt: int, now: int)
    requires |bytes| == 32
    ensures ExtractToken(Some(SessionCookie(HexEncode(bytes), expiresAt, now))) == Some(HexEncode(bytes))
  {
    var maxAge := MaxAgeSeconds(expiresAt, now);
    var text := CookieText(HexEncode(bytes), maxAge);
    SessionCookieOfToken(bytes, expiresAt, now);
    CookieTextPrintable(bytes, maxAge);
    PrintableBytes(text);
    SessionCookieCarriesToken(bytes, maxAge);
  }
}

=== FILE: session_graph.dfy ===
/** The session-keyed graph engine of core/src/logic.rs: sets are grouped by session, each
    session becomes one point dated by its first set, the points are sorted by date and then
    downsampled as in `Series.Downsample`. The `HashMap` iteration order of the groups is
    not determined by the program, so it is a parameter: `order` lists the session ids in
    the order the map happens to yield them. */
module SessionGraph {
  import opened Series
  import DailyGraph

  /** `SetDataPoint`: a logged set together with the session it belongs to. */
  datatype SetDataPoint = SetDataPoint(sessionId: int, date: int, weight: real, reps: int)

  /** `estimate_one_rm`: the same Epley estimate as `estimate_1rm` of core/src/lib.rs. */
  function EstimateOneRm(weight: real, reps: int): (r: real)
    ensures r == DailyGraph.Estimate1Rm(weight, reps)
  {
    if reps <= 1 then weight else weight * (1.0 + reps as real / 30.0)
  }

  /** `f64::max`, NaN aside. */
  function MaxReal(a: real, b: real): (r: real)
    ensures r >= a && r >= b && (r == a || r == b)
  {
    if a >= b then a else b
  }

  /** One step of the fold of `compute_session_metric`. */
  function FoldStep(metric: Metric, acc: real, s: SetDataPoint): real
  {
    match metric
    case MaxWeight => MaxReal(acc, s.weight)
    case SessionTotalVolume => acc + s.weight * s.reps as real
    case BestSetVolume => MaxReal(acc, s.weight * s.reps as real)
    case Est1Rm => MaxReal(acc, EstimateOneRm(s.weight, s.reps))
  }

  /** `compute_session_metric`: a left fold from zero over the session's sets. */
  function ComputeSessionMetric(metric: Metric, sets: seq<SetDataPoint>): (r: real)
    ensures metric != SessionTotalVolume ==> r >= 0.0
  {
    if |sets| == 0 then 0.0
    else FoldStep(metric, ComputeSessionMetric(metric, sets[..|sets| - 1]), sets[|sets| - 1])
  }

  /** A fold step adds or maxes in the set's quantity as `day_metric` measures it. */
  lemma FoldStepQuantity(metric: Metric, acc: real, s: SetDataPoint)
    ensures var q := DailyGraph.Quantity(metric, DailyGraph.SetData(s.date, s.weight, s.reps));
      FoldStep(metric, acc, s) == if metric == SessionTotalVolume then acc + q else MaxReal(acc, q)
  {
  }

  /** A set without its session. */
  function Forget(sets: seq<SetDataPoint>): (r: seq<DailyGraph.SetData>)
    ensures |r| == |sets|
    ensures forall i :: 0 <= i < |sets| ==>
      r[i] == DailyGraph.SetData(sets[i].date, sets[i].weight, sets[i].reps)
  {
    seq(|sets|, i requires 0 <= i < |sets| => DailyGraph.SetData(sets[i].date, sets[i].weight, sets[i].reps))
  }

  /** The two engines agree on a group: the session fold equals `day_metric`. */
  lemma {:induction false} SessionMetricIsDayMetric(metric: Metric, sets: seq<SetDataPoint>)
    ensures ComputeSessionMetric(metric, sets) == DailyGraph.DayMetric(metric, Forget(sets))
    decreases |sets|
  {
    if |sets| > 0 {
      var n := |sets|;
      var init := sets[..n - 1];
      var qs := DailyGraph.Quantities(metric, Forget(sets));
      SessionMetricIsDayMetric(metric, init);
      assert Forget(init) == Forget(sets)[..n - 1];
      assert DailyGraph.Quantities(metric, Forget(init)) == qs[..n - 1];
      var prev := ComputeSessionMetric(metric, init);
      FoldStepQuantity(metric, prev, sets[n - 1]);
      assert ComputeSessionMetric(metric, sets) == FoldStep(metric, prev, sets[n - 1]);
      assert qs[n - 1] == DailyGraph.Quantity(metric, Forget(sets)[n - 1]);
      if metric == SessionTotalVolume {
        assert Sum(qs) == prev + qs[n - 1];
      } else {
        assert DailyGraph.DayMetric(metric, Forget(sets)) == MaxFold(qs);
        assert MaxFold(qs) == MaxReal(prev, qs[n - 1]);
      }
    }
  }

  /** The unit-test session: 100 x 5 and 105 x 3. */
  lemma SessionMetricExamples()
    ensures var sets := [SetDataPoint(1, 0, 100.0, 5), SetDataPoint(1, 0, 105.0, 3)];
      && ComputeSessionMetric(MaxWeight, sets) == 105.0
      && ComputeSessionMetric(SessionTotalVolume, sets) == 100.0 * 5.0 + 105.0 * 3.0
      && ComputeSessionMetric(BestSetVolume, sets) == 100.0 * 5.0
      && ComputeSessionMetric(Est1Rm, sets) > 105.0
  {
    var sets := [SetDataPoint(1, 0, 100.0, 5), SetDataPoint(1, 0, 105.0, 3)];
    assert sets[..1] == [sets[0]];
    assert sets[..1][..0] == [];
  }

  function SessionIds(sets: seq<SetDataPoint>): set<int> {
    set s | s in sets :: s.sessionId
  }

  /** `order` names every session exactly once: one `HashMap` iteration order. */
  ghost predicate Enumerates(order: seq<int>, sets: seq<SetDataPoint>) {
    && (forall i, j :: 0 <= i < j < |order| ==> order[i] != order[j])
    && (forall id :: id in order <==> id in SessionIds(sets))
  }

  /** A session's group: its sets in input order. */
  function SessionGroup(sets: seq<SetDataPoint>, id: int): (r: seq<SetDataPoint>)
    ensures forall s :: s in r <==> s in sets && s.sessionId == id
    ensures id in SessionIds(sets) ==> |r| > 0
    ensures id !in SessionIds(sets) ==> r == []
  {
    if |sets| == 0 then []
    else
      var rest := SessionGroup(sets[1..], id);
      assert sets == [sets[0]] + sets[1..];
      assert id in SessionIds(sets) && sets[0].sessionId != id ==> id in SessionIds(sets[1..]);
      if sets[0].sessionId == id then [sets[0]] + rest else rest
  }

  /** A session's group holds each of its sets as often as the input does, and no other. */
  lemma {:induction false} SessionGroupCounts(sets: seq<SetDataPoint>, id: int)
    ensures forall x :: multiset(SessionGroup(sets, id))[x] == if x.sessionId == id then multiset(sets)[x] else 0
    decreases |sets|
  {
    if |sets| > 0 {
      SessionGroupCounts(sets[1..], id);
      assert sets == [sets[0]] + sets[1..];
      assert multiset(sets) == multiset([sets[0]]) + multiset(sets[1..]);
    }
  }

  /** A session's group starts with the session's first set in the input. */
  lemma {:induction false} SessionGroupFirst(sets: seq<SetDataPoint>, id: int, k: nat)
    requires k < |sets| && sets[k].sessionId == id
    requires forall j :: 0 <= j < k ==> sets[j].sessionId != id
    ensures |SessionGroup(sets, id)| > 0 && SessionGroup(sets, id)[0] == sets[k]
    decreases k
  {
    if k > 0 {
      assert sets[1..][k - 1] == sets[k];
      SessionGroupFirst(sets[1..], id, k - 1);
    }
  }

  /** Grouping distributes over concatenation: a group lists its sets in input order. */
  lemma {:induction false} SessionGroupAppend(a: seq<SetDataPoint>, b: seq<SetDataPoint>, id: int)
    ensures SessionGroup(a + b, id) == SessionGroup(a, id) + SessionGroup(b, id)
    decreases |a|
  {
    if |a| == 0 {
      assert a + b == b;
    } else {
      assert (a + b)[1..] == a[1..] + b;
      SessionGroupAppend(a[1..], b, id);
    }
  }

  /** Index of the first set of a session. */
  function FirstOfSession(sets: seq<SetDataPoint>, id: int): (k: nat)
    requires id in SessionIds(sets)
    ensures k < |sets| && sets[k].sessionId == id
    ensures forall j :: 0 <= j < k ==> sets[j].sessionId != id
  {
    if sets[0].sessionId == id then 0
    else
      assert sets == [sets[0]] + sets[1..];
      assert id in SessionIds(sets[1..]);
      1 + FirstOfSession(sets[1..], id)
  }

  /** A group's point: dated by the session's first set in the input, valued by the metric
      of the session's sets. */
  function SessionPoint(sets: seq<SetDataPoint>, metric: Metric, id: int): (r: Point)
    requires id in SessionIds(sets)
    ensures exists k ::
      && 0 <= k < |sets| && sets[k].sessionId == id && r.date == sets[k].date
      && forall j :: 0 <= j < k ==> sets[j].sessionId != id
    ensures r.value == ComputeSessionMetric(metric, SessionGroup(sets, id))
  {
    var g := SessionGroup(sets, id);
    SessionGroupFirst(sets, id, FirstOfSession(sets, id));
    Point(g[0].date, ComputeSessionMetric(metric, g))
  }

  function SessionPoints(sets: seq<SetDataPoint>, metric: Metric, order: seq<int>): (r: seq<Point>)
    requires Enumerates(order, sets)
    ensures |r| == |order|
    ensures forall i :: 0 <= i < |order| ==> r[i] == SessionPoint(sets, metric, order[i])
  {
    seq(|order|, i requires 0 <= i < |order| => SessionPoint(sets, metric, order[i]))
  }

  /** Inserts `p` after every point dated on or before it. */
  function InsertByDate(ps: seq<Point>, p: Point): (r: seq<Point>)
    requires SortedByDate(ps)
    ensures SortedByDate(r)
    ensures |r| == |ps| + 1
    ensures r[|r| - 1] == if |ps| == 0 || ps[|ps| - 1].date <= p.date then p else ps[|ps| - 1]
    ensures multiset(r) == multiset(ps) + multiset{p}
    decreases |ps|
  {
    if |ps| == 0 then [p]
    else
      var last := ps[|ps| - 1];
      var init := ps[..|ps| - 1];
      assert ps == init + [last];
      if last.date <= p.date then
        AppendSorted(ps, p);
        ps + [p]
      else
        SortedByDatePrefix(ps);
        var front := InsertByDate(init, p);
        InsertBeforeLast(init, last, p, front);
        front + [last]
  }

  lemma AppendSorted(ps: seq<Point>, p: Point)
    requires SortedByDate(ps) && |ps| > 0 && ps[|ps| - 1].date <= p.date
    ensures SortedByDate(ps + [p])
  {
    var r := ps + [p];
    forall i, j | 0 <= i < j < |r| ensures r[i].date <= r[j].date {
      if j == |ps| {
        assert r[i] == ps[i];
      }
    }
  }

  lemma SortedByDatePrefix(ps: seq<Point>)
    requires SortedByDate(ps) && |ps| > 0
    ensures SortedByDate(ps[..|ps| - 1])
  {
    var init := ps[..|ps| - 1];
    forall i, j | 0 <= i < j < |init| ensures init[i].date <= init[j].date {
      assert init[i] == ps[i] && init[j] == ps[j];
    }
  }

  /** The step of `InsertByDate` that puts the old last point back behind the insertion. */
  lemma InsertBeforeLast(init: seq<Point>, last: Point, p: Point, front: seq<Point>)
    requires SortedByDate(init + [last]) && p.date < last.date
    requires SortedByDate(front) && |front| == |init| + 1
    requires front[|front| - 1] == if |init| == 0 || init[|init| - 1].date <= p.date then p else init[|init| - 1]
    ensures SortedByDate(front + [last])
  {
    var r := front + [last];
    var top := front[|front| - 1];
    if |init| > 0 {
      assert (init + [last])[|init| - 1] == init[|init| - 1];
      assert (init + [last])[|init|] == last;
    }
    assert top.date <= last.date;
    forall i, j | 0 <= i < j < |r| ensures r[i].date <= r[j].date {
      if j == |r| - 1 {
        assert r[i].date <= top.date;
      }
    }
  }

  /** `sort_by_key` on the date, as a stable insertion sort. */
  function SortByDate(ps: seq<Point>): (r: seq<Point>)
    ensures SortedByDate(r)
    ensures multiset(r) == multiset(ps)
    ensures |r| == |ps|
  {
    if |ps| == 0 then []
    else
      var init := ps[..|ps| - 1];
      assert ps == init + [ps[|ps| - 1]];
      InsertByDate(SortByDate(init), ps[|ps| - 1])
  }

  /** `build_graph_points`: nothing for no sets or no room; otherwise one point per session,
      sorted by date, then downsampled by `downsample_graph_points`. */
  function BuildGraphPoints(sets: seq<SetDataPoint>, metric: Metric, maxPoints: nat, order: seq<int>)
    : (r: seq<Point>)
    requires Enumerates(order, sets)
    ensures r == [] <==> |sets| == 0 || maxPoints == 0
    ensures |r| <= maxPoints
    ensures SortedByDate(r)
  {
    if |sets| == 0 || maxPoints == 0 then []
    else
      assert sets[0].sessionId in SessionIds(sets);
      var sorted := SortByDate(SessionPoints(sets, metric, order));
      DownsampleSorted(sorted, maxPoints, metric);
      Downsample(sorted, maxPoints, metric)
  }

  /** With room for every session, the graph is the sessions' points, each exactly once,
      sorted by date. */
  lemma BuildGraphPointsFits(sets: seq<SetDataPoint>, metric: Metric, maxPoints: nat, order: seq<int>)
    requires Enumerates(order, sets) && |sets| > 0 && |order| <= maxPoints
    ensures var r := BuildGraphPoints(sets, metric, maxPoints, order);
      && SortedByDate(r)
      && multiset(r) == multiset(SessionPoints(sets, metric, order))
      && |r| == |SessionIds(sets)|
  {
    assert sets[0].sessionId in SessionIds(sets);
    EnumerationSize(order, sets);
  }

  /** An enumeration has one entry per session. */
  lemma EnumerationSize(order: seq<int>, sets: seq<SetDataPoint>)
    requires Enumerates(order, sets)
    ensures |order| == |SessionIds(sets)|
  {
    DistinctCard(order);
    assert (set x | x in order) == SessionIds(sets);
  }

  lemma {:induction false} DistinctCard(xs: seq<int>)
    requires forall i, j :: 0 <= i < j < |xs| ==> xs[i] != xs[j]
    ensures |set x | x in xs| == |xs|
    decreases |xs|
  {
    if |xs| > 0 {
      DistinctCard(xs[1..]);
      assert (set x | x in xs) == (set x | x in xs[1..]) + {xs[0]};
      assert xs[0] !in xs[1..];
    }
  }

  /** Every session is plotted: each session's point is somewhere in the graph. */
  lemma BuildGraphPointsCoversSessions(sets: seq<SetDataPoint>, metric: Metric, maxPoints: nat,
                                       order: seq<int>, id: int)
    requires Enumerates(order, sets) && |order| <= maxPoints && id in SessionIds(sets)
    ensures SessionPoint(sets, metric, id) in BuildGraphPoints(sets, metric, maxPoints, order)
  {
    var ps := SessionPoints(sets, metric, order);
    var i :| 0 <= i < |order| && order[i] == id;
    assert sets[0].sessionId in SessionIds(sets);
    var sorted := SortByDate(ps);
    assert BuildGraphPoints(sets, metric, maxPoints, order) == sorted;
    assert ps[i] in multiset(sorted);
  }

  /** Sorting an already sorted series changes nothing: the sort is stable. */
  lemma {:induction false} SortByDateSorted(ps: seq<Point>)
    requires SortedByDate(ps)
    ensures SortByDate(ps) == ps
    decreases |ps|
  {
    if |ps| > 0 {
      var init := ps[..|ps| - 1];
      SortByDateSorted(init);
      assert init + [ps[|ps| - 1]] == ps;
    }
  }

  /** The sets of the six-session unit test: session `d` on day `d` lifts `50 + d`. */
  function SixSessions(): seq<SetDataPoint> {
    [SetDataPoint(1, 1, 51.0, 5), SetDataPoint(2, 2, 52.0, 5), SetDataPoint(3, 3, 53.0, 5),
     SetDataPoint(4, 4, 54.0, 5), SetDataPoint(5, 5, 55.0, 5), SetDataPoint(6, 6, 56.0, 5)]
  }

  /** A session of one set is valued by that set alone. */
  lemma SessionMetricSingle(metric: Metric, s: SetDataPoint)
    ensures ComputeSessionMetric(metric, [s]) == FoldStep(metric, 0.0, s)
  {
    assert [s][..0] == [];
  }

  /** When every set has a session of its own, listed in input order, each set is a point
      of its own. */
  lemma SessionPointsOfUnique(sets: seq<SetDataPoint>, metric: Metric, order: seq<int>)
    requires forall i, j :: 0 <= i < j < |sets| ==> sets[i].sessionId != sets[j].sessionId
    requires |order| == |sets| && forall i :: 0 <= i < |sets| ==> order[i] == sets[i].sessionId
    ensures Enumerates(order, sets)
    ensures forall i :: 0 <= i < |sets| ==>
      SessionPoints(sets, metric, order)[i] == Point(sets[i].date, FoldStep(metric, 0.0, sets[i]))
  {
    forall id ensures id in order <==> id in SessionIds(sets) {
      if id in SessionIds(sets) {
        var s :| s in sets && s.sessionId == id;
        var i :| 0 <= i < |sets| && sets[i] == s;
        assert order[i] == id;
      }
    }
    forall i | 0 <= i < |sets|
      ensures SessionPoints(sets, metric, order)[i] == Point(sets[i].date, FoldStep(metric, 0.0, sets[i]))
    {
      SessionGroupUnique(sets, i);
      SessionMetricSingle(metric, sets[i]);
    }
  }

  lemma SixSessionPoints()
    ensures Enumerates([1, 2, 3, 4, 5, 6], SixSessions())
    ensures var ps := SessionPoints(SixSessions(), MaxWeight, [1, 2, 3, 4, 5, 6]);
      |ps| == 6 && forall i :: 0 <= i < 6 ==> ps[i] == Point(i + 1, 51.0 + i as real)
  {
    var sets := SixSessions();
    var order := [1, 2, 3, 4, 5, 6];
    assert forall i :: 0 <= i < 6 ==> sets[i] == SetDataPoint(i + 1, i + 1, 51.0 + i as real, 5);
    assert forall i :: 0 <= i < 6 ==> order[i] == i + 1;
    SessionPointsOfUnique(sets, MaxWeight, order);
  }

  lemma {:induction false} SessionGroupUnique(sets: seq<SetDataPoint>, i: nat)
    requires i < |sets|
    requires forall j :: 0 <= j < |sets| && j != i ==> sets[j].sessionId != sets[i].sessionId
    ensures SessionGroup(sets, sets[i].sessionId) == [sets[i]]
    decreases |sets|
  {
    var id := sets[i].sessionId;
    if i == 0 {
      assert forall s :: s in sets[1..] ==> s.sessionId != id;
      assert id !in SessionIds(sets[1..]);
    } else {
      SessionGroupUnique(sets[1..], i - 1);
    }
  }

  /** The point of session `id` of the six-session test: day `id`, weight `50 + id`. */
  lemma SixSessionPoint(id: int)
    requires 1 <= id <= 6
    ensures id in SessionIds(SixSessions())
    ensures SessionPoint(SixSessions(), MaxWeight, id) == Point(id, 50.0 + id as real)
  {
    var sets := SixSessions();
    var i := id - 1;
    assert forall j :: 0 <= j < 6 ==> sets[j].sessionId == j + 1;
    assert sets[i] == SetDataPoint(id, id, 50.0 + id as real, 5);
    assert sets[i] in sets;
    SessionGroupUnique(sets, i);
    SessionMetricSingle(MaxWeight, sets[i]);
  }

  /** A sequence without repeats holds each of its elements once. */
  lemma {:induction false} DistinctCounts<T>(xs: seq<T>)
    requires forall i, j :: 0 <= i < j < |xs| ==> xs[i] != xs[j]
    ensures forall x :: multiset(xs)[x] == if x in xs then 1 else 0
    decreases |xs|
  {
    if |xs| > 0 {
      DistinctCounts(xs[1..]);
      assert xs == [xs[0]] + xs[1..];
      assert multiset(xs) == multiset([xs[0]]) + multiset(xs[1..]);
      assert xs[0] !in xs[1..];
    }
  }

  /** Two sequences without repeats and with the same elements are permutations of each
      other. */
  lemma DistinctSameMultiset<T>(xs: seq<T>, ys: seq<T>)
    requires forall i, j :: 0 <= i < j < |xs| ==> xs[i] != xs[j]
    requires forall i, j :: 0 <= i < j < |ys| ==> ys[i] != ys[j]
    requires forall x :: x in xs <==> x in ys
    ensures multiset(xs) == multiset(ys)
  {
    DistinctCounts(xs);
    DistinctCounts(ys);
    assert forall x :: multiset(xs)[x] == multiset(ys)[x];
  }

  /** A date-sorted permutation of a strictly ascending series ends on the same point. */
  lemma SortedPermutationLast(a: seq<Point>, b: seq<Point>)
    requires SortedByDate(a) && Ascending(b) && multiset(a) == multiset(b) && |a| == |b| > 0
    ensures a[|a| - 1] == b[|b| - 1]
  {
    var n := |a|;
    var x := a[n - 1];
    var y := b[n - 1];
    assert x in multiset(b);
    var j :| 0 <= j < n && b[j] == x;
    assert y in multiset(a);
    var i :| 0 <= i < n && a[i] == y;
    assert y.date <= x.date;
  }

  /** Dropping the same last element from two permutations leaves permutations. */
  lemma DropLastPermutation<T>(a: seq<T>, b: seq<T>)
    requires |a| > 0 && |b| > 0 && a[|a| - 1] == b[|b| - 1] && multiset(a) == multiset(b)
    ensures multiset(a[..|a| - 1]) == multiset(b[..|b| - 1])
  {
    var x := a[|a| - 1];
    assert a == a[..|a| - 1] + [x];
    assert b == b[..|b| - 1] + [x];
    assert multiset(a[..|a| - 1]) == multiset(a) - multiset{x};
    assert multiset(b[..|b| - 1]) == multiset(b) - multiset{x};
  }

  /** A date-sorted permutation of a strictly ascending series is that series. */
  lemma {:induction false} SortedPermutationUnique(a: seq<Point>, b: seq<Point>)
    requires SortedByDate(a) && Ascending(b) && multiset(a) == multiset(b)
    ensures a == b
    decreases |a|
  {
    assert |a| == |multiset(a)| == |multiset(b)| == |b|;
    if |a| > 0 {
      var n := |a|;
      SortedPermutationLast(a, b);
      DropLastPermutation(a, b);
      SortedPermutationUnique(a[..n - 1], b[..n - 1]);
      assert a == a[..n - 1] + [a[n - 1]];
      assert b == b[..n - 1] + [b[n - 1]];
    }
  }

  /** The sessions of the six-session test are 1 to 6. */
  lemma SixSessionIds()
    ensures forall id :: id in SessionIds(SixSessions()) <==> 1 <= id <= 6
  {
    forall id | 1 <= id <= 6 ensures id in SessionIds(SixSessions()) {
      SixSessionPoint(id);
    }
  }

  /** In any map order, the `i`-th point of the six-session test is that of session
      `order[i]`. */
  lemma SixOrderPoints(order: seq<int>)
    requires Enumerates(order, SixSessions())
    ensures forall i :: 0 <= i < |order| ==>
      && 1 <= order[i] <= 6
      && SessionPoints(SixSessions(), MaxWeight, order)[i] == Point(order[i], 50.0 + order[i] as real)
  {
    SixSessionIds();
    forall i | 0 <= i < |order|
      ensures 1 <= order[i] <= 6
      ensures SessionPoints(SixSessions(), MaxWeight, order)[i] == Point(order[i], 50.0 + order[i] as real)
    {
      assert order[i] in order;
      SixSessionPoint(order[i]);
    }
  }

  /** Points `(id, 50 + id)` listed in the order of an enumeration of 1 to 6 are a
      permutation of the points listed in id order. */
  lemma PointsOfIds(order: seq<int>, ps: seq<Point>, ps6: seq<Point>)
    requires forall i, j :: 0 <= i < j < |order| ==> order[i] != order[j]
    requires forall id :: id in order <==> 1 <= id <= 6
    requires |ps| == |order| && forall i :: 0 <= i < |ps| ==> ps[i] == Point(order[i], 50.0 + order[i] as real)
    requires |ps6| == 6 && forall k :: 0 <= k < 6 ==> ps6[k] == Point(k + 1, 51.0 + k as real)
    ensures multiset(ps) == multiset(ps6)
  {
    forall x | x in ps ensures x in ps6 {
      var i :| 0 <= i < |ps| && ps[i] == x;
      assert order[i] in order;
      assert ps6[order[i] - 1] == x;
    }
    forall x | x in ps6 ensures x in ps {
      var k :| 0 <= k < 6 && ps6[k] == x;
      assert k + 1 in order;
      var i :| 0 <= i < |order| && order[i] == k + 1;
      assert ps[i] == x;
    }
    DistinctSameMultiset(ps, ps6);
  }

  /** Whatever the map order, the six sessions give the same points as in input order. */
  lemma SixSessionsSamePoints(order: seq<int>)
    requires Enumerates(order, SixSessions())
    ensures multiset(SessionPoints(SixSessions(), MaxWeight, order))
         == multiset(SessionPoints(SixSessions(), MaxWeight, [1, 2, 3, 4, 5, 6]))
  {
    SixSessionPoints();
    SixOrderPoints(order);
    SixSessionIds();
    PointsOfIds(order, SessionPoints(SixSessions(), MaxWeight, order),
                SessionPoints(SixSessions(), MaxWeight, [1, 2, 3, 4, 5, 6]));
  }

  /** Whatever the map order, sorting the six sessions' points gives them by day. */
  lemma SixSessionsSorted(order: seq<int>)
    requires Enumerates(order, SixSessions())
    ensures SortByDate(SessionPoints(SixSessions(), MaxWeight, order))
         == SessionPoints(SixSessions(), MaxWeight, [1, 2, 3, 4, 5, 6])
  {
    SixSessionPoints();
    SixSessionsSamePoints(order);
    SortDaysPermutation(SessionPoints(SixSessions(), MaxWeight, order),
                        SessionPoints(SixSessions(), MaxWeight, [1, 2, 3, 4, 5, 6]));
  }

  /** Sorting any permutation of the points of days 1 to 6 lists them by day. */
  lemma SortDaysPermutation(ps: seq<Point>, days: seq<Point>)
    requires |days| == 6 && forall k :: 0 <= k < 6 ==> days[k] == Point(k + 1, 51.0 + k as real)
    requires multiset(ps) == multiset(days)
    ensures SortByDate(ps) == days
  {
    assert Ascending(days);
    SortedPermutationUnique(SortByDate(ps), days);
  }

  /** The six-session unit test with two points: whatever order the map yields the sessions
      in, the graph is the peak of days 1-3 dated day 1 and the peak of days 4-6 dated day 4. */
  lemma SixSessionsInTwoPoints(order: seq<int>)
    requires Enumerates(order, SixSessions())
    ensures BuildGraphPoints(SixSessions(), MaxWeight, 2, order) == [Point(1, 53.0), Point(4, 56.0)]
  {
    var ps6 := SessionPoints(SixSessions(), MaxWeight, [1, 2, 3, 4, 5, 6]);
    SixSessionsSorted(order);
    SixSessionPoints();
    assert |SixSessions()| > 0;
    DailyGraph.SixPointsInTwo(ps6);
  }
}

=== FILE: set_state.dfy ===
/** One row of the workout grid (`SetState` in tui/src/state.rs) and the server's record
    of a set (`WorkoutSet` in core/src/lib.rs). Times are milliseconds since the epoch,
    days are day numbers. */
module SetEntry {
  import opened Wrappers
  import opened NumText

  /** A set as the server stores and returns it. */
  datatype WorkoutSet = WorkoutSet(
    id: int,
    exerciseId: int,
    day: int,
    setNumber: I32,
    weight: real,
    reps: I32,
    completedAt: int)

  /** A set as the client edits it: the weight is kept as typed text, the reps both as
      text and as the parsed number. */
  datatype SetState = SetState(
    id: Option<int>,
    number: int,
    weight: string,
    reps: Option<int>,
    repsBuffer: string,
    completedAt: Option<int>,
    pending: bool)

  /** A set has a completion time exactly when it has reps. */
  predicate RepsConsistent(s: SetState) {
    s.reps.Some? == s.completedAt.Some?
  }

  /** `is_empty`: a local placeholder that neither the user nor the server has filled. */
  predicate IsEmpty(s: SetState) {
    s.id.None? && s.reps.None? && s.completedAt.None? && !s.pending
  }

  /** `SetState::empty`: a blank set whose weight field is pre-filled with the seed weight
      when that is positive. */
  function Empty(number: int, weight: real): (s: SetState)
    ensures IsEmpty(s) && RepsConsistent(s)
    ensures s.number == number && s.repsBuffer == []
    ensures ParseWeight(s.weight) == (if weight > 0.0 then RoundTenths(weight) else 0.0)
  {
    FormatTenthsRoundTrip(weight);
    SetState(None, number, if weight > 0.0 then FormatTenths(weight) else "", None, "", None, false)
  }

  /** `SetState::from_server`: a confirmed set; its text fields read back as the server's
      numbers. */
  function FromServer(w: WorkoutSet): (s: SetState)
    ensures !IsEmpty(s) && RepsConsistent(s) && !s.pending
    ensures s.id == Some(w.id) && s.number == w.setNumber
    ensures s.reps == Some(w.reps as int) && ParseI32(s.repsBuffer) == s.reps
    ensures ParseWeight(s.weight) == RoundTenths(w.weight)
    ensures s.completedAt == Some(w.completedAt)
  {
    IntToStringRoundTrip(w.reps);
    FormatTenthsRoundTrip(w.weight);
    SetState(Some(w.id), w.setNumber, FormatTenths(w.weight), Some(w.reps as int),
      IntToString(w.reps), Some(w.completedAt), false)
  }

  /** `apply_reps_buffer`: reparse the reps text; a parse stamps the completion time
      (`wall`) unless one is already set, a failed parse clears both. */
  function ApplyRepsBuffer(s: SetState, wall: int): (r: SetState)
    ensures r.reps == ParseI32(s.repsBuffer)
    ensures RepsConsistent(r)
    ensures r.reps.Some? && s.completedAt.Some? ==> r.completedAt == s.completedAt
    ensures r.reps.Some? && s.completedAt.None? ==> r.completedAt == Some(wall)
    ensures r.(reps := s.reps, completedAt := s.completedAt) == s
  {
    match ParseI32(s.repsBuffer)
    case Some(n) =>
      s.(reps := Some(n), completedAt := if s.completedAt.None? then Some(wall) else s.completedAt)
    case None =>
      s.(reps := None, completedAt := None)
  }
}

=== FILE: text.dfy ===
/** String helpers with the semantics of the Rust `str` methods the source uses. */
module Text {
  import opened Wrappers

  /** `char::is_ascii_digit`. */
  predicate IsAsciiDigit(c: char) {
    '0' <= c <= '9'
  }

  /** `char::is_whitespace`: the Unicode White_Space property, which `str::trim` strips. */
  predicate IsWhitespace(c: char) {
    var n := c as int;
    (9 <= n <= 13) || n == 32 || n == 0x85 || n == 0xA0 || n == 0x1680
    || (0x2000 <= n <= 0x200A) || n == 0x2028 || n == 0x2029 || n == 0x202F
    || n == 0x205F || n == 0x3000
  }

  /** `str::trim_start`. */
  function TrimStart(s: string): (r: string)
    ensures |r| <= |s| && r == s[|s| - |r|..]
    ensures |r| > 0 ==> !IsWhitespace(r[0])
    ensures forall i :: 0 <= i < |s| - |r| ==> IsWhitespace(s[i])
  {
    if |s| > 0 && IsWhitespace(s[0]) then TrimStart(s[1..]) else s
  }

  /** `str::trim_end`. */
  function TrimEnd(s: string): (r: string)
    ensures |r| <= |s| && r == s[..|r|]
    ensures |r| > 0 ==> !IsWhitespace(r[|r| - 1])
    ensures forall i :: |r| <= i < |s| ==> IsWhitespace(s[i])
  {
    if |s| > 0 && IsWhitespace(s[|s| - 1]) then TrimEnd(s[..|s| - 1]) else s
  }

  /** `str::trim`: whitespace removed at both ends, nothing else touched. */
  function Trim(s: string): (r: string)
    ensures |r| <= |s|
    ensures |r| > 0 ==> !IsWhitespace(r[0]) && !IsWhitespace(r[|r| - 1])
    ensures (|s| == 0 || (!IsWhitespace(s[0]) && !IsWhitespace(s[|s| - 1]))) ==> r == s
    ensures exists i, j :: 0 <= i <= j <= |s| && r == s[i..j] && WhitespaceOutside(s, i, j)
  {
    var t := TrimStart(s);
    var r := TrimEnd(t);
    TrimIsSlice(s, t, r);
    r
  }

  lemma TrimIsSlice(s: string, t: string, r: string)
    requires |t| <= |s| && t == s[|s| - |t|..]
    requires |r| <= |t| && r == t[..|r|] && forall k :: |r| <= k < |t| ==> IsWhitespace(t[k])
    requires forall k :: 0 <= k < |s| - |t| ==> IsWhitespace(s[k])
    ensures var i := |s| - |t|; 0 <= i <= i + |r| <= |s| && r == s[i..i + |r|] && WhitespaceOutside(s, i, i + |r|)
  {
    var i := |s| - |t|;
    assert t == s[i..];
    assert r == t[..|r|];
    forall k | 0 <= k < |s| && i + |r| <= k
      ensures IsWhitespace(s[k])
    {
      assert s[k] == t[k - i];
    }
  }

  /** Every character of `s` before `i` or from `j` on is whitespace. */
  predicate WhitespaceOutside(s: string, i: nat, j: nat) {
    forall k :: 0 <= k < |s| && (k < i || j <= k) ==> IsWhitespace(s[k])
  }

  /** `str::starts_with` for a character pattern. */
  predicate StartsWith(s: string, c: char) {
    |s| > 0 && s[0] == c
  }

  /** `str::ends_with` for a character pattern. */
  predicate EndsWith(s: string, c: char) {
    |s| > 0 && s[|s| - 1] == c
  }

  /** Inverse of `Split`: the parts glued back with the separator. */
  function Join(parts: seq<string>, sep: char): string
    requires |parts| >= 1
  {
    if |parts| == 1 then parts[0] else parts[0] + [sep] + Join(parts[1..], sep)
  }

  /** `str::split` on a character: every maximal separator-free run, empty runs included. */
  function Split(s: string, sep: char): (parts: seq<string>)
    ensures |parts| >= 1
    ensures forall i :: 0 <= i < |parts| ==> sep !in parts[i]
    ensures Join(parts, sep) == s
  {
    if |s| == 0 then [[]]
    else
      var rest := Split(s[1..], sep);
      if s[0] == sep then
        assert ([[]] + rest)[1..] == rest;
        [[]] + rest
      else
        var parts := [[s[0]] + rest[0]] + rest[1..];
        assert parts[1..] == rest[1..];
        assert |rest| > 1 ==> Join(rest, sep) == rest[0] + [sep] + Join(rest[1..], sep);
        parts
  }

  /** A separator-free string is split into itself alone. */
  lemma {:induction false} SplitNoSep(s: string, sep: char)
    requires sep !in s
    ensures Split(s, sep) == [s]
  {
    if |s| > 0 {
      SplitNoSep(s[1..], sep);
    }
  }

  /** Splitting peels off a separator-free head. */
  lemma {:induction false} SplitAfterHead(x: string, sep: char, y: string)
    requires sep !in x
    ensures Split(x + [sep] + y, sep) == [x] + Split(y, sep)
  {
    if |x| == 0 {
      assert (x + [sep] + y)[1..] == y;
    } else {
      assert (x + [sep] + y)[1..] == x[1..] + [sep] + y;
      SplitAfterHead(x[1..], sep, y);
      assert [x[0]] + x[1..] == x;
    }
  }

  /** `Split` is the inverse of `Join` on separator-free parts, so the two characterise each
      other. */
  lemma {:induction false} SplitJoin(parts: seq<string>, sep: char)
    requires |parts| >= 1
    requires forall i :: 0 <= i < |parts| ==> sep !in parts[i]
    ensures Split(Join(parts, sep), sep) == parts
  {
    if |parts| == 1 {
      SplitNoSep(parts[0], sep);
    } else {
      SplitJoin(parts[1..], sep);
      SplitAfterHead(parts[0], sep, Join(parts[1..], sep));
      assert [parts[0]] + parts[1..] == parts;
    }
  }

  /** `str::split_once` on a character. */
  function SplitOnce(s: string, sep: char): (r: Option<(string, string)>)
    ensures r.None? <==> sep !in s
    ensures r.Some? ==> s == r.value.0 + [sep] + r.value.1 && sep !in r.value.0
  {
    if |s| == 0 then None
    else if s[0] == sep then Some(([], s[1..]))
    else
      match SplitOnce(s[1..], sep)
      case None => None
      case Some((a, b)) => Some(([s[0]] + a, b))
  }

  /** Splitting once after a separator-free head gives back the head and the tail. */
  lemma {:induction false} SplitOnceAfterHead(x: string, sep: char, y: string)
    requires sep !in x
    ensures SplitOnce(x + [sep] + y, sep) == Some((x, y))
  {
    if |x| > 0 {
      assert (x + [sep] + y)[1..] == x[1..] + [sep] + y;
      SplitOnceAfterHead(x[1..], sep, y);
      assert [x[0]] + x[1..] == x;
    }
  }

  /** Number of bytes in the UTF-8 encoding of one character. */
  function Utf8Len(c: char): (n: nat)
    ensures 1 <= n <= 4
    ensures n == 1 <==> (c as int) < 0x80
  {
    var cp := c as int;
    if cp < 0x80 then 1 else if cp < 0x800 then 2 else if cp < 0x10000 then 3 else 4
  }

  /** An octet, Rust's `u8`. */
  type Byte = b: int | 0 <= b < 256

  /** UTF-8 encoding of one Unicode scalar value (`char::encode_utf8`). */
  function Utf8Encode(c: char): (bs: seq<Byte>)
    ensures |bs| == Utf8Len(c)
    ensures (c as int) < 0x80 ==> bs == [c as int]
    ensures (c as int) >= 0x80 ==> forall i :: 0 <= i < |bs| ==> bs[i] >= 0x80
  {
    var cp := c as int;
    if cp < 0x80 then [cp]
    else if cp < 0x800 then [0xC0 + cp / 64, 0x80 + cp % 64]
    else if cp < 0x10000 then [0xE0 + cp / 4096, 0x80 + (cp / 64) % 64, 0x80 + cp % 64]
    else [0xF0 + cp / 262144, 0x80 + (cp / 4096) % 64, 0x80 + (cp / 64) % 64, 0x80 + cp % 64]
  }

  /** `str::as_bytes`. */
  function Utf8Bytes(s: string): (bs: seq<Byte>)
  {
    if |s| == 0 then [] else Utf8Encode(s[0]) + Utf8Bytes(s[1..])
  }

  /** `str::len`: the UTF-8 byte length of a string. */
  function ByteLen(s: string): (n: nat)
    ensures n >= |s|
    ensures n == 1 <==> |s| == 1 && (s[0] as int) < 0x80
  {
    if |s| == 0 then 0 else Utf8Len(s[0]) + ByteLen(s[1..])
  }
}

=== FILE: url_codec.dfy ===
/** `url_encode` of the terminal client: percent-encoding (section 2.1 of RFC 3986) of
    every character outside the unreserved set of section 2.3, byte by byte over UTF-8. */
module UrlCodec {
  import opened Wrappers
  import opened Text

  /** The unreserved characters of section 2.3 of RFC 3986. */
  predicate IsUnreserved(c: char) {
    ('a' <= c <= 'z') || ('A' <= c <= 'Z') || ('0' <= c <= '9')
    || c == '-' || c == '_' || c == '.' || c == '~'
  }

  /** Text made only of unreserved characters and `%`, the alphabet of the encoder's output. */
  predicate Encoded(r: string) {
    forall j :: 0 <= j < |r| ==> IsUnreserved(r[j]) || r[j] == '%'
  }

  lemma EncodedConcat(a: string, b: string)
    requires Encoded(a) && Encoded(b)
    ensures Encoded(a + b)
  {
    forall j | 0 <= j < |a + b| ensures IsUnreserved((a + b)[j]) || (a + b)[j] == '%' {
      if j >= |a| {
        assert (a + b)[j] == b[j - |a|];
      }
    }
  }

  /** Upper-case hexadecimal digit, as `{:02X}` prints it. */
  function HexUpper(d: nat): (c: char)
    requires d < 16
    ensures IsUnreserved(c)
  {
    if d < 10 then ('0' as int + d) as char else ('A' as int + d - 10) as char
  }

  /** Value of a hexadecimal digit of either case. */
  function HexValue(c: char): (r: Option<nat>)
    ensures r.Some? ==> r.value < 16
  {
    if '0' <= c <= '9' then Some(c as int - '0' as int)
    else if 'A' <= c <= 'F' then Some(c as int - 'A' as int + 10)
    else if 'a' <= c <= 'f' then Some(c as int - 'a' as int + 10)
    else None
  }

  lemma HexUpperValue(d: nat)
    requires d < 16
    ensures HexValue(HexUpper(d)) == Some(d)
  {
  }

  /** The `%XY` triplet of one byte (`format!("%{:02X}", b)`). */
  function Triplet(b: Byte): (t: string)
    ensures |t| == 3 && t[0] == '%' && t[1] == HexUpper(b / 16) && t[2] == HexUpper(b % 16)
    ensures Encoded(t)
  {
    ['%', HexUpper(b / 16), HexUpper(b % 16)]
  }

  /** One `%XY` triplet per byte. */
  function PercentEncodeBytes(bs: seq<Byte>): (r: string)
    ensures |r| == 3 * |bs|
    ensures forall i :: 0 <= i < |bs| ==>
      r[3 * i] == '%' && r[3 * i + 1] == HexUpper(bs[i] / 16) && r[3 * i + 2] == HexUpper(bs[i] % 16)
    ensures Encoded(r)
  {
    if |bs| == 0 then []
    else
      var head, rest := Triplet(bs[0]), PercentEncodeBytes(bs[1..]);
      EncodedConcat(head, rest);
      TripletsShift(bs, head, rest);
      head + rest
  }

  /** Putting the first byte's triplet in front of the others' keeps every triplet at
      position `3 * i`. */
  lemma TripletsShift(bs: seq<Byte>, head: string, rest: string)
    requires |bs| > 0 && head == Triplet(bs[0]) && |rest| == 3 * (|bs| - 1)
    requires forall i :: 0 <= i < |bs| - 1 ==>
      rest[3 * i] == '%' && rest[3 * i + 1] == HexUpper(bs[i + 1] / 16) && rest[3 * i + 2] == HexUpper(bs[i + 1] % 16)
    ensures forall i :: 0 <= i < |bs| ==>
      (head + rest)[3 * i] == '%' && (head + rest)[3 * i + 1] == HexUpper(bs[i] / 16)
      && (head + rest)[3 * i + 2] == HexUpper(bs[i] % 16)
  {
    var r := head + rest;
    forall i | 1 <= i < |bs|
      ensures r[3 * i] == '%' && r[3 * i + 1] == HexUpper(bs[i] / 16) && r[3 * i + 2] == HexUpper(bs[i] % 16)
    {
      var j := i - 1;
      assert r[3 * i] == rest[3 * j] && r[3 * i + 1] == rest[3 * j + 1] && r[3 * i + 2] == rest[3 * j + 2];
    }
  }

  function EncodeChar(c: char): (r: string)
    ensures |r| >= 1
    ensures Encoded(r)
  {
    if IsUnreserved(c) then [c] else PercentEncodeBytes(Utf8Encode(c))
  }

  /** `url_encode`: unreserved characters pass through, every other character becomes the
      percent-triplets of its UTF-8 bytes. */
  function UrlEncode(s: string): (r: string)
    ensures Encoded(r)
    ensures |r| >= |s|
  {
    if |s| == 0 then []
    else
      var head := EncodeChar(s[0]);
      EncodedConcat(head, UrlEncode(s[1..]));
      head + UrlEncode(s[1..])
  }

  /** Percent-decoding (section 2.1 of RFC 3986) into octets; `None` for a malformed
      triplet or a non-ASCII character. */
  function PercentDecode(t: string): Option<seq<Byte>>
    decreases |t|
  {
    if |t| == 0 then Some([])
    else if t[0] == '%' then
      if |t| < 3 then None
      else
        match (HexValue(t[1]), HexValue(t[2]), PercentDecode(t[3..]))
        case (Some(h), Some(l), Some(rest)) => Some([h * 16 + l] + rest)
        case _ => None
    else if (t[0] as int) < 0x80 then
      match PercentDecode(t[1..])
      case Some(rest) => Some([t[0] as int] + rest)
      case None => None
    else None
  }

  /** `bs` in front of a decoded result; a failure stays a failure. */
  function Prepend(bs: seq<Byte>, o: Option<seq<Byte>>): (r: Option<seq<Byte>>)
    ensures r.Some? <==> o.Some?
    ensures r.Some? ==> r.value == bs + o.value
  {
    match o
    case Some(v) => Some(bs + v)
    case None => None
  }

  lemma PrependTwice(a: seq<Byte>, b: seq<Byte>, o: Option<seq<Byte>>)
    ensures Prepend(a, Prepend(b, o)) == Prepend(a + b, o)
  {
    if o.Some? {
      assert a + (b + o.value) == (a + b) + o.value;
    }
  }

  /** One triplet decodes to its byte, ahead of whatever the rest decodes to. */
  lemma DecodeTriplet(b: Byte, u: string)
    ensures PercentDecode(Triplet(b) + u) == Prepend([b], PercentDecode(u))
  {
    var t := Triplet(b) + u;
    assert t[3..] == u;
    HexUpperValue(b / 16);
    HexUpperValue(b % 16);
    assert HexValue(t[1]) == Some(b / 16) && HexValue(t[2]) == Some(b % 16);
  }

  /** The triplets of `bs` decode back to `bs`, ahead of whatever follows them decodes to. */
  lemma {:induction false} DecodeEncodedBytes(bs: seq<Byte>, rest: string)
    ensures PercentDecode(PercentEncodeBytes(bs) + rest) == Prepend(bs, PercentDecode(rest))
  {
    if |bs| > 0 {
      var triplet := Triplet(bs[0]);
      var u := PercentEncodeBytes(bs[1..]) + rest;
      assert PercentEncodeBytes(bs) + rest == triplet + u;
      DecodeTriplet(bs[0], u);
      DecodeEncodedBytes(bs[1..], rest);
      PrependTwice([bs[0]], bs[1..], PercentDecode(rest));
      assert [bs[0]] + bs[1..] == bs;
    } else {
      assert PercentEncodeBytes(bs) + rest == rest;
      assert bs + [] == [];
      if PercentDecode(rest).Some? {
        assert bs + PercentDecode(rest).value == PercentDecode(rest).value;
      }
    }
  }

  /** Decoding the encoder's output gives back exactly the UTF-8 bytes of the input. */
  lemma {:induction false} UrlEncodeRoundTrip(s: string)
    ensures PercentDecode(UrlEncode(s)) == Some(Utf8Bytes(s))
  {
    if |s| > 0 {
      UrlEncodeRoundTrip(s[1..]);
      var t := UrlEncode(s);
      if IsUnreserved(s[0]) {
        assert t[1..] == UrlEncode(s[1..]);
      } else {
        DecodeEncodedBytes(Utf8Encode(s[0]), UrlEncode(s[1..]));
      }
    }
  }

  /** A character is left as it is exactly when it is unreserved. */
  lemma PassThroughExactlyUnreserved(c: char)
    ensures UrlEncode([c]) == [c] <==> IsUnreserved(c)
  {
    assert [c][1..] == [];
    if !IsUnreserved(c) {
      assert |UrlEncode([c])| >= 3;
    }
  }
}

=== FILE: workout_app.dfy ===
/** The workout view of the terminal client (`App` in tui/src/state.rs): key input,
    navigation, set deletion, auto-advance, save requests, and the reconciliation of the
    set-related responses. Each operation is a pure transition that returns the new state
    and the requests it would hand to the API worker, in order. */
module WorkoutApp {
  import opened Wrappers
  import opened Text
  import opened NumText
  import opened SetEntry
  import opened ExerciseCursor

  datatype View = Auth | Workout | Manage | Exercises

  /** Requests the workout operations send to the API worker. */
  datatype Request =
    | LoadSets(day: int, exerciseId: int)
    | SaveSet(day: int, exerciseId: int, setNumber: int, weight: real, reps: int, completedAt: int)
    | DeleteSet(day: int, exerciseId: int, setNumber: int)
    | LoadActivity(start: int, end: int)

  /** The set-related responses of the API worker; they may arrive in any order. */
  datatype Response =
    | SetsLoaded(exerciseId: int, day: int, loaded: Result<seq<WorkoutSet>, string>)
    | SetSaved(exerciseId: int, day: int, setNumber: int, saved: Result<WorkoutSet, string>)
    | SetDeleted(exerciseId: int, day: int, setNumber: int, deleted: Result<(), string>)

  datatype App = App(
    view: View,
    day: int,
    exercises: seq<ExerciseState>,
    selected: nat,
    loadingSets: set<(int, int)>)

  /** The new state and the requests emitted on the way to it. */
  datatype Step = Step(app: App, requests: seq<Request>)

  const DayMs: int := 86_400_000

  /** `ACTIVITY_DAYS`: the activity window requested after a save or delete. */
  const ActivityDays: int := 21

  /** Noon UTC of a day, the completion time sent for a set without one. */
  function DayNoon(day: int): (t: int)
    ensures day * DayMs <= t < (day + 1) * DayMs
  {
    day * DayMs + DayMs / 2
  }

  /** `request_activity`: the last 21 days up to the wall clock. */
  function ActivityRequest(wall: int): (r: Request)
    ensures r.LoadActivity? && r.end == wall && r.end - r.start == (ActivityDays - 1) * DayMs
  {
    LoadActivity(wall - (ActivityDays - 1) * DayMs, wall)
  }

  /** The invariant the workout view keeps: a selected exercise when there are any, and a
      valid grid in every exercise. */
  predicate Valid(app: App) {
    && (|app.exercises| > 0 ==> app.selected < |app.exercises|)
    && forall i :: 0 <= i < |app.exercises| ==> ExerciseCursor.Valid(app.exercises[i])
  }

  /** Rust's `clamp(lo, hi)` for `lo <= hi`. */
  function Clamp(x: int, lo: int, hi: int): (r: int)
    requires lo <= hi
    ensures lo <= r <= hi
    ensures lo <= x <= hi ==> r == x
    ensures x < lo ==> r == lo
    ensures x > hi ==> r == hi
  {
    if x < lo then lo else if x > hi then hi else x
  }

  function WithExercise(app: App, k: nat, ex: ExerciseState): (r: App)
    requires k < |app.exercises|
    ensures r.exercises == app.exercises[k := ex]
    ensures r.(exercises := app.exercises) == app
    ensures Valid(app) && ExerciseCursor.Valid(ex) ==> Valid(r)
  {
    app.(exercises := app.exercises[k := ex])
  }

  /** Index of the first exercise with the given id (`iter().find`). */
  function FindExercise(exs: seq<ExerciseState>, id: int): (r: Option<nat>)
    ensures r.Some? ==> r.value < |exs| && exs[r.value].id == Some(id)
    ensures r.Some? ==> forall j :: 0 <= j < r.value ==> exs[j].id != Some(id)
    ensures r.None? ==> forall j :: 0 <= j < |exs| ==> exs[j].id != Some(id)
  {
    if |exs| == 0 then None
    else if exs[0].id == Some(id) then Some(0)
    else match FindExercise(exs[1..], id)
      case Some(k) => Some(k + 1)
      case None => None
  }

  /** `request_sets_for`: at most one outstanding `LoadSets` per (day, exercise). */
  function RequestSetsFor(app: App, exerciseId: int): (r: Step)
    ensures (app.day, exerciseId) in r.app.loadingSets
    ensures r.app.loadingSets == app.loadingSets + {(app.day, exerciseId)}
    ensures r.app.(loadingSets := app.loadingSets) == app
    ensures (app.day, exerciseId) in app.loadingSets ==> r.requests == []
    ensures (app.day, exerciseId) !in app.loadingSets ==> r.requests == [LoadSets(app.day, exerciseId)]
  {
    var key := (app.day, exerciseId);
    if key in app.loadingSets then Step(app, [])
    else Step(app.(loadingSets := app.loadingSets + {key}), [LoadSets(app.day, exerciseId)])
  }

  /** A second request for the same key, with no response in between, sends nothing. */
  lemma RequestSetsForOnce(app: App, exerciseId: int)
    ensures RequestSetsFor(RequestSetsFor(app, exerciseId).app, exerciseId).requests == []
    ensures |RequestSetsFor(app, exerciseId).requests| <= 1
  {
  }

  /** `request_current_sets`. */
  function RequestCurrentSets(app: App): (r: Step)
    ensures r.app.(loadingSets := app.loadingSets) == app
    ensures app.loadingSets <= r.app.loadingSets
    ensures |r.requests| <= 1
    ensures r.requests != [] ==>
      && app.selected < |app.exercises| && app.exercises[app.selected].id.Some?
      && (app.day, app.exercises[app.selected].id.value) !in app.loadingSets
      && r.requests == [LoadSets(app.day, app.exercises[app.selected].id.value)]
    ensures (app.selected < |app.exercises| && app.exercises[app.selected].id.Some?
             && (app.day, app.exercises[app.selected].id.value) !in app.loadingSets) ==> r.requests != []
  {
    if app.selected < |app.exercises| && app.exercises[app.selected].id.Some? then
      RequestSetsFor(app, app.exercises[app.selected].id.value)
    else Step(app, [])
  }

  /** `advance_set`: restart the timer; move to the next set if there is one, else append a
      blank set numbered one past the count, seeded with the last set's weight, and move onto
      it; the focus becomes Reps either way. */
  function AdvanceSet(app: App): (r: App)
    ensures Valid(app) ==> Valid(r)
    ensures |r.exercises| == |app.exercises|
    ensures app.selected >= |app.exercises| ==> r == app
    ensures app.selected < |app.exercises| ==>
      var ex := app.exercises[app.selected];
      var ex' := r.exercises[app.selected];
      && (forall i :: 0 <= i < |app.exercises| && i != app.selected ==> r.exercises[i] == app.exercises[i])
      && r.(exercises := app.exercises) == app
      && ex'.focus == Reps && ex'.lastInput.None?
      && ex'.id == ex.id && ex'.name == ex.name
      && (ex.cursor + 1 < |ex.sets| ==>
            ex'.cursor == ex.cursor + 1 && ex'.sets == ex.sets && ex'.defaultWeight == ex.defaultWeight)
      && (ex.cursor + 1 >= |ex.sets| ==>
            && |ex'.sets| == |ex.sets| + 1 && ex'.sets[..|ex.sets|] == ex.sets
            && ex'.cursor == |ex.sets|
            && IsEmpty(ex'.sets[|ex.sets|]) && ex'.sets[|ex.sets|].number == |ex.sets| + 1
            && ex'.defaultWeight == (if |ex.sets| > 0 then ParseWeight(ex.sets[|ex.sets| - 1].weight) else ex.defaultWeight)
            && ex'.sets[|ex.sets|] == Empty(|ex.sets| + 1, ex'.defaultWeight))
  {
    if app.selected >= |app.exercises| then app
    else
      var ex := ResetTimer(app.exercises[app.selected]);
      if ex.cursor + 1 < |ex.sets| then
        WithExercise(app, app.selected, ex.(cursor := ex.cursor + 1, focus := Reps))
      else
        var w := if |ex.sets| > 0 then ParseWeight(ex.sets[|ex.sets| - 1].weight) else ex.defaultWeight;
        var sets := ex.sets + [Empty(|ex.sets| + 1, w)];
        assert sets[..|ex.sets|] == ex.sets;
        WithExercise(app, app.selected, ex.(defaultWeight := w, sets := sets, cursor := |ex.sets|, focus := Reps))
  }

  /** The condition under which `tick` auto-advances: the workout view, Reps focus, an
      expired running timer and committed reps on the cursor set. */
  predicate TickAdvances(app: App, now: int) {
    && app.view == Workout
    && app.selected < |app.exercises|
    && var ex := app.exercises[app.selected];
       ex.focus == Reps && ShouldAutoAdvance(ex, now) && ex.cursor < |ex.sets| && ex.sets[ex.cursor].reps.Some?
  }

  /** `tick`: the idle auto-advance. Finishing a set by pausing after the reps moves the
      cursor on and restarts nothing else. */
  function Tick(app: App, now: int): (r: App)
    ensures Valid(app) ==> Valid(r)
    ensures |r.exercises| == |app.exercises|
    ensures !TickAdvances(app, now) ==> r == app
    ensures TickAdvances(app, now) ==>
      var ex := app.exercises[app.selected];
      && r.exercises[app.selected].cursor == ex.cursor + 1
      && r.exercises[app.selected].focus == Reps
      && r.exercises[app.selected].lastInput.None?
      && |r.exercises[app.selected].sets| >= |ex.sets|
      && r == AdvanceSet(app)
  {
    if TickAdvances(app, now) then AdvanceSet(app) else app
  }

  /** `sync_current_set`: when the cursor set of an exercise with an id has reps, mark it
      pending and send its weight, reps and completion time (noon of the day when it has
      none) for saving. */
  function SyncCurrentSet(app: App): (r: Step)
    ensures Valid(app) ==> Valid(r.app)
    ensures |r.requests| <= 1
    ensures r.app.(exercises := app.exercises) == app
    ensures |r.app.exercises| == |app.exercises|
    ensures r.requests == [] ==> r.app == app
    ensures r.requests != [] <==>
      && app.selected < |app.exercises|
      && var ex := app.exercises[app.selected];
         ex.id.Some? && ex.cursor < |ex.sets| && ex.sets[ex.cursor].reps.Some?
    ensures r.requests != [] ==>
      var ex := app.exercises[app.selected];
      var s := ex.sets[ex.cursor];
      && r.requests[0] == SaveSet(app.day, ex.id.value, s.number, ParseWeight(s.weight), s.reps.value,
                                  if s.completedAt.Some? then s.completedAt.value else DayNoon(app.day))
      && r.app.exercises == app.exercises[app.selected := ex.(sets := ex.sets[ex.cursor := s.(pending := true)])]
  {
    if app.selected >= |app.exercises| then Step(app, [])
    else
      var ex := app.exercises[app.selected];
      if ex.id.None? || ex.cursor >= |ex.sets| || ex.sets[ex.cursor].reps.None? then Step(app, [])
      else
        var s := ex.sets[ex.cursor];
        var completed := if s.completedAt.Some? then s.completedAt.value else DayNoon(app.day);
        var ex' := ex.(sets := ex.sets[ex.cursor := s.(pending := true)]);
        Step(WithExercise(app, app.selected, ex'),
             [SaveSet(app.day, ex.id.value, s.number, ParseWeight(s.weight), s.reps.value, completed)])
  }

  /** `select_exercise`: trim the exercise being left, clamp the new index, restart its
      timer and ask for its sets. */
  function SelectExercise(app: App, delta: int): (r: Step)
    ensures Valid(app) ==> Valid(r.app)
    ensures |app.exercises| == 0 ==> r == Step(app, [])
    ensures |app.exercises| > 0 ==>
      && r.app.selected == Clamp(app.selected + delta, 0, |app.exercises| - 1)
      && |r.app.exercises| == |app.exercises|
      && r.app.exercises[r.app.selected].lastInput.None?
      && r.app.day == app.day && r.app.view == app.view
      && (forall i :: 0 <= i < |app.exercises| && i != app.selected && i != r.app.selected ==>
            r.app.exercises[i] == app.exercises[i])
    ensures |app.exercises| > 0 && app.selected < |app.exercises| ==>
      && (r.app.selected != app.selected ==>
            && r.app.exercises[app.selected] == TrimEmptyTrailing(app.exercises[app.selected])
            && r.app.exercises[r.app.selected] == ResetTimer(app.exercises[r.app.selected]))
      && (r.app.selected == app.selected ==>
            r.app.exercises[app.selected] == ResetTimer(TrimEmptyTrailing(app.exercises[app.selected])))
    ensures |app.exercises| > 0 ==> r == RequestCurrentSets(r.app.(loadingSets := app.loadingSets))
    ensures |r.requests| <= 1
  {
    if |app.exercises| == 0 then Step(app, [])
    else
      var trimmed :=
        if app.selected < |app.exercises|
        then WithExercise(app, app.selected, TrimEmptyTrailing(app.exercises[app.selected]))
        else app;
      var next := Clamp(app.selected + delta, 0, |app.exercises| - 1);
      var moved := trimmed.(selected := next);
      RequestCurrentSets(WithExercise(moved, next, ResetTimer(moved.exercises[next])))
  }

  /** `toggle_focus`: swap Weight and Reps on the selected exercise and restart its timer. */
  function ToggleFocus(app: App): (r: App)
    ensures Valid(app) ==> Valid(r)
    ensures |r.exercises| == |app.exercises|
    ensures app.selected >= |app.exercises| ==> r == app
    ensures app.selected < |app.exercises| ==>
      var ex := app.exercises[app.selected];
      && r.exercises[app.selected].focus != ex.focus
      && r.exercises[app.selected] == ex.(focus := r.exercises[app.selected].focus, lastInput := None)
      && r == app.(exercises := app.exercises[app.selected := r.exercises[app.selected]])
  {
    if app.selected >= |app.exercises| then app
    else
      var ex := app.exercises[app.selected];
      WithExercise(app, app.selected, ResetTimer(ex.(focus := if ex.focus == Weight then Reps else Weight)))
  }

  /** `move_set_cursor`: move the set cursor by `delta`, clamped to the grid, and restart the
      timer. The source's `clamp(0, len - 1)` panics on an exercise with no sets, so that
      case is excluded. */
  function MoveSetCursor(app: App, delta: int): (r: App)
    requires app.selected < |app.exercises| ==> |app.exercises[app.selected].sets| > 0
    ensures Valid(app) ==> Valid(r)
    ensures |r.exercises| == |app.exercises|
    ensures app.selected >= |app.exercises| ==> r == app
    ensures app.selected < |app.exercises| ==>
      var ex := app.exercises[app.selected];
      && r.exercises[app.selected].cursor == Clamp(ex.cursor + delta, 0, |ex.sets| - 1)
      && r.exercises[app.selected].cursor < |ex.sets|
      && r.exercises[app.selected] == ex.(cursor := r.exercises[app.selected].cursor, lastInput := None)
      && r == app.(exercises := app.exercises[app.selected := r.exercises[app.selected]])
  {
    if app.selected >= |app.exercises| then app
    else
      var ex := app.exercises[app.selected];
      var next := Clamp(ex.cursor + delta, 0, |ex.sets| - 1);
      WithExercise(app, app.selected, ResetTimer(ex.(cursor := next)))
  }

  /** The last field of the last set of the last exercise: where `tab_next` stops. */
  predicate AtLastField(app: App) {
    && app.selected + 1 >= |app.exercises|
    && (app.selected < |app.exercises| ==>
          var ex := app.exercises[app.selected];
          ex.focus == Reps && ex.cursor + 1 >= |ex.sets|)
  }

  /** The first field of the first set of the first exercise: where `tab_prev` stops. */
  predicate AtFirstField(app: App) {
    && app.selected == 0
    && (0 < |app.exercises| ==>
          var ex := app.exercises[0];
          ex.focus == Weight && ex.cursor == 0)
  }

  /** `tab_next`: Weight to Reps, then to the next set's Weight, then to the first set of the
      next exercise (trimming the one left); nothing past the very last field. */
  function TabNext(app: App): (r: Step)
    ensures Valid(app) ==> Valid(r.app)
    ensures AtLastField(app) ==> r == Step(app, [])
    ensures |r.requests| <= 1
    ensures |r.app.exercises| == |app.exercises| && r.app.day == app.day
    ensures Valid(app) && |app.exercises| > 0 ==>
      var ex := app.exercises[app.selected];
      && (ex.focus == Weight ==> r.app.selected == app.selected && r.app.exercises[app.selected].focus == Reps
                                 && r.app.exercises[app.selected].cursor == ex.cursor)
      && (ex.focus == Reps && ex.cursor + 1 < |ex.sets| ==>
            r.app.selected == app.selected && r.app.exercises[app.selected].focus == Weight
            && r.app.exercises[app.selected].cursor == ex.cursor + 1)
      && (ex.focus == Reps && ex.cursor + 1 >= |ex.sets| && app.selected + 1 < |app.exercises| ==>
            r.app.selected == app.selected + 1 && r.app.exercises[r.app.selected].focus == Weight
            && r.app.exercises[r.app.selected].cursor == 0)
    ensures Valid(app) && |app.exercises| > 0 ==>
      var ex := app.exercises[app.selected];
      && r.app.view == app.view
      && (forall i :: 0 <= i < |app.exercises| && i != app.selected && i != r.app.selected ==>
            r.app.exercises[i] == app.exercises[i])
      && (ex.focus == Weight ==> r == Step(app.(exercises := app.exercises[app.selected := ex.(focus := Reps, lastInput := None)]), []))
      && (ex.focus == Reps && ex.cursor + 1 < |ex.sets| ==>
            r == Step(app.(exercises := app.exercises[app.selected := ex.(cursor := ex.cursor + 1, focus := Weight, lastInput := None)]), []))
      && (ex.focus == Reps && ex.cursor + 1 >= |ex.sets| && app.selected + 1 < |app.exercises| ==>
            var nx := app.exercises[app.selected + 1];
            && r.app.exercises[app.selected] == TrimEmptyTrailing(ex)
            && r.app.exercises[app.selected + 1] == nx.(cursor := 0, focus := Weight, lastInput := None)
            && r == RequestCurrentSets(r.app.(loadingSets := app.loadingSets)))
  {
    if |app.exercises| == 0 then Step(app, [])
    else if app.selected < |app.exercises| && app.exercises[app.selected].focus == Weight then
      var ex := app.exercises[app.selected];
      Step(WithExercise(app, app.selected, ResetTimer(ex.(focus := Reps))), [])
    else if app.selected < |app.exercises| && app.exercises[app.selected].cursor + 1 < |app.exercises[app.selected].sets| then
      var ex := app.exercises[app.selected];
      Step(WithExercise(app, app.selected, ResetTimer(ex.(cursor := ex.cursor + 1, focus := Weight))), [])
    else if app.selected + 1 < |app.exercises| then ToNextExercise(app)
    else Step(app, [])
  }

  /** The last step of `tab_next`: trim the exercise being left and land on the first set
      and Weight field of the next one, asking for its sets. */
  function ToNextExercise(app: App): (r: Step)
    requires app.selected + 1 < |app.exercises|
    ensures Valid(app) ==> Valid(r.app)
    ensures |r.requests| <= 1
    ensures |r.app.exercises| == |app.exercises| && r.app.day == app.day && r.app.view == app.view
    ensures r.app.selected == app.selected + 1
    ensures forall i :: 0 <= i < |app.exercises| && i != app.selected && i != app.selected + 1 ==>
      r.app.exercises[i] == app.exercises[i]
    ensures r.app.exercises[app.selected] == TrimEmptyTrailing(app.exercises[app.selected])
    ensures r.app.exercises[app.selected + 1]
      == app.exercises[app.selected + 1].(cursor := 0, focus := Weight, lastInput := None)
    ensures r == RequestCurrentSets(r.app.(loadingSets := app.loadingSets))
  {
    var trimmed := WithExercise(app, app.selected, TrimEmptyTrailing(app.exercises[app.selected]));
    var next := app.selected + 1;
    var moved := trimmed.(selected := next);
    var ex := moved.exercises[next];
    RequestCurrentSets(WithExercise(moved, next, ResetTimer(ex.(cursor := 0, focus := Weight))))
  }

  /** `tab_prev`: the mirror of `tab_next`, landing on the previous exercise's last set and
      Reps field; nothing before the very first field. */
  function TabPrev(app: App): (r: Step)
    ensures Valid(app) ==> Valid(r.app)
    ensures AtFirstField(app) ==> r == Step(app, [])
    ensures |r.requests| <= 1
    ensures |r.app.exercises| == |app.exercises| && r.app.day == app.day
    ensures Valid(app) && |app.exercises| > 0 ==>
      var ex := app.exercises[app.selected];
      && (ex.focus == Reps ==> r.app.selected == app.selected && r.app.exercises[app.selected].focus == Weight
                               && r.app.exercises[app.selected].cursor == ex.cursor)
      && (ex.focus == Weight && ex.cursor > 0 ==>
            r.app.selected == app.selected && r.app.exercises[app.selected].focus == Reps
            && r.app.exercises[app.selected].cursor == ex.cursor - 1)
      && (ex.focus == Weight && ex.cursor == 0 && app.selected > 0 ==>
            r.app.selected == app.selected - 1 && r.app.exercises[r.app.selected].focus == Reps
            && r.app.exercises[r.app.selected].cursor == |app.exercises[app.selected - 1].sets| - 1)
    ensures Valid(app) && |app.exercises| > 0 ==>
      var ex := app.exercises[app.selected];
      && r.app.view == app.view
      && (forall i :: 0 <= i < |app.exercises| && i != app.selected && i != r.app.selected ==>
            r.app.exercises[i] == app.exercises[i])
      && (ex.focus == Reps ==> r == Step(app.(exercises := app.exercises[app.selected := ex.(focus := Weight, lastInput := None)]), []))
      && (ex.focus == Weight && ex.cursor > 0 ==>
            r == Step(app.(exercises := app.exercises[app.selected := ex.(cursor := ex.cursor - 1, focus := Reps, lastInput := None)]), []))
      && (ex.focus == Weight && ex.cursor == 0 && app.selected > 0 ==>
            var pv := app.exercises[app.selected - 1];
            && r.app.exercises[app.selected] == TrimEmptyTrailing(ex)
            && r.app.exercises[app.selected - 1] == pv.(cursor := |pv.sets| - 1, focus := Reps, lastInput := None)
            && r == RequestCurrentSets(r.app.(loadingSets := app.loadingSets)))
  {
    if |app.exercises| == 0 then Step(app, [])
    else if app.selected < |app.exercises| && app.exercises[app.selected].focus == Reps then
      var ex := app.exercises[app.selected];
      Step(WithExercise(app, app.selected, ResetTimer(ex.(focus := Weight))), [])
    else if app.selected < |app.exercises| && app.exercises[app.selected].cursor > 0 then
      var ex := app.exercises[app.selected];
      Step(WithExercise(app, app.selected, ResetTimer(ex.(cursor := ex.cursor - 1, focus := Reps))), [])
    else if app.selected > 0 then ToPrevExercise(app)
    else Step(app, [])
  }

  /** The last step of `tab_prev`: trim the exercise being left and land on the last set and
      Reps field of the previous one, asking for its sets. */
  function ToPrevExercise(app: App): (r: Step)
    requires 0 < app.selected
    ensures Valid(app) ==> Valid(r.app)
    ensures |r.requests| <= 1
    ensures |r.app.exercises| == |app.exercises| && r.app.day == app.day && r.app.view == app.view
    ensures r.app.selected == app.selected - 1
    ensures forall i :: 0 <= i < |app.exercises| && i != app.selected && i != app.selected - 1 ==>
      r.app.exercises[i] == app.exercises[i]
    ensures app.selected < |app.exercises| ==>
      r.app.exercises[app.selected] == TrimEmptyTrailing(app.exercises[app.selected])
    ensures app.selected - 1 < |app.exercises| ==>
      var pv := app.exercises[app.selected - 1];
      r.app.exercises[app.selected - 1]
        == pv.(cursor := if |pv.sets| > 0 then |pv.sets| - 1 else 0, focus := Reps, lastInput := None)
    ensures r == RequestCurrentSets(r.app.(loadingSets := app.loadingSets))
  {
    var trimmed :=
      if app.selected < |app.exercises|
      then WithExercise(app, app.selected, TrimEmptyTrailing(app.exercises[app.selected]))
      else app;
    var prev := app.selected - 1;
    var moved := trimmed.(selected := prev);
    if prev < |moved.exercises| then
      var ex := moved.exercises[prev];
      var last := if |ex.sets| > 0 then |ex.sets| - 1 else 0;
      RequestCurrentSets(WithExercise(moved, prev, ResetTimer(ex.(cursor := last, focus := Reps))))
    else RequestCurrentSets(moved)
  }

  /** The field position the cursor is on: exercise, set and focus. */
  function Position(app: App): (p: (nat, nat, Focus))
    requires app.selected < |app.exercises|
    ensures p.0 == app.selected
  {
    (app.selected, app.exercises[app.selected].cursor, app.exercises[app.selected].focus)
  }

  /** Within one exercise, `tab_prev` undoes `tab_next`: the cursor returns to the field it
      left and the requests are empty both ways. */
  lemma TabPrevUndoesTabNext(app: App)
    requires Valid(app) && |app.exercises| > 0
    requires var ex := app.exercises[app.selected]; ex.focus == Weight || ex.cursor + 1 < |ex.sets|
    ensures var fwd := TabNext(app);
      && fwd.requests == [] && TabPrev(fwd.app).requests == []
      && Position(TabPrev(fwd.app).app) == Position(app)
  {
  }

  /** `input_char`: a character typed into the focused field. Weight input is pushed and
      synced. Reps input first auto-advances if the timer expired, then pushes and syncs,
      then advances again when the digit committed the count on its own. */
  function InputChar(app: App, ch: char, now: int, wall: int): (r: Step)
    ensures Valid(app) ==> Valid(r.app)
    ensures app.selected >= |app.exercises| ==> r == Step(app, [])
    ensures |r.requests| <= 1 && forall q :: q in r.requests ==> q.SaveSet? && q.day == app.day
    ensures |r.app.exercises| == |app.exercises| && r.app.day == app.day
    ensures r.app.selected == app.selected && r.app.loadingSets == app.loadingSets
  {
    if app.selected >= |app.exercises| then Step(app, [])
    else
      var ex := app.exercises[app.selected];
      match ex.focus
      case Weight =>
        SyncCurrentSet(WithExercise(app, app.selected, PushWeightChar(ex, ch, now)))
      case Reps => InputRepsChar(app, ch, now, wall)
  }

  /** The reps branch of `input_char`: an expired timer first moves to the next set, the
      digit goes into the reps buffer, the set is synced, and a buffer that cannot take
      another digit moves on again. */
  function InputRepsChar(app: App, ch: char, now: int, wall: int): (r: Step)
    requires app.selected < |app.exercises|
    ensures Valid(app) ==> Valid(r.app)
    ensures |r.requests| <= 1 && forall q :: q in r.requests ==> q.SaveSet? && q.day == app.day
    ensures |r.app.exercises| == |app.exercises| && r.app.day == app.day
    ensures r.app.selected == app.selected && r.app.loadingSets == app.loadingSets
  {
    var advanced := if ShouldAutoAdvance(app.exercises[app.selected], now) then AdvanceSet(app) else app;
    var pushed := PushRepsChar(advanced.exercises[app.selected], ch, now, wall);
    var synced := SyncCurrentSet(WithExercise(advanced, app.selected, pushed.0));
    if pushed.1 then Step(AdvanceSet(synced.app), synced.requests) else synced
  }

  /** A digit typed into the reps field of a set whose timer has not expired lands in that
      set: it extends the buffer (restarted when the timer was idle), the reps are reparsed,
      and the cursor moves on exactly when the digit commits the count on its own. */
  lemma InputRepsDigitLands(app: App, ch: char, now: int, wall: int)
    requires app.selected < |app.exercises|
    requires var ex := app.exercises[app.selected];
      IsAsciiDigit(ch) && ex.cursor < |ex.sets| && !ShouldAutoAdvance(ex, now)
    ensures var ex := app.exercises[app.selected];
      var before := if TimerIdle(ex.lastInput, now) then [] else ex.sets[ex.cursor].repsBuffer;
      var ex' := InputRepsChar(app, ch, now, wall).app.exercises[app.selected];
      && ex'.cursor == (if CommitsAlone(before, ch) then ex.cursor + 1 else ex.cursor)
      && ex.cursor < |ex'.sets|
      && ex'.sets[ex.cursor].repsBuffer == before + [ch]
      && ex'.sets[ex.cursor].reps == ParseI32(before + [ch])
  {
    var ex := app.exercises[app.selected];
    var pushed := PushRepsChar(ex, ch, now, wall);
    var synced := SyncCurrentSet(WithExercise(app, app.selected, pushed.0));
    assert synced.app.exercises[app.selected].cursor == ex.cursor;
    assert synced.app.exercises[app.selected].sets[ex.cursor].repsBuffer == pushed.0.sets[ex.cursor].repsBuffer;
    assert synced.app.exercises[app.selected].sets[ex.cursor].reps == pushed.0.sets[ex.cursor].reps;
  }

  /** `backspace`: delete in the focused field, then sync. */
  function Backspace(app: App, wall: int): (r: Step)
    ensures Valid(app) ==> Valid(r.app)
    ensures app.selected >= |app.exercises| ==> r == Step(app, [])
    ensures |r.requests| <= 1 && forall q :: q in r.requests ==> q.SaveSet?
    ensures |r.app.exercises| == |app.exercises| && r.app.selected == app.selected
  {
    if app.selected >= |app.exercises| then Step(app, [])
    else
      var ex := app.exercises[app.selected];
      var edited := if ex.focus == Weight then BackspaceWeight(ex) else BackspaceReps(ex, wall);
      SyncCurrentSet(WithExercise(app, app.selected, edited))
  }

  /** `bump_weight` of the app: adjust the selected exercise's weight, then sync. */
  function BumpWeightBy(app: App, delta: real): (r: Step)
    ensures Valid(app) ==> Valid(r.app)
    ensures app.selected >= |app.exercises| ==> r == Step(app, [])
    ensures |r.requests| <= 1 && forall q :: q in r.requests ==> q.SaveSet?
    ensures |r.app.exercises| == |app.exercises| && r.app.selected == app.selected
  {
    if app.selected >= |app.exercises| then Step(app, [])
    else SyncCurrentSet(WithExercise(app, app.selected, BumpWeight(app.exercises[app.selected], delta)))
  }

  /** Sets renumbered 1..n in order, nothing else changed. */
  function Renumber(sets: seq<SetState>): (r: seq<SetState>)
    ensures |r| == |sets|
    ensures forall i :: 0 <= i < |sets| ==> r[i].number == i + 1 && r[i].(number := sets[i].number) == sets[i]
  {
    seq(|sets|, i requires 0 <= i < |sets| => sets[i].(number := i + 1))
  }

  /** The cursor must be on a set for `Vec::remove` not to panic. */
  predicate CursorOnGrid(app: App) {
    app.selected < |app.exercises| ==>
      var ex := app.exercises[app.selected];
      |ex.sets| == 0 || ex.cursor < |ex.sets|
  }

  /** `delete_current_set`: remove the cursor set of an exercise with an id, leave a blank
      set when none remain, renumber 1..n, clamp the cursor, and ask the server to delete the
      set only when it had a server id. */
  function DeleteCurrentSet(app: App): (r: Step)
    requires CursorOnGrid(app)
    ensures Valid(app) ==> Valid(r.app)
    ensures |r.requests| <= 1
    ensures r.app.(exercises := app.exercises) == app && |r.app.exercises| == |app.exercises|
    ensures (app.selected >= |app.exercises| || app.exercises[app.selected].id.None?
             || |app.exercises[app.selected].sets| == 0) ==> r == Step(app, [])
    ensures app.selected < |app.exercises| && app.exercises[app.selected].id.Some?
            && |app.exercises[app.selected].sets| > 0 ==>
      var ex := app.exercises[app.selected];
      var removed := ex.sets[ex.cursor];
      && r.app.exercises == app.exercises[app.selected := RemoveAtCursor(ex)]
      && (r.requests != [] <==> removed.id.Some?)
      && (r.requests != [] ==> r.requests == [DeleteSet(app.day, ex.id.value, removed.number)])
  {
    if app.selected >= |app.exercises| then Step(app, [])
    else
      var ex := app.exercises[app.selected];
      if ex.id.None? || |ex.sets| == 0 then Step(app, [])
      else
        var removed := ex.sets[ex.cursor];
        var app' := WithExercise(app, app.selected, RemoveAtCursor(ex));
        Step(app', if removed.id.Some? then [DeleteSet(app.day, ex.id.value, removed.number)] else [])
  }

  /** The grid half of `delete_current_set`: the cursor set leaves, a blank set fills an
      emptied grid, the sets are renumbered and the cursor is clamped to the last set. */
  function RemoveAtCursor(ex: ExerciseState): (r: ExerciseState)
    requires ex.cursor < |ex.sets|
    ensures r.(sets := ex.sets, cursor := ex.cursor) == ex
    ensures |r.sets| == (if |ex.sets| == 1 then 1 else |ex.sets| - 1)
    ensures forall i :: 0 <= i < |r.sets| ==> r.sets[i].number == i + 1
    ensures |ex.sets| > 1 ==> forall i :: 0 <= i < |r.sets| ==>
      r.sets[i].(number := 0) == (if i < ex.cursor then ex.sets[i] else ex.sets[i + 1]).(number := 0)
    ensures |ex.sets| == 1 ==> r.sets == [Empty(1, ex.defaultWeight)]
    ensures r.cursor < |r.sets|
    ensures r.cursor == if ex.cursor < |r.sets| then ex.cursor else |r.sets| - 1
  {
    var rest := ex.sets[..ex.cursor] + ex.sets[ex.cursor + 1..];
    var filled := if |rest| == 0 then [Empty(1, ex.defaultWeight)] else rest;
    var sets := Renumber(filled);
    var cursor := if ex.cursor < |sets| - 1 then ex.cursor else |sets| - 1;
    ex.(sets := sets, cursor := cursor)
  }

  /** Deleting the only set leaves exactly one blank set. */
  lemma DeleteOnlySetLeavesBlank(app: App)
    requires Valid(app) && |app.exercises| > 0
    requires app.exercises[app.selected].id.Some? && |app.exercises[app.selected].sets| == 1
    ensures var ex' := DeleteCurrentSet(app).app.exercises[app.selected];
      |ex'.sets| == 1 && IsEmpty(ex'.sets[0]) && ex'.cursor == 0
  {
  }

  /** `handle_response` for the set responses. A response for a day other than the
      displayed one changes no exercise; a loaded list still clears its loading key. A saved
      set is reconciled into the exercise with that id as it is now, and a failed save asks
      for the authoritative list. */
  function HandleResponse(app: App, resp: Response, now: int, wall: int): (r: Step)
    ensures Valid(app) ==> Valid(r.app)
    ensures resp.day != app.day ==> r.app.exercises == app.exercises && r.requests == []
    ensures resp.day != app.day && !resp.SetsLoaded? ==> r.app == app
    ensures resp.SetsLoaded? ==> (resp.day, resp.exerciseId) !in r.app.loadingSets
    ensures resp.SetsLoaded? ==> r.app.loadingSets == app.loadingSets - {(resp.day, resp.exerciseId)}
    ensures resp.SetsLoaded? && resp.day == app.day ==>
      && r.requests == []
      && r.app.(exercises := app.exercises, loadingSets := app.loadingSets) == app
      && (resp.loaded.Ok? && FindExercise(app.exercises, resp.exerciseId).Some? ==>
            var k := FindExercise(app.exercises, resp.exerciseId).value;
            r.app.exercises == app.exercises[k := ApplyServerSets(app.exercises[k], resp.loaded.value)])
      && (resp.loaded.Err? || FindExercise(app.exercises, resp.exerciseId).None? ==>
            r.app.exercises == app.exercises)
    ensures resp.SetSaved? && resp.day == app.day && resp.saved.Err? ==>
      r == RequestSetsFor(app, resp.exerciseId)
    ensures resp.SetSaved? && resp.day == app.day && resp.saved.Ok? ==>
      && r.requests == [ActivityRequest(wall)]
      && r.app.(exercises := app.exercises) == app
      && (FindExercise(app.exercises, resp.exerciseId).None? ==> r.app == app)
      && (FindExercise(app.exercises, resp.exerciseId).Some? ==>
            var k := FindExercise(app.exercises, resp.exerciseId).value;
            r.app.exercises == app.exercises[k := ApplySavedSet(app.exercises[k], resp.saved.value, now)])
    ensures resp.SetDeleted? && resp.day == app.day && resp.deleted.Ok? ==>
      var req := RequestSetsFor(app, resp.exerciseId);
      r.app == req.app && r.requests == req.requests + [ActivityRequest(wall)]
    ensures resp.SetDeleted? && resp.day == app.day && resp.deleted.Err? ==> r == Step(app, [])
  {
    match resp
    case SetsLoaded(id, day, loaded) =>
      var cleared := app.(loadingSets := app.loadingSets - {(day, id)});
      if day != app.day then Step(cleared, [])
      else
        (match loaded
         case Ok(data) =>
           (match FindExercise(cleared.exercises, id)
            case Some(k) => Step(WithExercise(cleared, k, ApplyServerSets(cleared.exercises[k], data)), [])
            case None => Step(cleared, []))
         case Err(_) => Step(cleared, []))
    case SetSaved(id, day, _, saved) =>
      if day != app.day then Step(app, [])
      else
        (match saved
         case Ok(ws) =>
           var reconciled :=
             match FindExercise(app.exercises, id)
             case Some(k) => WithExercise(app, k, ApplySavedSet(app.exercises[k], ws, now))
             case None => app;
           Step(reconciled, [ActivityRequest(wall)])
         case Err(_) => RequestSetsFor(app, id))
    case SetDeleted(id, day, _, deleted) =>
      if day != app.day then Step(app, [])
      else
        match deleted
        case Ok(_) =>
          var req := RequestSetsFor(app, id);
          Step(req.app, req.requests + [ActivityRequest(wall)])
        case Err(_) => Step(app, [])
  }

  /** Stale responses, whatever their order, leave the exercises as they are. */
  lemma {:induction false} StaleResponsesIgnored(app: App, resps: seq<Response>, now: int, wall: int)
    requires forall i :: 0 <= i < |resps| ==> resps[i].day != app.day
    ensures ApplyAll(app, resps, now, wall).exercises == app.exercises
    ensures ApplyAll(app, resps, now, wall).day == app.day
    decreases |resps|
  {
    if |resps| > 0 {
      var next := HandleResponse(app, resps[0], now, wall).app;
      assert next.day == app.day;
      StaleResponsesIgnored(next, resps[1..], now, wall);
    }
  }

  /** A batch of responses handled in arrival order. */
  function ApplyAll(app: App, resps: seq<Response>, now: int, wall: int): (r: App)
    ensures Valid(app) ==> Valid(r)
    decreases |resps|
  {
    if |resps| == 0 then app
    else ApplyAll(HandleResponse(app, resps[0], now, wall).app, resps[1..], now, wall)
  }
}

=== FILE: wrappers.dfy ===
/** Failure-carrying values shared by every module of the model. */
module Wrappers {

  /** Rust's `Option<T>`. */
  datatype Option<+T> = None | Some(value: T)

  /** Rust's `Result<T, E>`. */
  datatype Result<+T, +E> = Ok(value: T) | Err(error: E)
}
